=== FILE: README.md ===
# Ticket storefront: a Dafny model of its decision logic

The storefront sells event tickets. It is a Next.js application over a Supabase database and
auth service, the MercadoPago checkout gateway and the Resend mail service. This project models
what the application itself decides around those services:

- the shopping cart and its totals;
- the ticket-count selector on an event page;
- the checkout request handlers: order creation, payment preference, transaction record;
- the client data layer: the error hook, sold-ticket counts, new ticket and purchase rows, QR codes;
- profile pictures and profile updates;
- the access-control decisions: the auth error classifier, roles, the route guard, the server
  guards and the OAuth callback;
- the payment return pages and the mail dispatch.

Every external service becomes either data the model holds or a parameter:

- The database tables are `seq`/`map` fields of `Tables.Store`.
- The gateway's reply, a query's failure and the clock are parameters.
- So are the random text behind generated names and whether a text parses as a URL.
- JavaScript values (`undefined`, `null`, objects, truthiness, `||`) are modelled in `Js`.

Code that changes state step by step is modelled imperatively: the cart, the selector, the auth
state, the payment pages' flags and the route handlers that write tables. Each method is proved
against specification functions, and lemmas state what those functions promise. The pure parts
(validation chains, redirect decisions, string helpers) are functions with contracts.

Modules, one per source file, plus shared pieces:

- `Wrappers`: Option and Result.
- `Text`: the JavaScript string operations the code uses: `includes`, `split`, `join`, `trim`,
  ASCII case mapping, `substring`, decimal rendering.
- `Js`: JSON values, `||` and truthiness.
- `Tables`: the rows and the `Store`.
- `Gateway`: the checkout preference and the pending-payment record both payment routes build.
- `CheckoutFlow`: lemmas that follow one hand-off between two source files through both models.

## Model

| member | source | states |
|---|---|---|
| `CartContext.FindIndex` | contexts/cart-context.tsx:48-50 | the result is -1 exactly when no entry has the (event, ticket type) pair, else the first entry that has it |
| `CartContext.AddedShape` | contexts/cart-context.tsx:44-63 | adding a held pair grows that entry's quantity by the new quantity, keeping its id, price and details and the cart's length; adding a new pair appends one entry with the new item and the given id, earlier entries unchanged |
| `CartContext.AddedQuantities` | contexts/cart-context.tsx:44-63 | adding raises the tickets held for the item's pair by its quantity, leaves every other pair's tickets alone, and raises the item total by the quantity |
| `CartContext.AddedSubtotal` | contexts/cart-context.tsx:52-62 | adding raises the subtotal by the added quantity at the existing entry's price on a merge, or at the new item's price on an append |
| `CartContext.AddedKeepsKeysUnique` | contexts/cart-context.tsx:44-63 | adding to a cart with unique (event, ticket type) pairs keeps them unique |
| `CartContext.ReplacedQuantities` | contexts/cart-context.tsx:65-84 | with unique pairs, replacing sets the tickets held for the pair to exactly the new quantity (not a sum), leaves other pairs alone and keeps pairs unique |
| `CartContext.RemovedSpec` | contexts/cart-context.tsx:86-88 | removal keeps exactly the entries whose id differs, and never grows the cart |
| `CartContext.RemovedAppend` | contexts/cart-context.tsx:86-88 | removal distributes over concatenation, so the kept entries stay in order |
| `CartContext.RemovedKeepsKeysUnique` | contexts/cart-context.tsx:86-88 | removal keeps pairs unique |
| `CartContext.QuantitySetKeepsKeysUnique` | contexts/cart-context.tsx:96-98 | setting the quantity of the entries with an id keeps pairs unique |
| `CartContext.QuantityUpdatedSpec` | contexts/cart-context.tsx:90-99 | a quantity of zero or less is the removal of that id; a positive quantity changes only the quantity of the entries with that id; pairs stay unique |
| `CartContext.RemovedFoundKey` | contexts/cart-context.tsx:106-112 | after removing the entry a pair was found at, a cart with unique pairs no longer holds that pair |
| `CartContext.ItemQuantityUpdatedSpec` | contexts/cart-context.tsx:101-123 | with item data (if any) for that same pair: zero or less leaves the pair absent, and leaves the cart unchanged when the pair was not there; a positive quantity leaves exactly that many tickets of the pair, unless the pair was absent and no item data was given, when the cart is unchanged; pairs stay unique |
| `CartContext.ItemQuantityUpdatedOthers` | contexts/cart-context.tsx:101-123 | when no two entries share an id, the tickets of every other pair are untouched |
| `CartContext.IdsCanCollide` | contexts/cart-context.tsx:44-123 | event "a-b" with ticket type "c" and event "a" with ticket type "b-c", added in the same millisecond, get one id, so setting the second pair to zero through `updateItemQuantity` empties the cart |
| `CartContext.QuantityOfRemoved` | contexts/cart-context.tsx:86-88 | removing entries that are not for a pair leaves that pair's tickets unchanged |
| `CartContext.QuantitySetOthers` | contexts/cart-context.tsx:96-98 | setting the quantity of entries that are not for a pair leaves that pair's tickets unchanged |
| `CartContext.TotalPriceIsSubtotalPlusTax` | contexts/cart-context.tsx:138-145 | the tax is one twentieth of the subtotal and the total is twenty-one twentieths of it |
| `CartContext.TwoTicketsAtAThousand` | contexts/cart-context.tsx:134-145 | two tickets at 1000 give subtotal 2000, tax 100, total 2100 |
| `CartContext.TotalItemsAppend` | contexts/cart-context.tsx:130-132 | the item total of two carts joined is the sum of their item totals |
| `CartContext.SubtotalAppend` | contexts/cart-context.tsx:134-136 | the subtotal of two carts joined is the sum of their subtotals |
| `CartContext.UpdateSums` | contexts/cart-context.tsx:130-136 | changing one entry moves the item total and the subtotal by the difference between the new and old entry |
| `CartContext.QuantityOfUnique` | contexts/cart-context.tsx:47-50 | in a cart with unique pairs, the tickets counted for a held pair are those of its one entry |
| `CartContext.Cart.constructor` | contexts/cart-context.tsx:41-42 | a new cart is empty with payment method card |
| `CartContext.Cart.AddToCart` | contexts/cart-context.tsx:44-63 | the entries become the added cart, under the id built from event, ticket type and clock; pairs stay unique |
| `CartContext.Cart.ReplaceInCart` | contexts/cart-context.tsx:65-84 | the entries become the replaced cart; pairs stay unique |
| `CartContext.Cart.RemoveFromCart` | contexts/cart-context.tsx:86-88 | the entries become the cart without that id |
| `CartContext.Cart.UpdateQuantity` | contexts/cart-context.tsx:90-99 | the entries become the quantity-updated cart |
| `CartContext.Cart.UpdateItemQuantity` | contexts/cart-context.tsx:101-123 | the entries become the cart `updateItemQuantity` leaves, with the payment method unchanged |
| `CartContext.Cart.SetPaymentMethod` | contexts/cart-context.tsx:30 | only the payment method changes |
| `CartContext.Cart.ClearCart` | contexts/cart-context.tsx:125-128 | the cart is empty and the payment method is card |
| `CartContext.Cart.GetTotalItems` | contexts/cart-context.tsx:130-132 | the loop returns the sum of the quantities |
| `CartContext.Cart.GetSubtotal` | contexts/cart-context.tsx:134-136 | the loop returns the sum of price times quantity |
| `CartContext.Cart.GetTaxes` | contexts/cart-context.tsx:138-141 | five percent of the subtotal |
| `CartContext.Cart.GetTotalPrice` | contexts/cart-context.tsx:143-145 | subtotal plus five percent |
| `TicketQuantities.Max0` | hooks/use-events.ts:107 | `Math.max(0, n)`: at least n, and either 0 or n |
| `TicketQuantities.InitialQuantities` | hooks/use-events.ts:90-101 | the record has exactly the given ticket type ids as keys, each at zero (empty for no ticket types) |
| `TicketQuantities.MapSumRemove` | hooks/use-events.ts:118-120 | any entry can be taken out of the total first |
| `TicketQuantities.MapSumNonNegative` | hooks/use-events.ts:118-120 | non-negative counts sum to a non-negative total |
| `TicketQuantities.MapSumUpdate` | hooks/use-events.ts:104-116 | writing one count moves the total by the difference between the new and old count |
| `TicketQuantities.ChangedTotal` | hooks/use-events.ts:104-109 | `updateQuantity` keeps every count non-negative and moves the total by exactly the change of that one count (by `change` when it is not negative) |
| `TicketQuantities.SetToTotal` | hooks/use-events.ts:111-116 | `setQuantity` stores max(0, q), keeps counts non-negative and moves the total accordingly |
| `TicketQuantities.SelectedTicketsSpec` | hooks/use-events.ts:129-136 | the selection holds exactly the given ticket types with a positive count, each with that count, and is no longer than the input |
| `TicketQuantities.SelectedTicketsAppend` | hooks/use-events.ts:129-136 | the selection keeps the input order: selecting from two lists joined is selecting from each, in turn |
| `TicketQuantities.SelectionTotalAppend` | hooks/use-events.ts:122-127 | the price of two selections joined is the sum of their prices |
| `TicketQuantities.SelectedTotalIsCalculatedTotal` | hooks/use-events.ts:122-136 | with non-negative counts, pricing the selected list gives `calculateTotal` over all ticket types |
| `TicketQuantities.Selector.constructor` | hooks/use-events.ts:90-94 | the selector starts with an empty record |
| `TicketQuantities.Selector.Reset` | hooks/use-events.ts:90-102 | the record becomes the given ids, each at zero |
| `TicketQuantities.Selector.UpdateQuantity` | hooks/use-events.ts:104-109 | the record becomes the changed record, counts stay non-negative |
| `TicketQuantities.Selector.SetQuantity` | hooks/use-events.ts:111-116 | the record becomes the set record, counts stay non-negative |
| `TicketQuantities.Selector.GetTotalQuantity` | hooks/use-events.ts:118-120 | the loop returns the sum of all counts, which is not negative |
| `Api.HandleSupabaseError` | lib/api.ts:11-18 | returns normally exactly when a handler is installed and claims the error; otherwise throws with the error's message |
| `Api.CountAbsent` | lib/api.ts:161-167 | a ticket type with no sold rows has a count of zero |
| `Api.TallySold` | lib/api.ts:161-167 | the tally holds exactly the ticket type ids that occur in the sold rows, each with its number of rows (at least one) |
| `Api.WithSoldCounts` | lib/api.ts:170-177 | the ticket type list keeps its length |
| `Api.GetEvent` | lib/api.ts:128-179 | a failed event query ends in the error hook's throw or "Event not found"; otherwise the event is returned with each ticket type in order, its sold count (zero when the sold-count query failed) and `total_quantity` as available |
| `Api.AvailableIgnoresSold` | lib/api.ts:175 | availability is the same whatever the sold counts |
| `Api.CountsBounded` | lib/api.ts:161-167 | a sold count never exceeds the number of sold rows, and is positive exactly when the ticket type occurs |
| `Api.QRCodeParts` | lib/api.ts:600-604 | the code starts with "QR-", its suffix has at most 9 characters, and splitting at dashes gives back "QR", the clock reading and the suffix |
| `Api.NewTicketRowDefaults` | lib/api.ts:339-350 | a new ticket is unscanned, created now, carries the QR code generated from the clock and random text (which starts "QR-"), is pending unless a status was given, and keeps the caller's ticket type, event, price and purchaser |
| `Api.CreateTicket` | lib/api.ts:331-367 | a successful insert returns the row; a failed one returns no ticket exactly when the handler claims the error, and otherwise throws the error's message |
| `Api.CreatePurchase` | lib/api.ts:199-223 | the row is pending with the caller's data, created and updated now, exactly when the insert succeeds; an error gives "Failed to create purchase: " followed by the store's error message |
| `Tables.SelectById` | app/api/payment/route.ts:11-15 | `.single()` by id gives the row exactly when the query runs and the key is a text naming a row; otherwise an error |
| `PurchaseRoute.Validate` | app/api/purchase/route.ts:7-88 | a nullish body is a 500; every other rejection is a 400: a falsy required field is "Missing required fields"; then a cart that is not a non-empty array is "Cart items must be a non-empty array"; then a method other than "card" is "Invalid payment method", each exactly in its case; never an order; passes exactly for a complete card request |
| `PurchaseRoute.NewOrder` | app/api/purchase/route.ts:34-48 | the order is "waiting_payment" by card, with the request's user, event and total and a generated QR code |
| `PurchaseRoute.ItemRows` | app/api/purchase/route.ts:54-70 | one row per cart entry, in cart order, each from its entry and pointing at the order; none when an entry cannot be read |
| `PurchaseRoute.OneRowPerEntry` | app/api/purchase/route.ts:54-70 | for a readable cart, exactly one row per entry, the i-th built from the i-th entry |
| `PurchaseRoute.Post` | app/api/purchase/route.ts:5-89 | a rejected request writes nothing; an accepted one appends exactly one order, then its item rows; a failed item insert keeps the order and answers 500; success answers 200 with the order row |
| `Gateway.PayerOf` | app/api/payment/route.ts:38-41 | a nullish payer cannot be read; otherwise the e-mail is copied and the name is truthy or left undefined |
| `Gateway.PreferenceCharge` | app/api/payment/route.ts:29-50 | the preference charges one unit of the amount in pesos, with the reference as item id and external reference, the given payer and descriptor, the return pages base + "/payment/success", "/payment/failure" and "/payment/pending", and the notification hook base + "/api/payment/webhook" |
| `Gateway.CheckoutUrl` | app/api/payment/route.ts:71 | the gateway's `init_point` when truthy, else the empty text |
| `Gateway.PendingPayment` | app/api/payment/route.ts:62-72 | the answer is pending, "pending_payment", pesos, no method, one instalment, with the given id, amount and checkout link |
| `PaymentRoute.Post` | app/api/payment/route.ts:4-79 | a nullish body is a 500; a failed lookup is a 404 and nothing is sent; a preference is sent exactly when the purchase is found and the payer can be read, and it is the one-unit charge of the total for the purchase's id, with the request's payer, the return pages, the notification hook and "Event Tickets"; 200 exactly when it was sent and the gateway replied, answering with the purchase's id (not the gateway's) and the checkout link; every other outcome is a 500 |
| `PaymentRoute.NoLinkStillSucceeds` | app/api/payment/route.ts:61-74 | a gateway reply without `init_point` still gives 200 with an empty payment URL |
| `PaymentRoute.Get` | app/api/payment/route.ts:81-114 | no `purchaseId` is a 400; 200 with the row exactly when the lookup succeeds; otherwise 500 |
| `WebhookRoute.NewTransaction` | app/api/payment/webhook/route.ts:10-19 | the inserted row is pending, with the request's user and amount and `eventId` as order when truthy, else null |
| `WebhookRoute.Patched` | app/api/payment/webhook/route.ts:80-86 | rows with the id get the link and preference id; every other column and row is unchanged |
| `WebhookRoute.PatchKeepsStatus` | app/api/payment/webhook/route.ts:80-86 | the patch never changes a status or the set of ids |
| `WebhookRoute.Post` | app/api/payment/webhook/route.ts:5-104 | a failed insert answers 500 and sends nothing; otherwise one pending transaction is added; a preference is sent exactly when the payer can then be read, and it is the one-unit charge of the total for the new transaction, with the request's payer, the return pages, the notification hook and "Papel Restaurant"; 200 exactly when it was sent, the gateway replied and the update ran, and then the row is patched with the gateway's link and id and the answer carries the gateway's id, status pending and the link; a failed update is a 500; only the transactions table changes |
| `WebhookRoute.PostedTransaction` | app/api/payment/webhook/route.ts:10-86 | after a successful POST the new transaction is the last row, pending, carrying the link and the preference id; earlier rows are as they were |
| `WebhookRoute.Get` | app/api/payment/webhook/route.ts:107-132 | 200 with the row exactly when the query runs and exactly one row has that `order_id`; otherwise 500 |
| `WebhookRoute.MatchingSpec` | app/api/payment/webhook/route.ts:112-115 | the matching rows are exactly the rows with that `order_id` |
| `AvatarUtils.GetInitials` | lib/avatar-utils.ts:8-19 | "U" for an empty name; at most two characters |
| `AvatarUtils.InitialsOfTwoWords` | lib/avatar-utils.ts:13-18 | two words give their two first characters, upper-cased |
| `AvatarUtils.InitialsOfFirstTwoWords` | lib/avatar-utils.ts:13-18 | a name whose first two space-separated words are not empty gets their two first characters, upper-cased, whatever words follow |
| `AvatarUtils.InitialOfOneWord` | lib/avatar-utils.ts:13-18 | one word gives its first character, upper-cased |
| `AvatarUtils.BlankNameHasNoInitials` | lib/avatar-utils.ts:9-18 | a name of one space is not empty, so it gets empty initials rather than "U" |
| `AvatarUtils.IsSupabaseAvatar` | lib/avatar-utils.ts:78-81 | true exactly for a non-empty URL containing "user-avatars" |
| `AvatarUtils.ExtractSupabaseFilePath` | lib/avatar-utils.ts:86-91 | a path exactly when the URL contains "/user-avatars/"; the path is the text after the first separator up to the next one |
| `AvatarUtils.SeparatorNamesBucket` | lib/avatar-utils.ts:87-89 | a URL with the separator always passes the bucket check |
| `AvatarUtils.ExtractRoundTrip` | lib/avatar-utils.ts:86-91 | a path without the separator, placed under the bucket in a URL, comes back out |
| `AvatarUtils.ValidateAvatarFile` | lib/avatar-utils.ts:96-115 | "File must be an image" exactly for a non-image type; the size error exactly for an image over 5 MiB; valid exactly for a supported type of at most 5 MiB |
| `AvatarUtils.SupportedAreImages` | lib/avatar-utils.ts:109 | every supported type is an image type |
| `AvatarUtils.AvatarExtension` | lib/avatar-utils.ts:121 | the extension is never empty and holds no dot |
| `AvatarUtils.ExtensionOfDottedName` | lib/avatar-utils.ts:121 | the extension is the lower-cased text after the last dot, or "jpg" when that is empty |
| `AvatarUtils.FilenameEndsWithExtension` | lib/avatar-utils.ts:120-126 | the file name ends with a dot and the extension, and the text after its last dot is that extension |
| `AvatarUtils.GetValidAvatarUrl` | lib/avatar-utils.ts:24-36 | the URL exactly when it is non-empty and parses |
| `AvatarUtils.GetBestAvatarUrl` | lib/avatar-utils.ts:60-73 | the valid URL if there is one, else the placeholder generated for the user's name, or for "User" when the name is missing or empty, which is a URL of the avatar service; never empty |
| `AvatarUtils.AnonymousPlaceholder` | lib/avatar-utils.ts:41-72 | with no usable URL and no name, the placeholder is for "User" and shows the initial "U" |
| `AvatarRoute.CheckUpload` | app/api/upload/avatar/route.ts:10-38 | the checks in order, each a 400 with its own message exactly in its case: no file, then no user id, then not an image ("File must be an image"), then over 5 MiB ("File size must be less than 5MB"); passes exactly when all hold |
| `AvatarRoute.RouteChecksAgainstHelper` | app/api/upload/avatar/route.ts:24-38 | the route accepts exactly an image type of at most 5 MiB, so an SVG passes the route but fails `validateAvatarFile` |
| `AvatarRoute.WithAvatar` | app/api/upload/avatar/route.ts:75-81 | only the user's row changes, and only its picture and timestamp; a missing user changes nothing |
| `AvatarRoute.Post` | app/api/upload/avatar/route.ts:4-120 | a rejected request touches nothing; a failed upload answers 500 with the profile untouched; a failed profile update removes the uploaded file again and answers 500; success stores the public URL on the profile and answers with it |
| `AvatarRoute.DeletePath` | app/api/upload/avatar/route.ts:156-159 | the file to remove is never empty |
| `AvatarRoute.DeletePathIsExtractedPath` | app/api/upload/avatar/route.ts:156-159 | DELETE picks the file `extractSupabaseFilePath` names, except that an empty path removes nothing |
| `AvatarRoute.UploadedFileIsDeleted` | app/api/upload/avatar/route.ts:41-72 | a later DELETE with the URL POST stored removes exactly the file POST uploaded |
| `AvatarRoute.Delete` | app/api/upload/avatar/route.ts:122-185 | no user id is a 400 and nothing changes; a failed profile update is a 500 and no file is removed; otherwise the picture is cleared and the named file removed when there is one; a failed removal still answers 200 |
| `ProfileRoute.SingleUser` | app/api/profile/route.ts:16-20 | `.single()` gives a row exactly when it reports no error |
| `ProfileRoute.Get` | app/api/profile/route.ts:4-45 | no user id is a 400, a query error a 500, no row a 404, and 200 with the row exactly otherwise; no other status |
| `ProfileRoute.UnknownUserIs500` | app/api/profile/route.ts:16-38 | an unknown user is a 500, never a 404, because `.single()` reports a missing row as an error |
| `ProfileRoute.BuildUpdate` | app/api/profile/route.ts:59-92 | fails exactly on the first bad field (name, phone, picture) with its message; otherwise the patch has the timestamp, and each field exactly when the body has it: name trimmed, phone and picture trimmed or null |
| `ProfileRoute.EmptyPatchOnlyTouchesTimestamp` | app/api/profile/route.ts:60-62 | a body without fields changes only `updated_at` |
| `ProfileRoute.StoredNameIsTrimmed` | app/api/profile/route.ts:64-72 | a stored name is not blank and has no white space at either end |
| `ProfileRoute.Put` | app/api/profile/route.ts:47-121 | a nullish body, a missing user id or a bad field answers before any write; 200 exactly when the update runs and the user exists, with the patched row stored; otherwise the table is unchanged |
| `AuthContext.PhrasesListed` | contexts/auth-context.tsx:47-52 | a message names an auth phrase exactly when it includes one of the five listed phrases |
| `AuthContext.Classify` | contexts/auth-context.tsx:43-70 | a message with no `includes` throws; an auth error exactly when the message names a phrase, the status is 401 or the code is "PGRST301" |
| `AuthContext.CaseSensitive` | contexts/auth-context.tsx:48-52 | "jwt expired" is not an auth error while "JWT expired" is |
| `AuthContext.StatusOrCodeAlone` | contexts/auth-context.tsx:53-54 | with an empty message, status 401 or code "PGRST301" alone makes an auth error |
| `AuthContext.Effects` | contexts/auth-context.tsx:56-69 | an auth error signs out and then goes to /auth; anything else has no effect |
| `AuthContext.InstalledHandler` | contexts/auth-context.tsx:72-74 | with the context's handler installed, the error hook returns exactly for auth errors |
| `AuthContext.UserRole` | contexts/auth-context.tsx:127 | no user gives null; otherwise the user-metadata role when truthy, else the app-metadata role when truthy, else null |
| `AuthContext.UserFullName` | contexts/auth-context.tsx:128 | no user gives null; otherwise the metadata full_name when truthy, else name when truthy, else null |
| `AuthContext.UserMetadataRoleWins` | contexts/auth-context.tsx:127 | a truthy user-metadata role wins over the app-metadata role |
| `AuthContext.AnyRoleIsSomeRole` | contexts/auth-context.tsx:131-137 | holding any of several roles is holding one of them; one role listed is `hasRole`; nobody holds the empty role |
| `AuthContext.AuthState.constructor` | contexts/auth-context.tsx:37-39 | no user, no session, loading |
| `AuthContext.AuthState.OnAuthStateChange` | contexts/auth-context.tsx:99-113 | the session and its user are taken over and loading ends; a token refresh without a session also goes to /auth |
| `AuthContext.AuthState.LoadInitialSession` | contexts/auth-context.tsx:77-94 | a read session is taken over; an error leaves the state and triggers the classifier's effects; loading ends either way |
| `AuthGuard.Decide` | components/auth/auth-guard.tsx:24-70 | loading shows a spinner and does not navigate; without a user a protected path goes to /auth and shows a spinner, any other path navigates nowhere; a user goes to / from exactly /auth and navigates nowhere elsewhere; the children are drawn exactly when not loading and either signed in or on an unprotected path |
| `AuthGuard.RoutesListed` | components/auth/auth-guard.tsx:8-13 | a path is protected exactly when it starts with /profile, /tickets, /cart or /confirmation |
| `AuthGuard.ProtectedContentNeedsUser` | components/auth/auth-guard.tsx:59-67 | a protected page's content is never drawn without a user |
| `AuthGuard.PrefixMatching` | components/auth/auth-guard.tsx:29 | "/cartography" and "/tickets/42" are protected, "/payment/success" and "/" are not |
| `AuthServer.OrNull` | lib/auth-server.ts:40-76 | a value exactly when the read gave one; null on an error reply or an exception |
| `AuthServer.RequireAuth` | lib/auth-server.ts:83-91 | the user exactly when one was read, otherwise a redirect to /auth |
| `AuthServer.RequireAuthWithSession` | lib/auth-server.ts:97-108 | continues exactly when both user and session were read, otherwise a redirect to /auth |
| `AuthServer.RedirectIfAuthenticated` | lib/auth-server.ts:114-120 | redirects exactly when a user was read, to the given target or "/" |
| `AuthServer.OptionalAuth` | lib/auth-server.ts:127-134 | both reads, each kept when it gave a value and null on failure, never a redirect |
| `AuthServer.RequireRole` | lib/auth-server.ts:140-151 | continues exactly for a signed-in user whose role is the one required; no user goes to /auth, a wrong role to /unauthorized |
| `AuthServer.RequireAnyRole` | lib/auth-server.ts:156-167 | continues exactly for a signed-in user whose role is listed, handing back the user that was read; no user goes to /auth, a wrong role to /unauthorized |
| `AuthServer.ServerRoleMatchesClient` | lib/auth-server.ts:140-151 | for a non-empty role, the server guard admits exactly the users the client's `hasRole` accepts |
| `AuthServer.EmptyRoleDiffers` | lib/auth-server.ts:140-151 | with no null fallback, empty role fields pass the server guard for the empty role, which the client never grants |
| `AuthServer.AnyOfOneIsRequireRole` | lib/auth-server.ts:156-167 | requiring any of one role is requiring that role |
| `AuthCallback.EmailLocalPart` | app/auth/callback/page.tsx:44 | exactly the text before the first "@" (the whole address when there is none), which holds no "@"; undefined for a missing e-mail |
| `AuthCallback.SavedName` | app/auth/callback/page.tsx:41-45 | the saved name is the metadata full_name when truthy, else name when truthy, else the e-mail's local part when non-empty, else "Usuario"; always truthy |
| `AuthCallback.SavedRole` | app/auth/callback/page.tsx:46 | the saved role is the metadata role when truthy, and "buyer" otherwise |
| `AuthCallback.NamedAfterMailbox` | app/auth/callback/page.tsx:41-45 | a user without a metadata name is named after the e-mail's local part |
| `AuthCallback.Upserted` | app/auth/callback/page.tsx:35-54 | the user's row gets the e-mail, name, role and a creation time of now, an existing row keeps its phone and picture, other rows are unchanged |
| `AuthCallback.RoleGate` | app/auth/callback/page.tsx:66-94 | the corrected gate: a failed role read is the permissions error; staff are signed out and denied; everyone else goes home |
| `AuthCallback.NobodyReachesHome` | app/auth/callback/page.tsx:66-94 | as written, every signed-in user ends on the permissions error, a buyer included, while the intended gate sends a buyer home |
| `AuthCallback.Callback` | app/auth/callback/page.tsx:12-100 | as written: an `error` parameter goes to /auth with the description or error, nothing saved; no code goes to /auth; a failed exchange goes to /auth with its message; a user is saved (unless the upsert fails, which is ignored) and then always lands on the permissions error, signed out exactly when the role read back is a staff role |
| `AuthCallback.RoleComesFromMetadata` | app/auth/callback/page.tsx:46-78 | after a successful upsert the role read back is the saved role, which is not staff by default; under the corrected gate the user goes home exactly when that role is not staff |
| `AuthCallback.NoRoleMeansCustomer` | app/auth/callback/page.tsx:46-93 | a user without a metadata role goes home without being signed out under the corrected gate, and lands on the permissions error, not signed out, as written |
| `PaymentSuccess.Decide` | app/payment/success/page.tsx:33-56 | a URL status other than "approved" is turned away without asking the backend; a failed or empty reply is an error; confirmed exactly when the reply's data status is "approved" |
| `PaymentSuccess.Navigation` | app/payment/success/page.tsx:35-53 | goes to /payment/failure exactly when not approved or not confirmed by the backend |
| `PaymentSuccess.OnlyApprovedConfirms` | app/payment/success/page.tsx:45-53 | a reply whose status is not "approved" never confirms |
| `PaymentSuccess.SuccessPage.constructor` | app/payment/success/page.tsx:17-18 | processing, not yet successful |
| `PaymentSuccess.SuccessPage.OnUser` | app/payment/success/page.tsx:25-65 | without a user nothing runs; with one, processing ends; a confirmation sets success, empties the cart and resets its payment method to card; anything else leaves success and the cart alone |
| `PaymentPending.Outcome` | app/payment/pending/page.tsx:22-41 | "delivered" goes to the success page and "rejected" to the failure page with the payment id; a failed reply is a failed check; any other status stays |
| `PaymentPending.SettledStatuses` | app/payment/pending/page.tsx:27-32 | a reply leaves the page exactly for "delivered" or "rejected" |
| `PaymentPending.PendingPage.constructor` | app/payment/pending/page.tsx:13 | no check in flight |
| `PaymentPending.PendingPage.CheckPaymentStatus` | app/payment/pending/page.tsx:19-42 | no payment id sends no request; otherwise one request, navigation exactly when the outcome settles, and the in-flight flag cleared |
| `PaymentPending.PendingPage.Tick` | app/payment/pending/page.tsx:44-53 | a tick checks exactly when there is a payment id and no check in flight; a checking tick clears the flag and navigates exactly where the status reply leads |
| `PaymentFailure.KnownCodes` | app/payment/failure/page.tsx:23-40 | each of the eight rejection codes gives its own message |
| `PaymentFailure.OtherCodes` | app/payment/failure/page.tsx:41-42 | any other code, or none, gives the default message |
| `PaymentFailure.DistinctMessages` | app/payment/failure/page.tsx:23-43 | the nine messages are pairwise different |
| `PaymentFailure.DisplayedStatus` | app/payment/failure/page.tsx:68 | the shown status is the parameter when it is non-empty, and "Failed" when it is missing or empty |
| `PaymentFailure.DetailRows` | app/payment/failure/page.tsx:59-76 | the rows are, in order, the payment id row when the id is non-empty, the status row with the displayed status, and the details row when the detail is non-empty, each showing its parameter |
| `MailsRoute.Subject` | app/api/mails/route.ts:13-22 | sign_up gets the welcome subject, new_order "Pedido Generado", anything else "Hola" |
| `MailsRoute.EmailTemplate` | app/api/mails/route.ts:42-58 | new_order gives the order template, with a QR image exactly when the QR code is truthy; reminder the reminder template; anything else the sign-up template; the props are passed on |
| `MailsRoute.MailType` | app/api/mails/route.ts:63 | "sign_up" when the body has no type, else the body's type |
| `MailsRoute.Post` | app/api/mails/route.ts:60-96 | a nullish body sends nothing; otherwise one mail from the fixed sender to the body's address with the type's subject and template; 200 with the service's data exactly when it delivered, else 500 |
| `MailsRoute.UntypedMailIsWelcome` | app/api/mails/route.ts:61-86 | a body without a type sends the welcome subject and sign-up template |
| `MailsRoute.ReminderSubject` | app/api/mails/route.ts:13-58 | a reminder uses its own template but the generic subject "Hola" |
| `MailsRoute.OrderUrlIgnored` | app/api/mails/route.ts:70-85 | the mail sent is the same whatever `orderUrl` holds |
| `CheckoutFlow.LookupReply` | app/api/payment/webhook/route.ts:116-127 | a found transaction is answered under `data`; an error answer has no `data` |
| `CheckoutFlow.CartPaymentIsNotFound` | app/api/payment/route.ts:8-26 | the body the cart page sends has `orderId`, not `purchaseId`, so the payment route answers 404 and sends no preference |
| `CheckoutFlow.ReturnQueryFindsNothing` | app/api/payment/webhook/route.ts:109-125 | the return pages ask with `?id=` while the lookup reads `eventId`, so the lookup answers 500 whatever the table holds |
| `CheckoutFlow.LookupRowIsStored` | app/api/payment/webhook/route.ts:112-127 | every row the lookup answers with is a row of the table with that `order_id` |
| `CheckoutFlow.SuccessPageNeverConfirms` | app/payment/success/page.tsx:42-53 | while all transactions are pending, the success page never confirms, so the cart is never cleared there |
| `CheckoutFlow.PendingPageNeverSettles` | app/payment/pending/page.tsx:24-35 | while all transactions are pending, the pending page never leaves |
| `CheckoutFlow.DeliveredEndsOnFailure` | app/payment/pending/page.tsx:27-29 | a delivered payment is passed on with status "delivered", which the success page turns away to the failure page |
| `CheckoutFlow.PostKeepsPending` | app/api/payment/webhook/route.ts:10-86 | inserting and patching a transaction keeps every transaction pending |
| `CheckoutFlow.PayThenReturn` | app/api/payment/webhook/route.ts:5-104 | a payment request followed by the buyer's return keeps every transaction pending, and the success page never confirms |

## Left out

- Network, database and mail services: each call becomes a table update on `Tables.Store`, or a
  parameter for its failure or its reply. Their internals, latency and concurrency are not modelled.
- Clocks and randomness (`Date.now()`, `Math.random()`) are parameters. Uniqueness of the ids,
  paths and QR codes built from them is not claimed.
- Database-generated ids are parameters. An insert whose id is already present fails, as a
  primary key would.
- Floating point: prices and totals are exact reals. The 5 % tax is exactly one twentieth, with no
  IEEE rounding. Quantities are integers; fractional quantities are not modelled.
- Strings are sequences of Unicode characters, while JavaScript indexes UTF-16 code units: `charAt`,
  `substring`, `slice`, `split` and lengths differ for characters outside the Basic Multilingual
  Plane (a name starting with an emoji gets different initials).
- Case mapping (`toUpperCase`, `toLowerCase`) is ASCII only. `trim` uses the common JavaScript
  white-space characters.
- `CartContext`: React state batching and the stale `items` closure in `addToCart` and
  `replaceInCart` are not modelled. Each operation reads the state the previous one left.
- `TicketQuantities`: the ticket types are only the fields the hook reads (id, name, price).
- `Api`: `createTicketsForPurchase` is not part of this model. It refers to names the file never
  defines, so it cannot run as written. The other queries of the client
  (events lists, ticket lists, status updates) are thin pass-throughs and are left out, as are
  `formatPrice`, `formatDate` and `formatTime`, which depend on locale formatting.
- `Api.CreatePurchase` takes the store's `error.message` as text, as the store client declares
  it; a non-text message, which a template literal would render as "undefined" or
  "[object Object]", is not modelled.
- `CartContext`: entry ids are not unique in general (see `CartContext.IdsCanCollide`), so
  "other pairs are untouched" by `updateItemQuantity` is stated only for carts whose ids differ
  (`CartContext.ItemQuantityUpdatedOthers`).
- GetInitials: its own contract states only the "U" fallback and the two-character bound; the
  initials of other names are stated by `AvatarUtils.InitialsOfFirstTwoWords`,
  `AvatarUtils.InitialsOfTwoWords`, `AvatarUtils.InitialOfOneWord` and
  `AvatarUtils.BlankNameHasNoInitials`.
- SelectedTicketsSpec: it states membership and counts; the input order the selection keeps is
  stated by `TicketQuantities.SelectedTicketsAppend`.
- `Api.WithSoldCounts`: its own contract states only the length. The per-type counts and
  availability are stated on `Api.GetEvent` and `Api.AvailableIgnoresSold`.
- `AvatarUtils`: whether a text parses as a URL (`new URL`) and how query parameters are encoded
  (`URLSearchParams`) are function parameters. `createFilePreview` (a `FileReader`) is left out.
- `AvatarRoute`: the public URL is assumed to be project URL + "/storage/v1/object/public/user-avatars/" + path.
  A thrown exception inside the route is not modelled separately from the error results.
- Request bodies that fail to parse as JSON are not modelled; the body is a parsed JSON value.
  A nullish body, whose destructuring throws, is modelled.
- The preference item's `description` text (app/api/payment/route.ts:33,
  app/api/payment/webhook/route.ts:35) is not modelled: `Gateway.PreferenceItem` has no such field,
  because it interpolates a JSON value into a template. The `dateCreated` timestamp of the payment
  answers is left out.
- The gateway's error replies are not distinguished from success: the routes do not check them.
- `AuthCallback`: URL encoding of the error text (`encodeURIComponent`) is left out, so the
  destination carries the raw text. An e-mail that is not a text is treated like a missing one.
  A new user's `updated_at` is the clock parameter (the database default). The callback writes
  `created_at` on every login, an existing row included; the model does the same.
- `AuthContext`: toasts and console output are left out. The sign-out then navigate chain is a
  list of effects; its asynchrony is not modelled.
- `PaymentPending`: the 10-second `setInterval` timing is left out. A tick is one call.
- `AuthServer`: `Promise.all` in `requireAuthWithSession` is modelled as two reads in sequence.
- Query-string parsing on the pages is abstracted to optional parameters.
- Presentation components and pages other than the payment return pages are not part of this model.

## Findings

| source | as written | input that shows it | evidently intended | confidence | as-written member | corrected member |
|---|---|---|---|---|---|---|
| app/auth/callback/page.tsx:66-94 | `redirect()` works by throwing, and the redirects at lines 75, 86 and 90 are inside a `try` whose `catch` redirects to the permissions error, so every signed-in user ends on "/auth?error=Failed to verify user permissions" | any successful sign-in of a user whose role is "buyer" | buyers go to "/", staff are signed out and shown the access-denied message | not executed | `AuthCallback.NobodyReachesHome` | `AuthCallback.RoleGate` |

=== FILE: api.dfy ===
/**
 * The client-side data layer: the Supabase error hook, the event query with its per-ticket-type
 * sold-count tally, the rows `createTicket` and `createPurchase` insert, and the QR-code text.
 * Query results are inputs: `Err` stands for a query that came back with an error object.
 */
module Api {
  import opened Wrappers
  import opened Text
  import opened Js

  /** How `handleSupabaseError` ends: returning normally, or throwing an Error with a message. */
  datatype Handling = Handled | Thrown(message: Value)

  /**
   * `handleSupabaseError`: the installed auth handler (if any) gets the error first; when it
   * claims the error the call returns, otherwise the error's message is thrown.
   */
  function HandleSupabaseError(error: ErrorObject, handler: Option<ErrorObject -> bool>): (r: Handling)
    ensures r.Handled? <==> handler.Some? && handler.value(error)
    ensures r.Thrown? ==> r.message == error.message
  {
    if handler.Some? && handler.value(error) then Handled else Thrown(error.message)
  }

  // ---- getEvent ----

  datatype TicketTypeRow = TicketTypeRow(id: string, totalQuantity: Value, columns: map<string, Value>)

  datatype EventRow = EventRow(id: string, columns: map<string, Value>, ticketTypes: seq<TicketTypeRow>)

  datatype TicketTypeWithCounts = TicketTypeWithCounts(row: TicketTypeRow, quantitySold: int, quantityAvailable: Value)

  datatype EventWithCounts = EventWithCounts(event: EventRow, ticketTypes: seq<TicketTypeWithCounts>)

  /** How many of the sold rows carry ticket type id `k`. */
  function Count(rows: seq<string>, k: string): nat {
    if rows == [] then 0 else Count(rows[..|rows| - 1], k) + (if rows[|rows| - 1] == k then 1 else 0)
  }

  lemma {:induction false} CountAbsent(rows: seq<string>, k: string)
    requires k !in rows
    ensures Count(rows, k) == 0
  {
    if rows != [] {
      assert forall j :: 0 <= j < |rows| - 1 ==> rows[..|rows| - 1][j] == rows[j];
      CountAbsent(rows[..|rows| - 1], k);
    }
  }

  /**
   * The `soldCountMap` tally: one pass over the sold rows, each bumping the count of its
   * ticket type id (a missing entry reading as zero).
   */
  method TallySold(rows: seq<string>) returns (m: map<string, int>)
    ensures forall k :: k in m <==> k in rows
    ensures forall k :: k in m ==> m[k] == Count(rows, k) && m[k] >= 1
  {
    m := map[];
    for i := 0 to |rows|
      invariant forall k :: k in m <==> k in rows[..i]
      invariant forall k :: k in m ==> m[k] == Count(rows[..i], k) && m[k] >= 1
    {
      var id := rows[i];
      assert rows[..i + 1][..i] == rows[..i];
      assert rows[..i + 1] == rows[..i] + [id];
      if id !in m {
        CountAbsent(rows[..i], id);
      }
      m := m[id := (if id in m then m[id] else 0) + 1];
    }
    assert rows[..|rows|] == rows;
  }

  /** `soldCountMap[id] || 0`. */
  function SoldFor(m: map<string, int>, id: string): int {
    if id in m && m[id] != 0 then m[id] else 0
  }

  /** The sold count a ticket type gets: its number of sold rows, or zero when the query failed. */
  function SoldCount(soldQuery: Result<seq<string>, ErrorObject>, id: string): nat {
    if soldQuery.Ok? then Count(soldQuery.value, id) else 0
  }

  /** The `ticket_types.map` step: each ticket type with its sold count and `total_quantity` as available. */
  function WithSoldCounts(ts: seq<TicketTypeRow>, m: map<string, int>): (r: seq<TicketTypeWithCounts>)
    ensures |r| == |ts|
  {
    seq(|ts|, i requires 0 <= i < |ts| => TicketTypeWithCounts(ts[i], SoldFor(m, ts[i].id), ts[i].totalQuantity))
  }

  /**
   * `getEvent`. A failed event query goes to `handleSupabaseError`; when the auth handler
   * claims it the function still has no event and throws "Event not found". A failed
   * sold-count query is only a warning and leaves every count at zero.
   */
  method GetEvent(eventQuery: Result<EventRow, ErrorObject>, handler: Option<ErrorObject -> bool>,
                  soldQuery: Result<seq<string>, ErrorObject>)
    returns (r: Result<EventWithCounts, Value>)
    ensures r.Ok? <==> eventQuery.Ok?
    ensures eventQuery.Err? ==> r.error == match HandleSupabaseError(eventQuery.error, handler)
                                           case Handled => Str("Event not found")
                                           case Thrown(msg) => msg
    ensures r.Ok? ==> r.value.event == eventQuery.value
    ensures r.Ok? ==> |r.value.ticketTypes| == |eventQuery.value.ticketTypes|
    ensures r.Ok? ==> forall i :: 0 <= i < |r.value.ticketTypes| ==>
      var t := eventQuery.value.ticketTypes[i];
      r.value.ticketTypes[i] == TicketTypeWithCounts(t, SoldCount(soldQuery, t.id), t.totalQuantity)
  {
    if eventQuery.Err? {
      var h := HandleSupabaseError(eventQuery.error, handler);
      if h.Thrown? {
        return Err(h.message);
      }
      return Err(Str("Event not found"));
    }
    var eventData := eventQuery.value;
    var soldCountMap: map<string, int> := map[];
    if soldQuery.Ok? {
      soldCountMap := TallySold(soldQuery.value);
    }
    var ts := WithSoldCounts(eventData.ticketTypes, soldCountMap);
    forall i | 0 <= i < |ts| ensures ts[i].quantitySold == SoldCount(soldQuery, eventData.ticketTypes[i].id) {
      var id := eventData.ticketTypes[i].id;
      if soldQuery.Ok? && id !in soldQuery.value {
        CountAbsent(soldQuery.value, id);
      }
    }
    r := Ok(EventWithCounts(eventData, ts));
  }

  /** Availability is the ticket type's total quantity whatever has been sold. */
  lemma AvailableIgnoresSold(ts: seq<TicketTypeRow>, m1: map<string, int>, m2: map<string, int>)
    ensures forall i :: 0 <= i < |ts| ==>
      WithSoldCounts(ts, m1)[i].quantityAvailable == WithSoldCounts(ts, m2)[i].quantityAvailable == ts[i].totalQuantity
  {
  }

  /** The sold counts over all ticket types never exceed the number of sold rows. */
  lemma {:induction false} CountsBounded(rows: seq<string>, k: string)
    ensures Count(rows, k) <= |rows|
    ensures Count(rows, k) >= 1 <==> k in rows
  {
    if rows != [] {
      var init := rows[..|rows| - 1];
      CountsBounded(init, k);
      assert rows == init + [rows[|rows| - 1]];
    }
  }

  // ---- QR codes ----

  /**
   * `generateQRCode`: "QR-", the clock reading, "-", and characters 2 to 10 of the random
   * number's base-36 text (`random` stands for `Math.random().toString(36)`).
   */
  function GenerateQRCode(now: nat, random: string): string {
    "QR-" + Decimal(now) + "-" + Substring(random, 2, 11)
  }

  /** The code's three dash-separated parts read back when the random suffix has no dash. */
  lemma QRCodeParts(now: nat, random: string)
    requires '-' !in Substring(random, 2, 11)
    ensures |Substring(random, 2, 11)| <= 9
    ensures StartsWith(GenerateQRCode(now, random), "QR-")
    ensures Split(GenerateQRCode(now, random), "-") == ["QR", Decimal(now), Substring(random, 2, 11)]
  {
    var parts := ["QR", Decimal(now), Substring(random, 2, 11)];
    var d, sfx := Decimal(now), Substring(random, 2, 11);
    assert Join(parts, "-") == GenerateQRCode(now, random) by {
      assert parts[1..] == [d, sfx];
      assert [d, sfx][1..] == [sfx];
      assert Join([sfx], "-") == sfx;
      assert Join([d, sfx], "-") == d + "-" + sfx;
      assert Join(parts, "-") == "QR" + "-" + (d + "-" + sfx);
    }
    forall k | 0 <= k < |parts| ensures '-' !in parts[k] {
      if k == 1 {
        assert forall j :: 0 <= j < |d| ==> d[j] != '-';
      }
    }
    JoinThenSplit(parts, '-');
  }

  // ---- createTicket and createPurchase ----

  datatype TicketStatus = Pending | Paid | Validated

  datatype TicketData = TicketData(
    ticketTypeId: string,
    eventId: string,
    pricePaid: real,
    purchaserId: Option<string>,
    status: Option<TicketStatus>)

  datatype TicketRow = TicketRow(
    ticketTypeId: string,
    eventId: string,
    pricePaid: real,
    purchaserId: Option<string>,
    qrCode: string,
    status: TicketStatus,
    createdAt: nat,
    scannedAt: Option<nat>)

  /** The row `createTicket` inserts: the given fields, a new QR code, the given status or pending, never scanned. */
  function NewTicketRow(d: TicketData, now: nat, random: string): TicketRow {
    TicketRow(d.ticketTypeId, d.eventId, d.pricePaid, d.purchaserId, GenerateQRCode(now, random),
              d.status.GetOr(Pending), now, None)
  }

  /**
   * A new ticket is unscanned, carries a QR code, and is pending unless a status was given;
   * its ticket fields are the caller's.
   */
  lemma NewTicketRowDefaults(d: TicketData, now: nat, random: string)
    ensures var row := NewTicketRow(d, now, random);
      row.scannedAt.None? && StartsWith(row.qrCode, "QR-") && row.qrCode == GenerateQRCode(now, random)
      && row.purchaserId == d.purchaserId && row.createdAt == now
      && (d.status.None? ==> row.status == Pending)
      && (d.status.Some? ==> row.status == d.status.value)
      && row.ticketTypeId == d.ticketTypeId && row.eventId == d.eventId && row.pricePaid == d.pricePaid
  {
    assert GenerateQRCode(now, random)[..3] == "QR-";
  }

  /**
   * `createTicket`'s result: the inserted row, or, when the insert failed, whatever
   * `handleSupabaseError` does — a throw, or a normal return with no ticket.
   */
  function CreateTicket(insert: Result<TicketRow, ErrorObject>, handler: Option<ErrorObject -> bool>)
    : (r: Result<Option<TicketRow>, Value>)
    ensures insert.Ok? ==> r == Ok(Some(insert.value))
    ensures r == Ok(None) <==> insert.Err? && handler.Some? && handler.value(insert.error)
    ensures insert.Err? && !(handler.Some? && handler.value(insert.error)) ==> r == Err(insert.error.message)
  {
    if insert.Err? then
      match HandleSupabaseError(insert.error, handler)
      case Handled => Ok(None)
      case Thrown(msg) => Err(msg)
    else Ok(Some(insert.value))
  }

  datatype PurchaseData = PurchaseData(userId: string, eventId: string, totalPrice: real, paymentMethod: string)

  datatype PurchaseRow = PurchaseRow(data: PurchaseData, status: string, createdAt: nat, updatedAt: nat)

  const PurchaseFailurePrefix := "Failed to create purchase: "

  /**
   * `createPurchase`: an order row in status "pending" created and updated now, or the
   * store's error message (`insertError`, the text of `error.message`) after a fixed prefix.
   */
  function CreatePurchase(d: PurchaseData, now: nat, insertError: Option<string>): (r: Result<PurchaseRow, string>)
    ensures r.Ok? <==> insertError.None?
    ensures r.Ok? ==> (r.value.status == "pending" && r.value.data == d
                       && r.value.createdAt == now && r.value.updatedAt == now)
    ensures r.Err? ==> (StartsWith(r.error, PurchaseFailurePrefix)
                        && r.error[|PurchaseFailurePrefix|..] == insertError.value)
  {
    if insertError.Some? then
      var msg := PurchaseFailurePrefix + insertError.value;
      assert msg[..|PurchaseFailurePrefix|] == PurchaseFailurePrefix;
      Err(msg)
    else Ok(PurchaseRow(d, "pending", now, now))
  }
}

=== FILE: auth_callback.dfy ===
/**
 * The OAuth callback page: it turns the provider's reply into a session, saves the user's
 * row (creating or overwriting it), reads the role back and lets only customers in. Every
 * way out of the page is a redirect.
 */
module AuthCallback {
  import opened Wrappers
  import opened Text
  import opened Js
  import opened Tables
  import opened AuthContext

  /** Where the page sends the browser: home, or the login page with an optional error text. */
  datatype Destination = Home | AuthPage(error: Option<string>)

  const PermissionsError := "Failed to verify user permissions"
  const AccessDenied :=
    "Access denied. This application is for customers only. Please use the admin panel for administrative access."

  /** A non-empty query parameter (`if (x)` on a string that may be missing). */
  predicate Given(p: Option<string>) {
    p.Some? && p.value != ""
  }

  /** `email?.split("@")[0]`: the part before the first `@`, undefined without an email. */
  function EmailLocalPart(email: Value): (v: Value)
    ensures email.Str? ==> v.Str? && !Contains(v.s, "@")
    ensures !email.Str? ==> v == Undefined
    ensures (email.Str? && Contains(email.s, "@")) ==> v == Str(email.s[..IndexOf(email.s, "@").value])
    ensures (email.Str? && !Contains(email.s, "@")) ==> v == email
  {
    if email.Str? then (SplitFirstNoSep(email.s, "@"); Str(Split(email.s, "@")[0])) else Undefined
  }

  /** The name saved for a user: full name, else name, else the email's local part, else "Usuario". */
  function SavedName(user: User): (v: Value)
    ensures Truthy(v)
    ensures Truthy(Prop(user.userMetadata, "full_name")) ==> v == Prop(user.userMetadata, "full_name")
    ensures !Truthy(Prop(user.userMetadata, "full_name")) && Truthy(Prop(user.userMetadata, "name"))
      ==> v == Prop(user.userMetadata, "name")
    ensures (!Truthy(Prop(user.userMetadata, "full_name")) && !Truthy(Prop(user.userMetadata, "name"))
             && Truthy(EmailLocalPart(user.email))) ==> v == EmailLocalPart(user.email)
    ensures (!Truthy(Prop(user.userMetadata, "full_name")) && !Truthy(Prop(user.userMetadata, "name"))
             && !Truthy(EmailLocalPart(user.email))) ==> v == Str("Usuario")
  {
    Or(Or(Or(Prop(user.userMetadata, "full_name"), Prop(user.userMetadata, "name")), EmailLocalPart(user.email)),
       Str("Usuario"))
  }

  /** The role saved for a user: the one in the user's metadata, else "buyer". */
  function SavedRole(user: User): (v: Value)
    ensures Truthy(v)
    ensures Truthy(Prop(user.userMetadata, "role")) ==> v == Prop(user.userMetadata, "role")
    ensures !Truthy(Prop(user.userMetadata, "role")) ==> v == Str("buyer")
  {
    Or(Prop(user.userMetadata, "role"), Str("buyer"))
  }

  /** A user with no names in the metadata is named after the mailbox. */
  lemma NamedAfterMailbox(id: string, local: string, domain: string)
    requires local != "" && !Contains(local, "@")
    ensures SavedName(User(id, Str(local + "@" + domain), Obj(map[]), Undefined)) == Str(local)
  {
    FirstPieceBeforeSeparator(local, domain);
  }

  /** Splitting at `@` gives back the text before the first one. */
  lemma FirstPieceBeforeSeparator(local: string, domain: string)
    requires !Contains(local, "@")
    ensures Split(local + "@" + domain, "@")[0] == local
  {
    var s := local + "@" + domain;
    assert s[|local|..|local| + 1] == "@";
    forall j: nat | j < |local| ensures !OccursAt(s, "@", j) {
      assert !OccursAt(local, "@", j);
      assert s[j..j + 1] == local[j..j + 1];
    }
    assert OccursAt(s, "@", |local|);
    var r := IndexOfFrom(s, "@", 0);
    assert r.Some?;
    assert r.value == |local|;
    assert s[..|local|] == local;
  }

  /** The row the upsert leaves for the user: the saved columns over whatever was there. */
  function Upserted(users: map<string, UserRow>, user: User, now: nat): (m: map<string, UserRow>)
    ensures m.Keys == users.Keys + {user.id}
    ensures m[user.id].email == user.email && m[user.id].name == SavedName(user) && m[user.id].role == SavedRole(user)
    ensures m[user.id].createdAt == now
    ensures user.id in users ==> (m[user.id].phone == users[user.id].phone
      && m[user.id].avatarUrl == users[user.id].avatarUrl)
    ensures forall id :: id in users && id != user.id ==> m[id] == users[id]
  {
    var row := if user.id in users
      then users[user.id].(email := user.email, name := SavedName(user), role := SavedRole(user), createdAt := now)
      else UserRow(user.email, SavedName(user), SavedRole(user), Null, Null, now, now);
    users[user.id := row]
  }

  /** The role checked after the upsert: `userData?.role || 'buyer'`, or None when the read failed. */
  function ReadRole(users: map<string, UserRow>, id: string, roleQueryFails: bool): Option<Value> {
    var r := SelectById(users, Str(id), roleQueryFails);
    if r.Err? then None else Some(Or(r.value.role, Str("buyer")))
  }

  predicate StaffRole(role: Value) {
    role == Str("admin") || role == Str("scanner")
  }

  /**
   * The role check as written: each of its redirects is raised inside the `try`, and the
   * `catch` around it turns every one of them into the permissions error. Staff are signed
   * out before that.
   */
  function RoleGateAsWritten(role: Option<Value>): (r: (Destination, bool))
  {
    var signOut := role.Some? && StaffRole(role.value);
    (AuthPage(Some(PermissionsError)), signOut)
  }

  /** The role check as intended: customers go home, staff are signed out and turned away. */
  function RoleGate(role: Option<Value>): (r: (Destination, bool))
    ensures r.0 == Home <==> role.Some? && !StaffRole(role.value)
    ensures r.1 <==> role.Some? && StaffRole(role.value)
    ensures role.None? ==> r.0 == AuthPage(Some(PermissionsError))
    ensures r.1 ==> r.0 == AuthPage(Some(AccessDenied))
  {
    if role.None? then (AuthPage(Some(PermissionsError)), false)
    else if StaffRole(role.value) then (AuthPage(Some(AccessDenied)), true)
    else (Home, false)
  }

  /** As written, nobody ever leaves the role check for the home page, customers included. */
  lemma NobodyReachesHome(role: Option<Value>)
    ensures RoleGateAsWritten(role).0 != Home
    ensures RoleGateAsWritten(role).0 == AuthPage(Some(PermissionsError))
    ensures RoleGateAsWritten(role).1 == RoleGate(role).1
    ensures role == Some(Str("buyer")) ==> RoleGate(role).0 == Home
  {
  }

  /**
   * The callback page as written. `exchange` is the session exchange for the code: an error
   * message, or the user (none when the exchange returned no user). A signed-in user always
   * ends on the permissions error, staff after being signed out.
   */
  method Callback(db: Store, code: Option<string>, error: Option<string>, errorDescription: Option<string>,
                  exchange: Result<Option<User>, string>, now: nat, upsertFails: bool, roleQueryFails: bool)
    returns (dest: Destination, signedOut: bool)
    modifies db`users
    ensures Given(error) ==> (dest == AuthPage(Some(if Given(errorDescription) then errorDescription.value else error.value))
        && !signedOut && db.users == old(db.users))
    ensures !Given(error) && !Given(code) ==> dest == AuthPage(None) && !signedOut && db.users == old(db.users)
    ensures !Given(error) && Given(code) && exchange.Err? ==> (dest == AuthPage(Some(exchange.error))
      && !signedOut && db.users == old(db.users))
    ensures !Given(error) && Given(code) && exchange == Ok(None) ==> (dest == AuthPage(None)
      && !signedOut && db.users == old(db.users))
    ensures !Given(error) && Given(code) && exchange.Ok? && exchange.value.Some? ==> (
      var user := exchange.value.value;
      db.users == (if upsertFails then old(db.users) else Upserted(old(db.users), user, now))
      && (dest, signedOut) == RoleGateAsWritten(ReadRole(db.users, user.id, roleQueryFails))
      && dest == AuthPage(Some(PermissionsError))
      && (signedOut <==> !roleQueryFails && user.id in db.users
                         && StaffRole(Or(db.users[user.id].role, Str("buyer")))))
  {
    signedOut := false;
    if Given(error) {
      dest := AuthPage(Some(if Given(errorDescription) then errorDescription.value else error.value));
      return;
    }
    if Given(code) {
      if exchange.Err? {
        dest := AuthPage(Some(exchange.error));
        return;
      }
      if exchange.value.Some? {
        var user := exchange.value.value;
        if !upsertFails {
          db.users := Upserted(db.users, user, now);
        }
        var role := ReadRole(db.users, user.id, roleQueryFails);
        dest, signedOut := RoleGateAsWritten(role).0, RoleGateAsWritten(role).1;
        return;
      }
    }
    dest := AuthPage(None);
  }

  /**
   * After a saved login, the role checked is the one the metadata names (or "buyer"),
   * whatever role the user's row held before: a staff role set only in the table is
   * overwritten at the next login. Under the corrected gate such a user goes home exactly
   * when that role is not a staff role.
   */
  lemma RoleComesFromMetadata(users: map<string, UserRow>, user: User, now: nat)
    ensures ReadRole(Upserted(users, user, now), user.id, false) == Some(SavedRole(user))
    ensures RoleGate(ReadRole(Upserted(users, user, now), user.id, false)).0 == Home
        <==> !StaffRole(SavedRole(user))
  {
  }

  /**
   * Under the corrected gate, a user whose metadata names no role is let in as a customer
   * once the row is saved; as written, the same user ends on the permissions error.
   */
  lemma NoRoleMeansCustomer(users: map<string, UserRow>, user: User, now: nat)
    requires !Truthy(Prop(user.userMetadata, "role"))
    ensures RoleGate(ReadRole(Upserted(users, user, now), user.id, false)) == (Home, false)
    ensures RoleGateAsWritten(ReadRole(Upserted(users, user, now), user.id, false)) == (AuthPage(Some(PermissionsError)), false)
  {
  }
}

=== FILE: auth_context.dfy ===
/**
 * The client-side authentication context: which errors count as an expired or missing login
 * (and end the session), the role and display name read from the user's metadata, the role
 * checks, and the session state kept up to date by auth events.
 */
module AuthContext {
  import opened Wrappers
  import opened Text
  import opened Js
  import Api

  /** What `handleAuthError` decides: an auth error, some other error, or a TypeError. */
  datatype Classification = AuthError | OtherError | Throws

  /** The phrases that mark an auth error, matched case-sensitively. */
  const AuthPhrases: seq<string> :=
    ["JWT expired", "invalid JWT", "token has expired", "Authentication required", "Invalid JWT"]

  /** `error?.message || error?.error_description || error?.error || ''`. */
  function ErrorMessage(e: ErrorObject): Value {
    Or(Or(Or(e.message, e.errorDescription), e.error), Str(""))
  }

  /** `msg.includes(phrase)` for a text or an array message; None where `includes` does not exist. */
  function Includes(msg: Value, phrase: string): Option<bool> {
    match msg
    case Str(s) => Some(Contains(s, phrase))
    case Arr(elems) => Some(Str(phrase) in elems)
    case _ => None
  }

  predicate MentionsAuthPhrase(msg: Value)
    requires msg.Str? || msg.Arr?
  {
    exists k :: 0 <= k < |AuthPhrases| && Includes(msg, AuthPhrases[k]) == Some(true)
  }

  /** The phrase list, one phrase at a time. */
  lemma PhrasesListed(msg: Value)
    ensures (msg.Str? || msg.Arr?) ==> (MentionsAuthPhrase(msg) <==>
      Includes(msg, "JWT expired") == Some(true) || Includes(msg, "invalid JWT") == Some(true)
      || Includes(msg, "token has expired") == Some(true) || Includes(msg, "Authentication required") == Some(true)
      || Includes(msg, "Invalid JWT") == Some(true))
  {
    assert AuthPhrases[0] == "JWT expired" && AuthPhrases[1] == "invalid JWT" && AuthPhrases[2] == "token has expired";
    assert AuthPhrases[3] == "Authentication required" && AuthPhrases[4] == "Invalid JWT";
  }

  /**
   * `handleAuthError`'s test: a message naming one of the phrases, status 401, or the
   * PostgREST expired-token code. A message that has no `includes` throws first.
   */
  function Classify(e: ErrorObject): (c: Classification)
    ensures c == Throws <==> !ErrorMessage(e).Str? && !ErrorMessage(e).Arr?
    ensures c == AuthError <==> ((ErrorMessage(e).Str? || ErrorMessage(e).Arr?)
      && (MentionsAuthPhrase(ErrorMessage(e)) || e.status == Num(401.0) || e.code == Str("PGRST301")))
  {
    var msg := ErrorMessage(e);
    PhrasesListed(msg);
    if !msg.Str? && !msg.Arr? then Throws
    else if Includes(msg, "JWT expired") == Some(true) || Includes(msg, "invalid JWT") == Some(true)
         || Includes(msg, "token has expired") == Some(true) || Includes(msg, "Authentication required") == Some(true)
         || Includes(msg, "Invalid JWT") == Some(true) || e.status == Num(401.0) || e.code == Str("PGRST301")
    then AuthError
    else OtherError
  }

  /** The phrase test is case-sensitive: "jwt expired" in lower case is not an auth error. */
  lemma CaseSensitive()
    ensures Classify(ErrorObject(Str("jwt expired"), Undefined, Undefined, Undefined, Undefined)) == OtherError
    ensures Classify(ErrorObject(Str("JWT expired"), Undefined, Undefined, Undefined, Undefined)) == AuthError
  {
    var lower := Str("jwt expired");
    forall k | 0 <= k < |AuthPhrases| ensures Includes(lower, AuthPhrases[k]) == Some(false) {
      var p := AuthPhrases[k];
      forall j: nat ensures !OccursAt("jwt expired", p, j) {
        if j + |p| <= |"jwt expired"| {
          assert "jwt expired"[j..j + |p|][0] == "jwt expired"[j];
          assert p[0] in "JiIta";
        }
      }
    }
    assert OccursAt("JWT expired", "JWT expired", 0);
  }

  /** An error whose message is empty is an auth error only by its status or code. */
  lemma StatusOrCodeAlone(status: Value, code: Value)
    ensures Classify(ErrorObject(Undefined, Undefined, Undefined, status, code)) == AuthError
        <==> status == Num(401.0) || code == Str("PGRST301")
  {
    var msg := Str("");
    forall k | 0 <= k < |AuthPhrases| ensures Includes(msg, AuthPhrases[k]) == Some(false) {
      assert forall j: nat :: !OccursAt("", AuthPhrases[k], j);
    }
  }

  /** The effects a classification triggers: sign out, then go to the login page. */
  datatype Effect = SignOut | Navigate(path: string)

  function Effects(c: Classification): (es: seq<Effect>)
    ensures c == AuthError ==> es == [SignOut, Navigate("/auth")]
    ensures c != AuthError ==> es == []
  {
    if c == AuthError then [SignOut, Navigate("/auth")] else []
  }

  /**
   * With the context's handler installed, `handleSupabaseError` returns exactly for auth
   * errors and rethrows every other one.
   */
  lemma InstalledHandler(e: ErrorObject)
    requires Classify(e) != Throws
    ensures Api.HandleSupabaseError(e, Some((x: ErrorObject) => Classify(x) == AuthError)).Handled?
        <==> Classify(e) == AuthError
  {
  }

  // ---- role and name ----

  datatype User = User(id: string, email: Value, userMetadata: Value, appMetadata: Value)

  datatype Session = Session(user: User, accessToken: string)

  /** `user?.user_metadata?.role || user?.app_metadata?.role || null`. */
  function UserRole(user: Option<User>): (r: Value)
    ensures r == Null || Truthy(r)
    ensures user.None? ==> r == Null
    ensures user.Some? && Truthy(Prop(user.value.userMetadata, "role")) ==> r == Prop(user.value.userMetadata, "role")
    ensures user.Some? && !Truthy(Prop(user.value.userMetadata, "role")) && Truthy(Prop(user.value.appMetadata, "role"))
      ==> r == Prop(user.value.appMetadata, "role")
    ensures user.Some? && !Truthy(Prop(user.value.userMetadata, "role")) && !Truthy(Prop(user.value.appMetadata, "role"))
      ==> r == Null
  {
    if user.None? then Null
    else Or(Or(Prop(user.value.userMetadata, "role"), Prop(user.value.appMetadata, "role")), Null)
  }

  /** `user?.user_metadata?.full_name || user?.user_metadata?.name || null`. */
  function UserFullName(user: Option<User>): (r: Value)
    ensures r == Null || Truthy(r)
    ensures user.None? ==> r == Null
    ensures user.Some? && Truthy(Prop(user.value.userMetadata, "full_name")) ==> r == Prop(user.value.userMetadata, "full_name")
    ensures user.Some? && !Truthy(Prop(user.value.userMetadata, "full_name")) && Truthy(Prop(user.value.userMetadata, "name"))
      ==> r == Prop(user.value.userMetadata, "name")
    ensures user.Some? && !Truthy(Prop(user.value.userMetadata, "full_name")) && !Truthy(Prop(user.value.userMetadata, "name"))
      ==> r == Null
  {
    if user.None? then Null
    else Or(Or(Prop(user.value.userMetadata, "full_name"), Prop(user.value.userMetadata, "name")), Null)
  }

  /** The user-chosen role wins over the one the server assigned. */
  lemma UserMetadataRoleWins(user: User, app: Value)
    requires Truthy(Prop(user.userMetadata, "role"))
    ensures UserRole(Some(user.(appMetadata := app))) == Prop(user.userMetadata, "role")
  {
  }

  function HasRole(user: Option<User>, role: string): bool {
    UserRole(user) == Str(role)
  }

  /** `userRole ? roles.includes(userRole) : false`. */
  function HasAnyRole(user: Option<User>, roles: seq<string>): bool {
    var r := UserRole(user);
    Truthy(r) && r.Str? && r.s in roles
  }

  /** Holding any of several roles is holding one of them; nobody holds the empty role. */
  lemma AnyRoleIsSomeRole(user: Option<User>, roles: seq<string>)
    ensures HasAnyRole(user, roles) <==> exists k :: 0 <= k < |roles| && HasRole(user, roles[k])
    ensures |roles| > 0 ==> HasAnyRole(user, [roles[0]]) == HasRole(user, roles[0])
    ensures !HasRole(user, "")
  {
    if |roles| > 0 && HasRole(user, roles[0]) {
      assert HasAnyRole(user, [roles[0]]);
    }
  }

  /** The session state the provider keeps. */
  class AuthState {
    var user: Option<User>
    var session: Option<Session>
    var loading: bool

    constructor ()
      ensures user.None? && session.None? && loading
    {
      user, session, loading := None, None, true;
    }

    /**
     * An auth event: the session and its user are taken over and loading ends. A token
     * refresh that leaves no session also sends the browser to the login page.
     */
    method OnAuthStateChange(event: string, newSession: Option<Session>) returns (nav: Option<string>)
      modifies this
      ensures session == newSession && !loading
      ensures user == if newSession.Some? then Some(newSession.value.user) else None
      ensures nav == if event == "TOKEN_REFRESHED" && newSession.None? then Some("/auth") else None
    {
      nav := None;
      if event == "TOKEN_REFRESHED" && newSession.None? {
        nav := Some("/auth");
      }
      session := newSession;
      user := if newSession.Some? then Some(newSession.value.user) else None;
      loading := false;
    }

    /** The first session read: taken over when it succeeds, handed to the error handler when not. */
    method LoadInitialSession(result: Result<Option<Session>, ErrorObject>) returns (effects: seq<Effect>)
      modifies this
      ensures !loading
      ensures result.Ok? ==> (session == result.value && effects == []
        && user == (if result.value.Some? then Some(result.value.value.user) else None))
      ensures result.Err? ==> session == old(session) && user == old(user) && effects == Effects(Classify(result.error))
    {
      effects := [];
      if result.Err? {
        effects := Effects(Classify(result.error));
      } else {
        session := result.value;
        user := if result.value.Some? then Some(result.value.value.user) else None;
      }
      loading := false;
    }

    function Role(): Value
      reads this
    {
      UserRole(user)
    }
  }
}

=== FILE: auth_guard.dfy ===
/**
 * The client-side route guard: while the session loads it shows a spinner; on a protected
 * route without a user it sends the browser to the login page; a signed-in user on the login
 * page is sent home.
 */
module AuthGuard {
  import opened Wrappers
  import opened Text

  /** The pages that need a signed-in user, matched as path prefixes. */
  const ProtectedRoutes: seq<string> := ["/profile", "/tickets", "/cart", "/confirmation"]

  predicate IsProtected(pathname: string) {
    exists k :: 0 <= k < |ProtectedRoutes| && StartsWith(pathname, ProtectedRoutes[k])
  }

  /** What the guard draws. */
  datatype View = Spinner | Children

  /** One render of the guard: the navigation its effect asks for, and what it draws. */
  datatype Decision = Decision(push: Option<string>, view: View)

  function Decide(loading: bool, signedIn: bool, pathname: string): (d: Decision)
    ensures loading ==> d == Decision(None, Spinner)
    ensures !loading && !signedIn ==> d.push == (if IsProtected(pathname) then Some("/auth") else None)
    ensures !loading && signedIn ==> d.push == (if pathname == "/auth" then Some("/") else None)
    ensures d.view == Children <==> !loading && (signedIn || !IsProtected(pathname))
    ensures d.push.Some? ==> !loading && d.push.value in {"/auth", "/"}
  {
    if loading then Decision(None, Spinner)
    else
      var protected := StartsWith(pathname, "/profile") || StartsWith(pathname, "/tickets")
        || StartsWith(pathname, "/cart") || StartsWith(pathname, "/confirmation");
      RoutesListed(pathname);
      var push := if !signedIn && protected then Some("/auth")
        else if signedIn && pathname == "/auth" then Some("/")
        else None;
      Decision(push, if protected && !signedIn then Spinner else Children)
  }

  lemma RoutesListed(pathname: string)
    ensures IsProtected(pathname) <==> (StartsWith(pathname, "/profile") || StartsWith(pathname, "/tickets")
      || StartsWith(pathname, "/cart") || StartsWith(pathname, "/confirmation"))
  {
    assert ProtectedRoutes[0] == "/profile" && ProtectedRoutes[1] == "/tickets";
    assert ProtectedRoutes[2] == "/cart" && ProtectedRoutes[3] == "/confirmation";
  }

  /** A protected page's content is never drawn for a visitor without a user. */
  lemma ProtectedContentNeedsUser(loading: bool, pathname: string)
    requires IsProtected(pathname)
    ensures Decide(loading, false, pathname).view == Spinner
  {
  }

  /**
   * Matching is by prefix, so a page whose path merely begins with a protected one is guarded
   * too, and the payment result pages are not guarded at all.
   */
  lemma PrefixMatching()
    ensures IsProtected("/cartography") && IsProtected("/tickets/42")
    ensures !IsProtected("/payment/success") && !IsProtected("/")
  {
    assert StartsWith("/cartography", ProtectedRoutes[2]);
    assert StartsWith("/tickets/42", ProtectedRoutes[1]);
    var p := "/payment/success";
    RoutesListed(p);
    assert p[..8][2] != "/profile"[2] && p[..8][1] != "/tickets"[1];
    assert p[..5][1] != "/cart"[1] && p[..13][1] != "/confirmation"[1];
    RoutesListed("/");
  }
}

=== FILE: auth_server.dfy ===
/**
 * The server-side helpers that read the signed-in user from the request's cookies and guard
 * pages: a failed read counts as nobody signed in, and a missing user or role ends the page
 * with a redirect.
 */
module AuthServer {
  import opened Wrappers
  import opened Js
  import opened AuthContext

  /**
   * The outcome of a guard: the page carries on with a value, or the request is redirected
   * (Next.js `redirect` throws, so nothing after it runs).
   */
  datatype Flow<T> = Continue(value: T) | Redirect(path: string)

  /** What a read from the auth service gives: data, an error reply, or an exception. */
  datatype Read<T> = Data(data: Option<T>) | ErrorReply | Raised

  /** `getServerUser` / `getServerSession`: the value read, or null on any failure. */
  function OrNull<T>(r: Read<T>): (v: Option<T>)
    ensures v.Some? <==> r.Data? && r.data.Some?
    ensures v.Some? ==> v == r.data
  {
    match r
    case Data(d) => d
    case _ => None
  }

  /** `requireAuth`: the user, or a redirect to the login page. */
  function RequireAuth(userRead: Read<User>): (f: Flow<User>)
    ensures f.Continue? <==> OrNull(userRead).Some?
    ensures f.Continue? ==> userRead == Data(Some(f.value))
    ensures f.Redirect? ==> f.path == "/auth"
  {
    var user := OrNull(userRead);
    if user.None? then Redirect("/auth") else Continue(user.value)
  }

  /** `requireAuthWithSession`: both reads must give a value. */
  function RequireAuthWithSession(userRead: Read<User>, sessionRead: Read<Session>): (f: Flow<(User, Session)>)
    ensures f.Continue? <==> OrNull(userRead).Some? && OrNull(sessionRead).Some?
    ensures f.Continue? ==> userRead == Data(Some(f.value.0)) && sessionRead == Data(Some(f.value.1))
    ensures f.Redirect? ==> f.path == "/auth"
  {
    var user := OrNull(userRead);
    var session := OrNull(sessionRead);
    if user.None? || session.None? then Redirect("/auth") else Continue((user.value, session.value))
  }

  /** `redirectIfAuthenticated(redirectTo = '/')`. */
  function RedirectIfAuthenticated(userRead: Read<User>, redirectTo: Option<string>): (f: Flow<()>)
    ensures f.Redirect? <==> OrNull(userRead).Some?
    ensures f.Redirect? ==> f.path == redirectTo.GetOr("/")
  {
    if OrNull(userRead).Some? then Redirect(redirectTo.GetOr("/")) else Continue(())
  }

  /** `getOptionalAuth`: both reads, each null on failure, never a redirect. */
  function OptionalAuth(userRead: Read<User>, sessionRead: Read<Session>): (r: (Option<User>, Option<Session>))
    ensures r.0.Some? ==> userRead == Data(r.0)
    ensures r.1.Some? ==> sessionRead == Data(r.1)
    ensures r.0.None? <==> OrNull(userRead).None?
    ensures r.1.None? <==> OrNull(sessionRead).None?
  {
    (OrNull(userRead), OrNull(sessionRead))
  }

  /** The role the server helpers read: `user_metadata?.role || app_metadata?.role`, no null fallback. */
  function ServerRole(user: User): Value {
    Or(Prop(user.userMetadata, "role"), Prop(user.appMetadata, "role"))
  }

  /** `requireRole`: signed in, and the role is exactly the one asked for. */
  function RequireRole(userRead: Read<User>, requiredRole: string): (f: Flow<User>)
    ensures f.Continue? <==> RequireAuth(userRead).Continue? && ServerRole(RequireAuth(userRead).value) == Str(requiredRole)
    ensures f.Continue? ==> f == RequireAuth(userRead)
    ensures RequireAuth(userRead).Redirect? ==> f == Redirect("/auth")
    ensures f.Redirect? && RequireAuth(userRead).Continue? ==> f.path == "/unauthorized"
  {
    match RequireAuth(userRead)
    case Redirect(p) => Redirect(p)
    case Continue(user) => if ServerRole(user) != Str(requiredRole) then Redirect("/unauthorized") else Continue(user)
  }

  /** `requireAnyRole`: signed in, and the role is one of those listed. */
  function RequireAnyRole(userRead: Read<User>, requiredRoles: seq<string>): (f: Flow<User>)
    ensures f.Continue? <==> (RequireAuth(userRead).Continue?
      && exists k :: 0 <= k < |requiredRoles| && ServerRole(RequireAuth(userRead).value) == Str(requiredRoles[k]))
    ensures RequireAuth(userRead).Redirect? ==> f == Redirect("/auth")
    ensures f.Redirect? && RequireAuth(userRead).Continue? ==> f.path == "/unauthorized"
    ensures f.Continue? ==> f == RequireAuth(userRead)
  {
    match RequireAuth(userRead)
    case Redirect(p) => Redirect(p)
    case Continue(user) =>
      var r := ServerRole(user);
      if !(r.Str? && r.s in requiredRoles) then Redirect("/unauthorized") else Continue(user)
  }

  /**
   * For any role other than the empty one, the server's role guard lets through exactly the
   * users the client's `hasRole` accepts.
   */
  lemma ServerRoleMatchesClient(user: User, role: string)
    requires role != ""
    ensures RequireRole(Data(Some(user)), role).Continue? <==> HasRole(Some(user), role)
  {
  }

  /**
   * Without the null fallback, a user whose role fields are both empty text passes the
   * server's guard for the empty role, which the client's check never grants.
   */
  lemma EmptyRoleDiffers()
    ensures var u := User("u", Undefined, Obj(map["role" := Str("")]), Obj(map["role" := Str("")]));
      RequireRole(Data(Some(u)), "").Continue? && !HasRole(Some(u), "")
  {
  }

  /** Listing one role is requiring that role. */
  lemma AnyOfOneIsRequireRole(userRead: Read<User>, role: string)
    ensures RequireAnyRole(userRead, [role]) == RequireRole(userRead, role)
  {
  }
}

=== FILE: avatar_route.dfy ===
/**
 * `/api/upload/avatar`: POST stores an uploaded picture in the `user-avatars` bucket and points
 * the user's profile at it, removing the file again when the profile update fails; DELETE
 * clears the profile's picture and then removes the bucket file the old URL names.
 */
module AvatarRoute {
  import opened Wrappers
  import opened Text
  import opened Js
  import opened Tables
  import opened AvatarUtils

  datatype UploadFile = UploadFile(name: string, mimeType: string, size: int)

  datatype Response = Response(status: nat, message: string, avatarUrl: Option<string>)

  function BadRequest(message: string): Response {
    Response(400, message, None)
  }

  /** The request checks, in order: a file, a user id, an image type, at most 5 MiB. */
  function CheckUpload(file: Option<UploadFile>, userId: Option<string>): (r: Option<Response>)
    ensures r.Some? ==> r.value.status == 400 && r.value.avatarUrl.None?
    ensures r == Some(BadRequest("No file provided")) <==> file.None?
    ensures r == Some(BadRequest("User ID is required")) <==> file.Some? && (userId.None? || userId.value == "")
    ensures r == Some(BadRequest("File must be an image")) <==> (file.Some? && userId.Some? && userId.value != ""
                                                               && !StartsWith(file.value.mimeType, "image/"))
    ensures r == Some(BadRequest("File size must be less than 5MB")) <==> (file.Some? && userId.Some? && userId.value != ""
      && StartsWith(file.value.mimeType, "image/") && file.value.size > MaxAvatarSize)
    ensures r.None? <==> file.Some? && userId.Some? && userId.value != ""
                         && StartsWith(file.value.mimeType, "image/") && file.value.size <= MaxAvatarSize
  {
    if file.None? then Some(BadRequest("No file provided"))
    else if userId.None? || userId.value == "" then Some(BadRequest("User ID is required"))
    else if !StartsWith(file.value.mimeType, "image/") then Some(BadRequest("File must be an image"))
    else if file.value.size > MaxAvatarSize then Some(BadRequest("File size must be less than 5MB"))
    else None
  }

  /**
   * The route checks only the first two of the helper's rules: with a file and a user id
   * present it accepts exactly what passes the image and size checks, so an image type the
   * helper calls unsupported gets through.
   */
  lemma RouteChecksAgainstHelper(file: UploadFile, userId: string)
    requires userId != ""
    ensures CheckUpload(Some(file), Some(userId)).None? <==>
      ValidateAvatarFile(file.mimeType, file.size).Valid?
      || ValidateAvatarFile(file.mimeType, file.size) == Invalid("Supported formats: JPG, PNG, GIF, WebP")
    ensures CheckUpload(Some(UploadFile("a.svg", "image/svg+xml", 1)), Some(userId)).None?
    ensures ValidateAvatarFile("image/svg+xml", 1).Invalid?
  {
    assert StartsWith("image/svg+xml", "image/") by {
      assert "image/svg+xml"[..6] == "image/";
    }
  }

  /** `avatars/<userId>-<clock>.<text after the name's last dot>`. */
  function StoragePath(userId: string, fileName: string, now: nat): string {
    "avatars/" + userId + "-" + Decimal(now) + "." + LastDotPiece(fileName)
  }

  const StoragePrefix: string := "/storage/v1/object/public"

  /** The bucket's public URL for a path under the project URL. */
  function PublicUrl(projectUrl: string, path: string): string {
    projectUrl + StoragePrefix + BucketSeparator + path
  }

  /** `.update({avatar_url, updated_at}).eq('id', id)` without `.single()`: a missing user changes nothing. */
  function WithAvatar(users: map<string, UserRow>, id: string, url: Value, now: nat): (r: map<string, UserRow>)
    ensures r.Keys == users.Keys
    ensures id in users ==> r[id] == users[id].(avatarUrl := url, updatedAt := now)
    ensures forall k :: k in users && k != id ==> r[k] == users[k]
  {
    if id in users then users[id := users[id].(avatarUrl := url, updatedAt := now)] else users
  }

  /**
   * POST. `uploadFails`, `updateFails` and `removeFails` are the storage and table errors;
   * an upload to a path already in the bucket fails as well (no overwrite).
   */
  method Post(db: Store, file: Option<UploadFile>, userId: Option<string>, now: nat, projectUrl: string,
              uploadFails: bool, updateFails: bool, removeFails: bool)
    returns (resp: Response)
    modifies db`avatarFiles, db`users
    ensures CheckUpload(file, userId).Some? ==>
      resp == CheckUpload(file, userId).value && db.avatarFiles == old(db.avatarFiles) && db.users == old(db.users)
    ensures CheckUpload(file, userId).None? ==>
      var path := StoragePath(userId.value, file.value.name, now);
      var url := PublicUrl(projectUrl, path);
      if uploadFails || path in old(db.avatarFiles) then
        resp == Response(500, "Failed to upload file", None)
        && db.avatarFiles == old(db.avatarFiles) && db.users == old(db.users)
      else if updateFails then
        resp == Response(500, "Failed to update user profile", None) && db.users == old(db.users)
        && db.avatarFiles == (if removeFails then old(db.avatarFiles) + {path} else old(db.avatarFiles))
      else
        resp == Response(200, "Avatar uploaded successfully", Some(url))
        && db.avatarFiles == old(db.avatarFiles) + {path}
        && db.users == WithAvatar(old(db.users), userId.value, Str(url), now)
  {
    var rejected := CheckUpload(file, userId);
    if rejected.Some? {
      return rejected.value;
    }
    var filePath := StoragePath(userId.value, file.value.name, now);
    if uploadFails || filePath in db.avatarFiles {
      return Response(500, "Failed to upload file", None);
    }
    db.avatarFiles := db.avatarFiles + {filePath};
    var publicUrl := PublicUrl(projectUrl, filePath);
    if updateFails {
      if !removeFails {
        db.avatarFiles := db.avatarFiles - {filePath};
      }
      return Response(500, "Failed to update user profile", None);
    }
    db.users := WithAvatar(db.users, userId.value, Str(publicUrl), now);
    resp := Response(200, "Avatar uploaded successfully", Some(publicUrl));
  }

  /** The file DELETE removes: `avatarUrl.split('/user-avatars/')[1]`, when that is a non-empty text. */
  function DeletePath(avatarUrl: Option<string>): (r: Option<string>)
    ensures r.Some? ==> r.value != ""
  {
    if avatarUrl.None? || avatarUrl.value == "" || !Contains(avatarUrl.value, "user-avatars") then None
    else
      var parts := Split(avatarUrl.value, BucketSeparator);
      if |parts| > 1 && parts[1] != "" then Some(parts[1]) else None
  }

  /** DELETE picks the same file as `extractSupabaseFilePath`, except that an empty path removes nothing. */
  lemma DeletePathIsExtractedPath(avatarUrl: string)
    ensures DeletePath(Some(avatarUrl)) == if ExtractSupabaseFilePath(avatarUrl) == Some("") then None
                                            else ExtractSupabaseFilePath(avatarUrl)
  {
    SplitSingle(avatarUrl, BucketSeparator);
    SeparatorNamesBucket(avatarUrl);
    if ExtractSupabaseFilePath(avatarUrl).Some? {
      var i := IndexOf(avatarUrl, BucketSeparator).value;
      SplitHead(avatarUrl, BucketSeparator);
      var tail := Split(avatarUrl[i + |BucketSeparator|..], BucketSeparator);
      assert Split(avatarUrl, BucketSeparator)[1] == tail[0];
    }
  }

  /**
   * The URL POST stores names the file POST uploaded, so a later DELETE with that URL removes
   * exactly that file — provided neither the project URL nor the path produce the separator.
   */
  lemma UploadedFileIsDeleted(projectUrl: string, path: string)
    requires !Contains(projectUrl + StoragePrefix + "/", BucketSeparator)
    requires !Contains(path, BucketSeparator) && path != ""
    ensures DeletePath(Some(PublicUrl(projectUrl, path))) == Some(path)
  {
    ExtractRoundTrip(projectUrl + StoragePrefix, path);
    DeletePathIsExtractedPath(PublicUrl(projectUrl, path));
  }

  /** DELETE. The profile is cleared first; a failed removal of the file is ignored. */
  method Delete(db: Store, userId: Option<string>, avatarUrl: Option<string>, now: nat,
                updateFails: bool, removeFails: bool)
    returns (resp: Response)
    modifies db`avatarFiles, db`users
    ensures userId.None? || userId.value == "" ==>
      resp == BadRequest("User ID is required") && db.users == old(db.users) && db.avatarFiles == old(db.avatarFiles)
    ensures userId.Some? && userId.value != "" && updateFails ==>
      resp == Response(500, "Failed to update user profile", None)
      && db.users == old(db.users) && db.avatarFiles == old(db.avatarFiles)
    ensures userId.Some? && userId.value != "" && !updateFails ==>
      resp == Response(200, "Avatar removed successfully", None)
      && db.users == WithAvatar(old(db.users), userId.value, Null, now)
      && db.avatarFiles == if DeletePath(avatarUrl).Some? && !removeFails
                           then old(db.avatarFiles) - {DeletePath(avatarUrl).value}
                           else old(db.avatarFiles)
  {
    if userId.None? || userId.value == "" {
      return BadRequest("User ID is required");
    }
    if updateFails {
      return Response(500, "Failed to update user profile", None);
    }
    db.users := WithAvatar(db.users, userId.value, Null, now);
    var filePath := DeletePath(avatarUrl);
    if filePath.Some? && !removeFails {
      db.avatarFiles := db.avatarFiles - {filePath.value};
    }
    resp := Response(200, "Avatar removed successfully", None);
  }
}

=== FILE: avatar_utils.dfy ===
/**
 * Helpers for profile pictures: initials for the placeholder, recognising and taking apart
 * URLs of the `user-avatars` storage bucket, checking an upload, naming the stored file, and
 * picking the URL to show. Whether a text parses as a URL, and how query parameters are
 * encoded, are left to the caller as functions.
 */
module AvatarUtils {
  import opened Wrappers
  import opened Text

  /** The first character of a word, or nothing for an empty word (`word.charAt(0)`). */
  function FirstChar(w: string): (r: string)
    ensures |r| <= 1
  {
    if w == "" then "" else [w[0]]
  }

  function FirstChars(words: seq<string>): (r: string)
    ensures |r| <= |words|
  {
    if words == [] then "" else FirstChars(words[..|words| - 1]) + FirstChar(words[|words| - 1])
  }

  /**
   * `getInitials`: "U" for an empty name; otherwise the first character of each
   * space-separated word, upper-cased, cut to two characters.
   */
  function GetInitials(name: string): (r: string)
    ensures name == "" ==> r == "U"
    ensures |r| <= 2
  {
    if name == "" then "U"
    else Substring(ToUpper(FirstChars(Split(name, " "))), 0, 2)
  }

  /** Two words give their two initials, upper-cased. */
  lemma InitialsOfTwoWords(a: string, b: string)
    requires a != "" && b != "" && ' ' !in a && ' ' !in b
    ensures GetInitials(a + " " + b) == [UpperChar(a[0]), UpperChar(b[0])]
  {
    JoinThenSplit([a, b], ' ');
    assert Join([a, b], " ") == a + " " + b by {
      assert [a, b][1..] == [b];
    }
    var words := Split(a + " " + b, " ");
    assert words == [a, b];
    assert words[..1] == [a];
    assert [a][..0] == [];
    assert FirstChars(words) == [a[0]] + [b[0]];
  }

  lemma {:induction false} FirstCharsAppend(a: seq<string>, b: seq<string>)
    ensures FirstChars(a + b) == FirstChars(a) + FirstChars(b)
    decreases |b|
  {
    if b == [] {
      assert a + b == a;
    } else {
      var b' := b[..|b| - 1];
      assert (a + b)[..|a + b| - 1] == a + b';
      FirstCharsAppend(a, b');
    }
  }

  /**
   * A name whose first two space-separated words are not empty gets their first characters,
   * upper-cased, whatever words follow.
   */
  lemma InitialsOfFirstTwoWords(name: string)
    requires |Split(name, " ")| >= 2 && Split(name, " ")[0] != "" && Split(name, " ")[1] != ""
    ensures GetInitials(name) == [UpperChar(Split(name, " ")[0][0]), UpperChar(Split(name, " ")[1][0])]
  {
    var words := Split(name, " ");
    assert name != "" by {
      assert Split("", " ") == [""] by { assert IndexOf("", " ") == None; }
    }
    assert words == words[..2] + words[2..];
    FirstCharsAppend(words[..2], words[2..]);
    assert words[..2][..1] == [words[0]];
    assert [words[0]][..0] == [];
    assert FirstChars(words[..2]) == [words[0][0], words[1][0]];
    var u := ToUpper(FirstChars(words));
    assert u[..2] == [UpperChar(words[0][0]), UpperChar(words[1][0])];
  }

  /** One word gives its first character, upper-cased. */
  lemma InitialOfOneWord(w: string)
    requires w != "" && ' ' !in w
    ensures GetInitials(w) == [UpperChar(w[0])]
  {
    ContainsChar(w, ' ');
    SplitSingle(w, " ");
    assert Split(w, " ") == [w];
    assert [w][..0] == [];
  }

  /** A name of one space is not empty, so it gets no fallback: its initials are empty. */
  lemma BlankNameHasNoInitials()
    ensures GetInitials(" ") == ""
  {
    var s := " ";
    assert OccursAt(s, " ", 0);
    assert IndexOf(s, " ") == Some(0);
    assert s[1..] == "";
    assert Split("", " ") == [""] by {
      assert IndexOf("", " ") == None;
    }
    assert Split(s, " ") == ["", ""];
    assert ["", ""][..1] == [""];
    assert [""][..0] == [];
  }

  /** `isSupabaseAvatar`: a non-empty URL mentioning the bucket name. */
  function IsSupabaseAvatar(avatarUrl: Option<string>): (b: bool)
    ensures b <==> avatarUrl.Some? && avatarUrl.value != "" && Contains(avatarUrl.value, "user-avatars")
  {
    if avatarUrl.None? || avatarUrl.value == "" then false else Contains(avatarUrl.value, "user-avatars")
  }

  const BucketSeparator: string := "/user-avatars/"

  /**
   * `extractSupabaseFilePath`: the text between the first "/user-avatars/" and the next one
   * (or the end); None when the URL does not contain the separator.
   */
  function ExtractSupabaseFilePath(avatarUrl: string): (r: Option<string>)
    ensures r.Some? <==> Contains(avatarUrl, BucketSeparator)
    ensures r.Some? ==> !Contains(r.value, BucketSeparator)
    ensures r.Some? ==>
      var i := IndexOf(avatarUrl, BucketSeparator).value;
      r.value == Split(avatarUrl[i + |BucketSeparator|..], BucketSeparator)[0]
  {
    SplitSingle(avatarUrl, BucketSeparator);
    SeparatorNamesBucket(avatarUrl);
    if !IsSupabaseAvatar(Some(avatarUrl)) then None
    else
      var parts := Split(avatarUrl, BucketSeparator);
      if |parts| > 1 then
        var i := IndexOf(avatarUrl, BucketSeparator).value;
        SplitFirstNoSep(avatarUrl[i + |BucketSeparator|..], BucketSeparator);
        Some(parts[1])
      else None
  }

  /** A URL with the separator mentions the bucket. */
  lemma SeparatorNamesBucket(url: string)
    ensures Contains(url, BucketSeparator) ==> Contains(url, "user-avatars")
  {
    if Contains(url, BucketSeparator) {
      assert "/" + "user-avatars" + "/" == BucketSeparator;
      ContainsInfix(url, "user-avatars", "/", "/");
    }
  }

  /**
   * In `base + "/user-avatars/" + rest`, the first separator is the one after `base`,
   * provided `base` followed by a slash does not already contain it.
   */
  lemma FirstSeparatorAfter(base: string, rest: string)
    requires !Contains(base + "/", BucketSeparator)
    ensures IndexOf(base + BucketSeparator + rest, BucketSeparator) == Some(|base|)
  {
    var s := base + BucketSeparator + rest;
    var n := |BucketSeparator|;
    assert s[|base|..|base| + n] == BucketSeparator;
    assert OccursAt(s, BucketSeparator, |base|);
    forall j | 0 <= j < |base| ensures !OccursAt(s, BucketSeparator, j) {
      if j + n <= |base| + 1 {
        var t := base + "/";
        assert s[..|base| + 1] == t;
        assert s[j..j + n] == s[..|base| + 1][j..j + n];
        assert !OccursAt(t, BucketSeparator, j);
      } else {
        var o := |base| - j;
        assert 1 <= o <= 12;
        assert s[j..j + n][o] == s[|base|] == '/';
        assert BucketSeparator[o] != '/';
      }
    }
  }

  /** A path put under the bucket comes back out of its URL, when it holds no separator itself. */
  lemma ExtractRoundTrip(base: string, path: string)
    requires !Contains(base + "/", BucketSeparator)
    requires !Contains(path, BucketSeparator)
    ensures ExtractSupabaseFilePath(base + BucketSeparator + path) == Some(path)
  {
    var url := base + BucketSeparator + path;
    FirstSeparatorAfter(base, path);
    assert OccursAt(url, BucketSeparator, |base|) by {
      assert url[|base|..|base| + |BucketSeparator|] == BucketSeparator;
    }
    assert url[|base| + |BucketSeparator|..] == path;
    SplitSingle(path, BucketSeparator);
    assert Split(path, BucketSeparator) == [path];
  }

  // ---- upload checks and file names ----

  const MaxAvatarSize: int := 5 * 1024 * 1024

  const SupportedTypes: seq<string> := ["image/jpeg", "image/jpg", "image/png", "image/gif", "image/webp"]

  datatype Validation = Valid | Invalid(error: string)

  /**
   * `validateAvatarFile`: not an image, then too large, then an unsupported image format;
   * valid exactly for a supported type of at most 5 MiB.
   */
  function ValidateAvatarFile(mimeType: string, size: int): (r: Validation)
    ensures r == Invalid("File must be an image") <==> !StartsWith(mimeType, "image/")
    ensures r == Invalid("File size must be less than 5MB") <==> StartsWith(mimeType, "image/") && size > MaxAvatarSize
    ensures r.Valid? <==> mimeType in SupportedTypes && size <= MaxAvatarSize
  {
    SupportedAreImages(mimeType);
    if !StartsWith(mimeType, "image/") then Invalid("File must be an image")
    else if size > MaxAvatarSize then Invalid("File size must be less than 5MB")
    else if mimeType !in SupportedTypes then Invalid("Supported formats: JPG, PNG, GIF, WebP")
    else Valid
  }

  /** Every supported type is an image type. */
  lemma SupportedAreImages(mimeType: string)
    ensures mimeType in SupportedTypes ==> StartsWith(mimeType, "image/")
  {
  }

  /** `name.split('.').pop()`: the text after the last dot, or the whole name when it has none. */
  function LastDotPiece(name: string): (r: string)
    ensures '.' !in r
  {
    var parts := Split(name, ".");
    SplitLastNoSep(name, '.');
    parts[|parts| - 1]
  }

  /** `LastDotPiece(name).toLowerCase() || 'jpg'`. */
  function AvatarExtension(name: string): (r: string)
    ensures r != "" && '.' !in r
  {
    var e := ToLower(LastDotPiece(name));
    if e == "" then "jpg" else e
  }

  /** `generateAvatarFilename`: user id, clock reading, six random characters, and the extension. */
  function GenerateAvatarFilename(userId: string, originalFilename: string, now: nat, random: string): string {
    userId + "-" + Decimal(now) + "-" + Substring(random, 2, 8) + "." + AvatarExtension(originalFilename)
  }

  /** The extension is the lower-cased text after the name's last dot; a name ending in a dot gets "jpg". */
  lemma ExtensionOfDottedName(stem: string, ext: string)
    requires '.' !in ext
    ensures AvatarExtension(stem + "." + ext) == if ext == "" then "jpg" else ToLower(ext)
    ensures LastDotPiece(stem + "." + ext) == ext
  {
    SplitLast(stem, '.', ext);
  }

  /** A generated file name ends with a dot and the extension, and the extension holds no dot. */
  lemma FilenameEndsWithExtension(userId: string, originalFilename: string, now: nat, random: string)
    ensures var f := GenerateAvatarFilename(userId, originalFilename, now, random);
      var e := AvatarExtension(originalFilename);
      |f| > |e| && f[|f| - |e| - 1] == '.' && f[|f| - |e|..] == e && '.' !in e
      && LastDotPiece(f) == e
  {
    var e := AvatarExtension(originalFilename);
    var stem := userId + "-" + Decimal(now) + "-" + Substring(random, 2, 8);
    var f := GenerateAvatarFilename(userId, originalFilename, now, random);
    assert f == stem + "." + e;
    ExtensionOfDottedName(stem, e);
  }

  // ---- choosing the URL to show ----

  /** `getValidAvatarUrl`: the URL when it is non-empty and parses, else nothing. */
  function GetValidAvatarUrl(avatarUrl: Option<string>, parses: string -> bool): (r: Option<string>)
    ensures r.Some? <==> avatarUrl.Some? && avatarUrl.value != "" && parses(avatarUrl.value)
    ensures r.Some? ==> r == avatarUrl
  {
    if avatarUrl.None? || avatarUrl.value == "" then None
    else if parses(avatarUrl.value) then avatarUrl
    else None
  }

  const PlaceholderService: string := "https://ui-avatars.com/api/?"

  /** The query parameters of the placeholder, in order. */
  function PlaceholderParams(name: string, size: nat): seq<(string, string)> {
    [("name", GetInitials(name)), ("size", Decimal(size)), ("background", "6366f1"),
     ("color", "ffffff"), ("bold", "true"), ("format", "svg")]
  }

  /** `generatePlaceholderAvatar`: the avatar service's URL with the encoded parameters. */
  function GeneratePlaceholderAvatar(name: string, size: nat, encode: seq<(string, string)> -> string): string {
    PlaceholderService + encode(PlaceholderParams(name, size))
  }

  /** `getBestAvatarUrl`: the given URL if it is valid, otherwise a placeholder for the name (or "User"). */
  function GetBestAvatarUrl(avatarUrl: Option<string>, userName: Option<string>, size: nat,
                            parses: string -> bool, encode: seq<(string, string)> -> string): (r: string)
    ensures GetValidAvatarUrl(avatarUrl, parses).Some? ==> r == avatarUrl.value
    ensures GetValidAvatarUrl(avatarUrl, parses).None? ==> StartsWith(r, PlaceholderService)
    ensures GetValidAvatarUrl(avatarUrl, parses).None? ==>
      r == GeneratePlaceholderAvatar(if userName.Some? && userName.value != "" then userName.value else "User",
                                     size, encode)
    ensures r != ""
  {
    match GetValidAvatarUrl(avatarUrl, parses)
    case Some(u) => u
    case None =>
      var name := if userName.Some? && userName.value != "" then userName.value else "User";
      var p := GeneratePlaceholderAvatar(name, size, encode);
      assert p[..|PlaceholderService|] == PlaceholderService;
      p
  }

  /** Without a usable URL or a name, the placeholder shows the initial "U". */
  lemma AnonymousPlaceholder(size: nat, parses: string -> bool, encode: seq<(string, string)> -> string)
    ensures GetBestAvatarUrl(None, None, size, parses, encode)
      == PlaceholderService + encode(PlaceholderParams("User", size))
    ensures PlaceholderParams("User", size)[0] == ("name", "U")
  {
    InitialOfOneWord("User");
  }
}

=== FILE: cart.dfy ===
/**
 * The shopping cart: a list of entries, one per (event, ticket type) pair, with the
 * operations the storefront pages call and the totals the checkout shows.
 * The specification functions say what each operation leaves in the cart; the `Cart`
 * class holds the cart's state and updates it through them.
 */
module CartContext {
  import opened Wrappers
  import opened Text

  datatype PaymentMethod = Card

  /** A cart entry before it has an id, as the pages pass it to `addToCart`. */
  datatype NewItem = NewItem(
    eventId: string,
    eventTitle: string,
    eventDate: string,
    eventTime: Option<string>,
    eventLocation: string,
    eventImage: Option<string>,
    ticketTypeId: string,
    ticketTypeName: string,
    ticketTypeDescription: Option<string>,
    price: real,
    quantity: int)

  datatype CartItem = CartItem(id: string, item: NewItem)

  /** The id a new entry gets: event id, ticket type id and the clock reading, dash-separated. */
  function EntryId(x: NewItem, now: nat): string {
    x.eventId + "-" + x.ticketTypeId + "-" + Decimal(now)
  }

  predicate HasKey(c: CartItem, eventId: string, ticketTypeId: string) {
    c.item.eventId == eventId && c.item.ticketTypeId == ticketTypeId
  }

  /** `items.findIndex(...)` for an (event, ticket type) pair: the first match, or -1. */
  function FindIndex(items: seq<CartItem>, eventId: string, ticketTypeId: string): (r: int)
    ensures -1 <= r < |items|
    ensures r >= 0 ==> HasKey(items[r], eventId, ticketTypeId)
    ensures r >= 0 ==> forall j :: 0 <= j < r ==> !HasKey(items[j], eventId, ticketTypeId)
    ensures r == -1 <==> forall j :: 0 <= j < |items| ==> !HasKey(items[j], eventId, ticketTypeId)
  {
    if items == [] then -1
    else if HasKey(items[0], eventId, ticketTypeId) then 0
    else
      var k := FindIndex(items[1..], eventId, ticketTypeId);
      if k == -1 then -1 else k + 1
  }

  /** No two entries are for the same (event, ticket type) pair. */
  predicate KeysUnique(items: seq<CartItem>) {
    forall i, j :: 0 <= i < j < |items| ==> !HasKey(items[j], items[i].item.eventId, items[i].item.ticketTypeId)
  }

  function WithQuantity(c: CartItem, q: int): CartItem {
    c.(item := c.item.(quantity := q))
  }

  /** The cart after `addToCart(x)`: a matching entry's quantity grows by `x.quantity`, else `x` is appended. */
  function Added(items: seq<CartItem>, x: NewItem, id: string): seq<CartItem> {
    var k := FindIndex(items, x.eventId, x.ticketTypeId);
    if k >= 0 then items[k := WithQuantity(items[k], items[k].item.quantity + x.quantity)]
    else items + [CartItem(id, x)]
  }

  /** The cart after `replaceInCart(x)`: a matching entry's quantity becomes `x.quantity`, else `x` is appended. */
  function Replaced(items: seq<CartItem>, x: NewItem, id: string): seq<CartItem> {
    var k := FindIndex(items, x.eventId, x.ticketTypeId);
    if k >= 0 then items[k := WithQuantity(items[k], x.quantity)]
    else items + [CartItem(id, x)]
  }

  /** The cart after `removeFromCart(id)`: every entry with that id is dropped. */
  function Removed(items: seq<CartItem>, id: string): seq<CartItem> {
    if items == [] then []
    else (if items[0].id == id then [] else [items[0]]) + Removed(items[1..], id)
  }

  /** Every entry with id `id` takes quantity `q`. */
  function QuantitySet(items: seq<CartItem>, id: string, q: int): seq<CartItem> {
    seq(|items|, i requires 0 <= i < |items| => if items[i].id == id then WithQuantity(items[i], q) else items[i])
  }

  /** The cart after `updateQuantity(id, q)`: a quantity of zero or less removes the entry. */
  function QuantityUpdated(items: seq<CartItem>, id: string, q: int): seq<CartItem> {
    if q <= 0 then Removed(items, id) else QuantitySet(items, id, q)
  }

  /** The cart after `updateItemQuantity(eventId, ticketTypeId, q, itemData)`. */
  function ItemQuantityUpdated(items: seq<CartItem>, eventId: string, ticketTypeId: string, q: int,
                               itemData: Option<NewItem>, now: nat): seq<CartItem>
  {
    var k := FindIndex(items, eventId, ticketTypeId);
    if q <= 0 then
      (if k != -1 then Removed(items, items[k].id) else items)
    else if k != -1 then QuantityUpdated(items, items[k].id, q)
    else if itemData.Some? then
      var x := itemData.value.(quantity := q);
      Added(items, x, EntryId(x, now))
    else items
  }

  /** `items.reduce((total, item) => total + item.quantity, 0)`. */
  function TotalItems(items: seq<CartItem>): int {
    if items == [] then 0 else TotalItems(items[..|items| - 1]) + items[|items| - 1].item.quantity
  }

  /** What `quantity` tickets cost at `price` each. */
  function Charge(price: real, quantity: int): real {
    price * quantity as real
  }

  function LineTotal(c: CartItem): real {
    Charge(c.item.price, c.item.quantity)
  }

  /** `items.reduce((total, item) => total + item.price * item.quantity, 0)`. */
  function Subtotal(items: seq<CartItem>): real {
    if items == [] then 0.0 else Subtotal(items[..|items| - 1]) + LineTotal(items[|items| - 1])
  }

  /** Five percent of the subtotal. */
  function Taxes(items: seq<CartItem>): real {
    Subtotal(items) * 0.05
  }

  function TotalPrice(items: seq<CartItem>): real {
    Subtotal(items) + Taxes(items)
  }

  /** How many tickets of one (event, ticket type) pair the cart holds, over all its entries. */
  function QuantityOf(items: seq<CartItem>, eventId: string, ticketTypeId: string): int {
    if items == [] then 0
    else QuantityOf(items[..|items| - 1], eventId, ticketTypeId)
         + (if HasKey(items[|items| - 1], eventId, ticketTypeId) then items[|items| - 1].item.quantity else 0)
  }

  // ---- sums over concatenations ----

  lemma {:induction false} TotalItemsAppend(a: seq<CartItem>, b: seq<CartItem>)
    ensures TotalItems(a + b) == TotalItems(a) + TotalItems(b)
    decreases |b|
  {
    if b != [] {
      var b' := b[..|b| - 1];
      assert (a + b)[..|a + b| - 1] == a + b';
      TotalItemsAppend(a, b');
    } else {
      assert a + b == a;
    }
  }

  lemma {:induction false} SubtotalAppend(a: seq<CartItem>, b: seq<CartItem>)
    ensures Subtotal(a + b) == Subtotal(a) + Subtotal(b)
    decreases |b|
  {
    if b != [] {
      var b' := b[..|b| - 1];
      assert (a + b)[..|a + b| - 1] == a + b';
      SubtotalAppend(a, b');
    } else {
      assert a + b == a;
    }
  }

  lemma {:induction false} QuantityOfAppend(a: seq<CartItem>, b: seq<CartItem>, e: string, t: string)
    ensures QuantityOf(a + b, e, t) == QuantityOf(a, e, t) + QuantityOf(b, e, t)
    decreases |b|
  {
    if b != [] {
      var b' := b[..|b| - 1];
      assert (a + b)[..|a + b| - 1] == a + b';
      QuantityOfAppend(a, b', e, t);
    } else {
      assert a + b == a;
    }
  }

  lemma Singleton(c: CartItem, e: string, t: string)
    ensures TotalItems([c]) == c.item.quantity
    ensures Subtotal([c]) == LineTotal(c)
    ensures QuantityOf([c], e, t) == if HasKey(c, e, t) then c.item.quantity else 0
  {
    assert [c][..0] == [];
  }

  /** Splits a sequence around position `k`, so the sums can be taken piece by piece. */
  lemma Around(items: seq<CartItem>, k: nat, c: CartItem)
    requires k < |items|
    ensures items == items[..k] + [items[k]] + items[k + 1..]
    ensures items[k := c] == items[..k] + [c] + items[k + 1..]
  {
  }

  /** Replacing one entry changes each sum by the difference between the new and the old entry. */
  lemma UpdateSums(items: seq<CartItem>, k: nat, c: CartItem, e: string, t: string)
    requires k < |items|
    ensures TotalItems(items[k := c]) == TotalItems(items) - items[k].item.quantity + c.item.quantity
    ensures Subtotal(items[k := c]) == Subtotal(items) - LineTotal(items[k]) + LineTotal(c)
    ensures QuantityOf(items[k := c], e, t) == QuantityOf(items, e, t)
      - QuantityOf([items[k]], e, t) + QuantityOf([c], e, t)
  {
    Around(items, k, c);
    var pre, post := items[..k], items[k + 1..];
    TotalItemsAppend(pre + [items[k]], post);
    TotalItemsAppend(pre, [items[k]]);
    TotalItemsAppend(pre + [c], post);
    TotalItemsAppend(pre, [c]);
    SubtotalAppend(pre + [items[k]], post);
    SubtotalAppend(pre, [items[k]]);
    SubtotalAppend(pre + [c], post);
    SubtotalAppend(pre, [c]);
    QuantityOfAppend(pre + [items[k]], post, e, t);
    QuantityOfAppend(pre, [items[k]], e, t);
    QuantityOfAppend(pre + [c], post, e, t);
    QuantityOfAppend(pre, [c], e, t);
    Singleton(items[k], e, t);
    Singleton(c, e, t);
  }

  /** A key the cart does not hold has no tickets counted against it. */
  lemma {:induction false} QuantityOfAbsent(items: seq<CartItem>, e: string, t: string)
    requires forall j :: 0 <= j < |items| ==> !HasKey(items[j], e, t)
    ensures QuantityOf(items, e, t) == 0
  {
    if items != [] {
      QuantityOfAbsent(items[..|items| - 1], e, t);
    }
  }

  /** In a cart with unique keys, the tickets counted for a held key are those of its one entry. */
  lemma QuantityOfUnique(items: seq<CartItem>, k: nat)
    requires KeysUnique(items) && k < |items|
    ensures QuantityOf(items, items[k].item.eventId, items[k].item.ticketTypeId) == items[k].item.quantity
  {
    var e, t := items[k].item.eventId, items[k].item.ticketTypeId;
    Around(items, k, items[k]);
    var pre, post := items[..k], items[k + 1..];
    QuantityOfAppend(pre + [items[k]], post, e, t);
    QuantityOfAppend(pre, [items[k]], e, t);
    Singleton(items[k], e, t);
    forall j | 0 <= j < |pre| ensures !HasKey(pre[j], e, t) {
      assert pre[j] == items[j];
    }
    forall j | 0 <= j < |post| ensures !HasKey(post[j], e, t) {
      assert post[j] == items[k + 1 + j];
    }
    QuantityOfAbsent(pre, e, t);
    QuantityOfAbsent(post, e, t);
  }

  // ---- addToCart and replaceInCart ----

  /**
   * Adding merges into an existing entry for the same pair, keeping its id, price and
   * details, or appends a new entry under the id given (see `EntryId`).
   */
  lemma AddedShape(items: seq<CartItem>, x: NewItem, id: string)
    ensures var k := FindIndex(items, x.eventId, x.ticketTypeId);
      var r := Added(items, x, id);
      (k >= 0 ==> |r| == |items|
                  && r[k].id == items[k].id
                  && r[k].item == items[k].item.(quantity := items[k].item.quantity + x.quantity)
                  && forall j :: 0 <= j < |items| && j != k ==> r[j] == items[j])
      && (k == -1 ==> |r| == |items| + 1 && r[..|items|] == items
                      && r[|items|] == CartItem(id, x))
  {
  }

  /** Adding `x` raises the tickets held for `x`'s pair by `x.quantity` and leaves every other pair alone. */
  lemma AddedQuantities(items: seq<CartItem>, x: NewItem, id: string, e: string, t: string)
    ensures QuantityOf(Added(items, x, id), e, t)
      == QuantityOf(items, e, t) + (if e == x.eventId && t == x.ticketTypeId then x.quantity else 0)
    ensures TotalItems(Added(items, x, id)) == TotalItems(items) + x.quantity
  {
    var k := FindIndex(items, x.eventId, x.ticketTypeId);
    var n := CartItem(id, x);
    if k >= 0 {
      UpdateSums(items, k, WithQuantity(items[k], items[k].item.quantity + x.quantity), e, t);
      Singleton(items[k], e, t);
      Singleton(WithQuantity(items[k], items[k].item.quantity + x.quantity), e, t);
    } else {
      QuantityOfAppend(items, [n], e, t);
      TotalItemsAppend(items, [n]);
      Singleton(n, e, t);
    }
  }

  /** The unit price a merge or an append of `x` is charged at. */
  function AddedUnitPrice(items: seq<CartItem>, x: NewItem): real {
    var k := FindIndex(items, x.eventId, x.ticketTypeId);
    if k >= 0 then items[k].item.price else x.price
  }

  /** A merge is priced at the existing entry's price; an append at the new item's. */
  lemma AddedSubtotal(items: seq<CartItem>, x: NewItem, id: string)
    ensures Subtotal(Added(items, x, id)) == Subtotal(items) + Charge(AddedUnitPrice(items, x), x.quantity)
  {
    if FindIndex(items, x.eventId, x.ticketTypeId) >= 0 {
      AddedSubtotalMerge(items, x, id);
    } else {
      AddedSubtotalAppend(items, x, id);
    }
  }

  lemma AddedSubtotalMerge(items: seq<CartItem>, x: NewItem, id: string)
    requires FindIndex(items, x.eventId, x.ticketTypeId) >= 0
    ensures Subtotal(Added(items, x, id)) == Subtotal(items) + Charge(AddedUnitPrice(items, x), x.quantity)
  {
    var k := FindIndex(items, x.eventId, x.ticketTypeId);
    var r := Added(items, x, id);
    var p := AddedUnitPrice(items, x);
    assert r == items[k := WithQuantity(items[k], items[k].item.quantity + x.quantity)] && p == items[k].item.price by {
      MergeAt(items, x, id, k);
    }
    MergedSubtotal(items, k, x.quantity, r, p);
  }

  lemma MergeAt(items: seq<CartItem>, x: NewItem, id: string, k: int)
    requires k == FindIndex(items, x.eventId, x.ticketTypeId) && k >= 0
    ensures Added(items, x, id) == items[k := WithQuantity(items[k], items[k].item.quantity + x.quantity)]
    ensures AddedUnitPrice(items, x) == items[k].item.price
  {
  }

  lemma AddedSubtotalAppend(items: seq<CartItem>, x: NewItem, id: string)
    requires FindIndex(items, x.eventId, x.ticketTypeId) < 0
    ensures Subtotal(Added(items, x, id)) == Subtotal(items) + Charge(AddedUnitPrice(items, x), x.quantity)
  {
    var n := CartItem(id, x);
    assert Added(items, x, id) == items + [n];
    assert (items + [n])[..|items|] == items;
    assert Subtotal(items + [n]) == Subtotal(items) + LineTotal(n);
    assert LineTotal(n) == x.price * x.quantity as real;
    assert AddedUnitPrice(items, x) == x.price;
  }

  /** Merging `dq` more tickets into entry `k` adds them at that entry's price `p`. */
  lemma MergedSubtotal(items: seq<CartItem>, k: nat, dq: int, r: seq<CartItem>, p: real)
    requires k < |items| && r == items[k := WithQuantity(items[k], items[k].item.quantity + dq)]
    requires p == items[k].item.price
    ensures Subtotal(r) == Subtotal(items) + Charge(p, dq)
  {
    var c := WithQuantity(items[k], items[k].item.quantity + dq);
    UpdateSums(items, k, c, "", "");
    MergedLine(items[k], dq, c, p);
    Rebalance(Subtotal(r), Subtotal(items), LineTotal(items[k]), LineTotal(c), Charge(p, dq));
  }

  /** Swapping one summand `a` for `b == a + d` raises the sum by `d`. */
  lemma Rebalance(sum: real, before: real, a: real, b: real, d: real)
    requires sum == before - a + b && b == a + d
    ensures sum == before + d
  {
  }

  /** Merging `dq` more tickets into an entry adds `dq` at the entry's price `p` to its line total. */
  lemma MergedLine(c0: CartItem, dq: int, c: CartItem, p: real)
    requires c == WithQuantity(c0, c0.item.quantity + dq) && p == c0.item.price
    ensures LineTotal(c) == LineTotal(c0) + Charge(p, dq)
  {
    var q := c0.item.quantity;
    assert (q + dq) as real == q as real + dq as real;
    assert p * (q as real + dq as real) == p * q as real + p * dq as real;
  }

  lemma AddedKeepsKeysUnique(items: seq<CartItem>, x: NewItem, id: string)
    requires KeysUnique(items)
    ensures KeysUnique(Added(items, x, id))
  {
    var k := FindIndex(items, x.eventId, x.ticketTypeId);
    var r := Added(items, x, id);
    if k >= 0 {
      forall i, j | 0 <= i < j < |r| ensures !HasKey(r[j], r[i].item.eventId, r[i].item.ticketTypeId) {
        assert HasKey(r[j], r[i].item.eventId, r[i].item.ticketTypeId)
           <==> HasKey(items[j], items[i].item.eventId, items[i].item.ticketTypeId);
      }
    }
  }

  /** With unique keys, replacing sets the tickets held for `x`'s pair to exactly `x.quantity`. */
  lemma ReplacedQuantities(items: seq<CartItem>, x: NewItem, id: string, e: string, t: string)
    requires KeysUnique(items)
    ensures QuantityOf(Replaced(items, x, id), e, t)
      == if e == x.eventId && t == x.ticketTypeId then x.quantity else QuantityOf(items, e, t)
    ensures KeysUnique(Replaced(items, x, id))
  {
    var k := FindIndex(items, x.eventId, x.ticketTypeId);
    var r := Replaced(items, x, id);
    var n := CartItem(id, x);
    if k >= 0 {
      var c := WithQuantity(items[k], x.quantity);
      UpdateSums(items, k, c, e, t);
      Singleton(items[k], e, t);
      Singleton(c, e, t);
      QuantityOfUnique(items, k);
      forall i, j | 0 <= i < j < |r| ensures !HasKey(r[j], r[i].item.eventId, r[i].item.ticketTypeId) {
        assert HasKey(r[j], r[i].item.eventId, r[i].item.ticketTypeId)
           <==> HasKey(items[j], items[i].item.eventId, items[i].item.ticketTypeId);
      }
    } else {
      QuantityOfAppend(items, [n], e, t);
      Singleton(n, e, t);
      QuantityOfAbsent(items, x.eventId, x.ticketTypeId);
    }
  }

  // ---- removeFromCart, updateQuantity, updateItemQuantity ----

  /** Removal keeps exactly the entries with another id, in their order. */
  lemma {:induction false} RemovedSpec(items: seq<CartItem>, id: string)
    ensures forall c :: c in Removed(items, id) <==> c in items && c.id != id
    ensures |Removed(items, id)| <= |items|
  {
    if items != [] {
      RemovedSpec(items[1..], id);
      assert items == [items[0]] + items[1..];
    }
  }

  /** Removal distributes over concatenation, so it preserves the order of what it keeps. */
  lemma {:induction false} RemovedAppend(a: seq<CartItem>, b: seq<CartItem>, id: string)
    ensures Removed(a + b, id) == Removed(a, id) + Removed(b, id)
  {
    if a != [] {
      assert (a + b)[1..] == a[1..] + b;
      RemovedAppend(a[1..], b, id);
    } else {
      assert a + b == b;
    }
  }

  /** Removal keeps keys unique: what remains is a subsequence of the cart. */
  lemma {:induction false} RemovedKeepsKeysUnique(items: seq<CartItem>, id: string)
    requires KeysUnique(items)
    ensures KeysUnique(Removed(items, id))
  {
    if items != [] {
      var rest := Removed(items[1..], id);
      RemovedKeepsKeysUnique(items[1..], id);
      RemovedSpec(items[1..], id);
      var c := items[0];
      forall d | d in rest ensures !HasKey(d, c.item.eventId, c.item.ticketTypeId) {
        var j :| 0 <= j < |items[1..]| && items[1..][j] == d;
        assert items[j + 1] == d;
      }
    }
  }

  lemma QuantitySetKeepsKeysUnique(items: seq<CartItem>, id: string, q: int)
    requires KeysUnique(items)
    ensures KeysUnique(QuantitySet(items, id, q))
  {
    var r := QuantitySet(items, id, q);
    forall i, j | 0 <= i < j < |r| ensures !HasKey(r[j], r[i].item.eventId, r[i].item.ticketTypeId) {
      assert HasKey(r[j], r[i].item.eventId, r[i].item.ticketTypeId)
         <==> HasKey(items[j], items[i].item.eventId, items[i].item.ticketTypeId);
    }
  }

  /**
   * `updateQuantity` with a positive quantity sets the quantity of the entries with that id
   * and nothing else; with zero or less it removes them.
   */
  lemma QuantityUpdatedSpec(items: seq<CartItem>, id: string, q: int)
    ensures q <= 0 ==> forall c :: c in QuantityUpdated(items, id, q) <==> c in items && c.id != id
    ensures q > 0 ==> var r := QuantityUpdated(items, id, q);
      |r| == |items|
      && forall j :: 0 <= j < |items| ==>
           r[j].id == items[j].id
           && r[j].item == (if items[j].id == id then items[j].item.(quantity := q) else items[j].item)
    ensures KeysUnique(items) ==> KeysUnique(QuantityUpdated(items, id, q))
  {
    RemovedSpec(items, id);
    if KeysUnique(items) {
      if q <= 0 { RemovedKeepsKeysUnique(items, id); } else { QuantitySetKeepsKeysUnique(items, id, q); }
    }
  }

  /** After removing the entry a pair was found at, a cart with unique keys no longer holds the pair. */
  lemma RemovedFoundKey(items: seq<CartItem>, k: nat)
    requires KeysUnique(items) && k < |items|
    ensures var e, t := items[k].item.eventId, items[k].item.ticketTypeId;
      FindIndex(Removed(items, items[k].id), e, t) == -1
  {
    var e, t := items[k].item.eventId, items[k].item.ticketTypeId;
    var r := Removed(items, items[k].id);
    RemovedSpec(items, items[k].id);
    forall j | 0 <= j < |r| ensures !HasKey(r[j], e, t) {
      assert r[j] in r;
      var i :| 0 <= i < |items| && items[i] == r[j];
      assert i != k;
      if i < k {
        assert !HasKey(items[k], items[i].item.eventId, items[i].item.ticketTypeId);
      }
    }
  }

  /**
   * `updateItemQuantity` in a cart with unique keys: a quantity of zero or less leaves the
   * pair absent, and leaves the cart as it was when the pair was not there; a positive
   * quantity leaves the pair with exactly that many tickets, unless the pair was absent and
   * no item data was given, when the cart is unchanged. Keys stay unique.
   */
  lemma ItemQuantityUpdatedSpec(items: seq<CartItem>, e: string, t: string, q: int,
                                itemData: Option<NewItem>, now: nat)
    requires KeysUnique(items)
    requires itemData.Some? ==> itemData.value.eventId == e && itemData.value.ticketTypeId == t
    ensures var r := ItemQuantityUpdated(items, e, t, q, itemData, now);
      KeysUnique(r)
      && (q <= 0 ==> FindIndex(r, e, t) == -1)
      && (q <= 0 && FindIndex(items, e, t) == -1 ==> r == items)
      && (q > 0 && FindIndex(items, e, t) == -1 && itemData.None? ==> r == items)
      && (q > 0 && (FindIndex(items, e, t) != -1 || itemData.Some?) ==> QuantityOf(r, e, t) == q)
  {
    var k := FindIndex(items, e, t);
    var r := ItemQuantityUpdated(items, e, t, q, itemData, now);
    if q <= 0 {
      if k != -1 {
        RemovedFoundKey(items, k);
        RemovedKeepsKeysUnique(items, items[k].id);
      }
    } else if k != -1 {
      QuantitySetKeepsKeysUnique(items, items[k].id, q);
      QuantityUpdatedSpec(items, items[k].id, q);
      assert r[k].item == items[k].item.(quantity := q);
      QuantityOfUnique(r, k);
    } else if itemData.Some? {
      var x := itemData.value.(quantity := q);
      AddedKeepsKeysUnique(items, x, EntryId(x, now));
      AddedQuantities(items, x, EntryId(x, now), e, t);
      QuantityOfAbsent(items, e, t);
    }
  }

  /** No two entries share an id. */
  predicate IdsUnique(items: seq<CartItem>) {
    forall i, j :: 0 <= i < j < |items| ==> items[i].id != items[j].id
  }

  /** Two carts whose entries count the same tickets for a pair, position by position, count the same in total. */
  lemma {:induction false} QuantityOfPointwise(a: seq<CartItem>, b: seq<CartItem>, e: string, t: string)
    requires |a| == |b|
    requires forall j :: 0 <= j < |a| ==>
      (if HasKey(a[j], e, t) then a[j].item.quantity else 0) == (if HasKey(b[j], e, t) then b[j].item.quantity else 0)
    ensures QuantityOf(a, e, t) == QuantityOf(b, e, t)
    decreases |a|
  {
    if a != [] {
      QuantityOfPointwise(a[..|a| - 1], b[..|b| - 1], e, t);
    }
  }

  /** Setting the quantity of entries that are not for a pair leaves that pair's tickets alone. */
  lemma QuantitySetOthers(items: seq<CartItem>, id: string, q: int, e: string, t: string)
    requires forall j :: 0 <= j < |items| && items[j].id == id ==> !HasKey(items[j], e, t)
    ensures QuantityOf(QuantitySet(items, id, q), e, t) == QuantityOf(items, e, t)
  {
    QuantityOfPointwise(QuantitySet(items, id, q), items, e, t);
  }

  /** Removing entries that are not for a pair leaves that pair's tickets alone. */
  lemma {:induction false} QuantityOfRemoved(items: seq<CartItem>, id: string, e: string, t: string)
    requires forall j :: 0 <= j < |items| && items[j].id == id ==> !HasKey(items[j], e, t)
    ensures QuantityOf(Removed(items, id), e, t) == QuantityOf(items, e, t)
    decreases |items|
  {
    if items != [] {
      var init, last := items[..|items| - 1], items[|items| - 1];
      assert items == init + [last];
      RemovedAppend(init, [last], id);
      QuantityOfRemoved(init, id, e, t);
      assert Removed([last], id) == (if last.id == id then [] else [last]) by {
        assert [last][1..] == [];
      }
      QuantityOfAppend(Removed(init, id), Removed([last], id), e, t);
      QuantityOfAppend(init, [last], e, t);
      Singleton(last, e, t);
    }
  }

  /**
   * When no two entries share an id, `updateItemQuantity` for one pair leaves the tickets of
   * every other pair untouched: it removes or rewrites only the entry found for its pair, or
   * adds one for that pair.
   */
  lemma ItemQuantityUpdatedOthers(items: seq<CartItem>, e: string, t: string, q: int,
                                  itemData: Option<NewItem>, now: nat, e': string, t': string)
    requires IdsUnique(items)
    requires itemData.Some? ==> itemData.value.eventId == e && itemData.value.ticketTypeId == t
    requires e' != e || t' != t
    ensures QuantityOf(ItemQuantityUpdated(items, e, t, q, itemData, now), e', t') == QuantityOf(items, e', t')
  {
    var k := FindIndex(items, e, t);
    if k != -1 {
      assert forall j :: 0 <= j < |items| && items[j].id == items[k].id ==> j == k;
      if q <= 0 {
        QuantityOfRemoved(items, items[k].id, e', t');
      } else {
        QuantitySetOthers(items, items[k].id, q, e', t');
      }
    } else if q > 0 && itemData.Some? {
      var x := itemData.value.(quantity := q);
      AddedQuantities(items, x, EntryId(x, now), e', t');
    }
  }

  /**
   * Entry ids can collide: event "a-b" with ticket type "c" and event "a" with ticket type
   * "b-c", added in the same millisecond, get the same id. Removing one pair through
   * `updateItemQuantity` then removes the other pair's entry too.
   */
  lemma IdsCanCollide(x: NewItem, y: NewItem, now: nat)
    requires x.eventId == "a-b" && x.ticketTypeId == "c" && y.eventId == "a" && y.ticketTypeId == "b-c"
    ensures EntryId(x, now) == EntryId(y, now)
    ensures KeysUnique([CartItem(EntryId(x, now), x), CartItem(EntryId(y, now), y)])
    ensures ItemQuantityUpdated([CartItem(EntryId(x, now), x), CartItem(EntryId(y, now), y)], "a", "b-c", 0, None, now) == []
  {
    assert "a-b" + "-" + "c" == "a" + "-" + "b-c";
    var items := [CartItem(EntryId(x, now), x), CartItem(EntryId(y, now), y)];
    assert !HasKey(items[0], "a", "b-c");
    assert FindIndex(items, "a", "b-c") == 1 by {
      assert items[1..] == [items[1]];
      assert FindIndex(items[1..], "a", "b-c") == 0;
    }
    var id := items[1].id;
    assert items[0].id == id;
    assert [items[1]][1..] == [];
    assert Removed([items[1]], id) == [];
    assert Removed(items, id) == Removed(items[1..], id);
  }

  // ---- totals ----

  /** The price shown at checkout is the subtotal plus five percent. */
  lemma TotalPriceIsSubtotalPlusTax(items: seq<CartItem>)
    ensures Taxes(items) == Subtotal(items) / 20.0
    ensures TotalPrice(items) == Subtotal(items) * 21.0 / 20.0
  {
  }

  /** Two tickets at 1000 come to a subtotal of 2000, tax of 100 and a total of 2100. */
  lemma TwoTicketsAtAThousand(x: NewItem)
    requires x.price == 1000.0 && x.quantity == 2
    ensures Subtotal([CartItem("e-t-0", x)]) == 2000.0
    ensures Taxes([CartItem("e-t-0", x)]) == 100.0
    ensures TotalPrice([CartItem("e-t-0", x)]) == 2100.0
  {
    Singleton(CartItem("e-t-0", x), "", "");
  }

  /** The cart's state: its entries and the chosen payment method. */
  class Cart {
    var items: seq<CartItem>
    var paymentMethod: PaymentMethod

    ghost predicate Valid()
      reads this
    {
      KeysUnique(items)
    }

    constructor ()
      ensures Valid() && items == [] && paymentMethod == Card
    {
      items := [];
      paymentMethod := Card;
    }

    method AddToCart(newItem: NewItem, now: nat)
      requires Valid()
      modifies this
      ensures Valid()
      ensures items == Added(old(items), newItem, EntryId(newItem, now)) && paymentMethod == old(paymentMethod)
    {
      var id := EntryId(newItem, now);
      var k := FindIndex(items, newItem.eventId, newItem.ticketTypeId);
      AddedKeepsKeysUnique(items, newItem, id);
      if k >= 0 {
        items := items[k := WithQuantity(items[k], items[k].item.quantity + newItem.quantity)];
      } else {
        items := items + [CartItem(id, newItem)];
      }
    }

    method ReplaceInCart(newItem: NewItem, now: nat)
      requires Valid()
      modifies this
      ensures Valid()
      ensures items == Replaced(old(items), newItem, EntryId(newItem, now)) && paymentMethod == old(paymentMethod)
    {
      var id := EntryId(newItem, now);
      var k := FindIndex(items, newItem.eventId, newItem.ticketTypeId);
      ReplacedQuantities(items, newItem, id, "", "");
      if k >= 0 {
        items := items[k := WithQuantity(items[k], newItem.quantity)];
      } else {
        items := items + [CartItem(id, newItem)];
      }
    }

    method RemoveFromCart(itemId: string)
      requires Valid()
      modifies this
      ensures Valid()
      ensures items == Removed(old(items), itemId) && paymentMethod == old(paymentMethod)
    {
      RemovedKeepsKeysUnique(items, itemId);
      items := Removed(items, itemId);
    }

    method UpdateQuantity(itemId: string, quantity: int)
      requires Valid()
      modifies this
      ensures Valid()
      ensures items == QuantityUpdated(old(items), itemId, quantity) && paymentMethod == old(paymentMethod)
    {
      if quantity <= 0 {
        RemoveFromCart(itemId);
        return;
      }
      QuantitySetKeepsKeysUnique(items, itemId, quantity);
      items := QuantitySet(items, itemId, quantity);
    }

    method UpdateItemQuantity(eventId: string, ticketTypeId: string, quantity: int,
                              itemData: Option<NewItem>, now: nat)
      requires Valid()
      modifies this
      ensures Valid()
      ensures items == ItemQuantityUpdated(old(items), eventId, ticketTypeId, quantity, itemData, now)
      ensures paymentMethod == old(paymentMethod)
    {
      var k := FindIndex(items, eventId, ticketTypeId);
      if quantity <= 0 {
        if k != -1 {
          RemoveFromCart(items[k].id);
        }
        return;
      }
      if k != -1 {
        UpdateQuantity(items[k].id, quantity);
      } else if itemData.Some? {
        AddToCart(itemData.value.(quantity := quantity), now);
      }
    }

    method SetPaymentMethod(m: PaymentMethod)
      modifies this
      ensures paymentMethod == m && items == old(items)
    {
      paymentMethod := m;
    }

    method ClearCart()
      modifies this
      ensures Valid() && items == [] && paymentMethod == Card
    {
      items := [];
      paymentMethod := Card;
    }

    method GetTotalItems() returns (n: int)
      ensures n == TotalItems(items)
    {
      n := 0;
      var i := 0;
      while i < |items|
        invariant 0 <= i <= |items|
        invariant n == TotalItems(items[..i])
      {
        assert items[..i + 1][..i] == items[..i];
        n := n + items[i].item.quantity;
        i := i + 1;
      }
      assert items[..i] == items;
    }

    method GetSubtotal() returns (s: real)
      ensures s == Subtotal(items)
    {
      s := 0.0;
      var i := 0;
      while i < |items|
        invariant 0 <= i <= |items|
        invariant s == Subtotal(items[..i])
      {
        assert items[..i + 1][..i] == items[..i];
        s := s + items[i].item.price * items[i].item.quantity as real;
        i := i + 1;
      }
      assert items[..i] == items;
    }

    method GetTaxes() returns (tax: real)
      ensures tax == Subtotal(items) / 20.0
    {
      var subtotal := GetSubtotal();
      tax := subtotal * 0.05;
    }

    method GetTotalPrice() returns (total: real)
      ensures total == Subtotal(items) * 21.0 / 20.0
    {
      var subtotal := GetSubtotal();
      var tax := GetTaxes();
      total := subtotal + tax;
    }
  }
}

=== FILE: checkout_flow.dfy ===
/**
 * How the pieces of the checkout meet: the body the cart page sends to the payment route, the
 * query the return pages send to the transaction lookup, and the statuses the return pages
 * wait for. Each lemma follows one hand-off through the models of both sides.
 */
module CheckoutFlow {
  import opened Wrappers
  import opened Js
  import opened Tables
  import Gateway
  import PaymentRoute
  import WebhookRoute
  import PaymentSuccess
  import PaymentPending

  /** `searchParams.get(name)` over the query parameters of a request. */
  function QueryParam(params: map<string, string>, name: string): (v: Option<string>)
    ensures v.Some? <==> name in params
  {
    if name in params then Some(params[name]) else None
  }

  /** A transaction row as JSON, with the columns the return pages read. */
  function TransactionJson(t: TransactionRow): Value {
    Obj(map["id" := Str(t.id), "status" := Str(t.status), "order_id" := t.orderId,
            "payment_url" := t.paymentUrl, "preference_id" := t.preferenceId])
  }

  /** The JSON the transaction lookup answers with: the row under `data`, or an error message. */
  function LookupReply(r: WebhookRoute.GetResponse): (v: Value)
    ensures r.status == 200 && r.transaction.Some? ==>
      Prop(Prop(v, "data"), "status") == Str(r.transaction.value.status)
    ensures r.status != 200 ==> Prop(v, "data") == Undefined
  {
    if r.status == 200 && r.transaction.Some? then
      Obj(map["data" := TransactionJson(r.transaction.value), "status" := Num(200.0)])
    else Obj(map["message" := Str(r.message)])
  }

  /** The body the cart page posts to the payment route after creating an order. */
  function CartPaymentBody(orderId: Value, totalAmount: Value, userId: Value, payer: Value): Value {
    Obj(map["orderId" := orderId, "totalAmount" := totalAmount, "userId" := userId, "payer" := payer])
  }

  /**
   * The cart page sends the new order's id as `orderId`, while the payment route looks up
   * `purchaseId` in the `purchases` table: every such request is a 404 and the gateway is
   * never asked for a preference.
   */
  lemma CartPaymentIsNotFound(orderId: Value, totalAmount: Value, userId: Value, payer: Value,
                              purchases: map<string, PurchaseRow>, lookupFails: bool,
                              base: string, reply: Option<Value>)
    ensures var o := PaymentRoute.Post(CartPaymentBody(orderId, totalAmount, userId, payer),
                                       purchases, lookupFails, base, reply);
      o.response.status == 404 && o.sent.None?
  {
    assert Prop(CartPaymentBody(orderId, totalAmount, userId, payer), "purchaseId") == Undefined;
  }

  /**
   * The return pages ask for `?id=`, while the lookup reads `eventId`: with only an `id`
   * parameter, the lookup answers 500 whatever the table holds.
   */
  lemma ReturnQueryFindsNothing(paymentId: string, txs: seq<TransactionRow>, queryFails: bool)
    ensures WebhookRoute.Get(QueryParam(map["id" := paymentId], "eventId"), txs, queryFails).status == 500
  {
  }

  /** Every row the lookup can answer with is a row of the table, for the order asked about. */
  lemma LookupRowIsStored(eventId: Option<string>, txs: seq<TransactionRow>, queryFails: bool)
    ensures var r := WebhookRoute.Get(eventId, txs, queryFails);
      r.status == 200 ==> (r.transaction.Some? && r.transaction.value in txs
        && r.transaction.value.orderId == Str(eventId.value))
  {
    var r := WebhookRoute.Get(eventId, txs, queryFails);
    if r.status == 200 {
      WebhookRoute.MatchingSpec(txs, eventId.value);
      assert WebhookRoute.Matching(txs, eventId.value)[0] in WebhookRoute.Matching(txs, eventId.value);
    }
  }

  /**
   * Nothing in the application moves a transaction out of "pending", so the success page,
   * whatever it asks for, never sees an approved payment: it never confirms and never
   * clears the cart.
   */
  lemma SuccessPageNeverConfirms(status: Option<string>, eventId: Option<string>,
                                 txs: seq<TransactionRow>, queryFails: bool)
    requires AllTransactionsPending(txs)
    ensures PaymentSuccess.Decide(status, Some(LookupReply(WebhookRoute.Get(eventId, txs, queryFails))))
        != PaymentSuccess.Confirmed
  {
    LookupRowIsStored(eventId, txs, queryFails);
  }

  /** For the same reason the pending page never leaves: no answer is delivered or rejected. */
  lemma PendingPageNeverSettles(paymentId: string, eventId: Option<string>,
                                txs: seq<TransactionRow>, queryFails: bool)
    requires AllTransactionsPending(txs)
    ensures PaymentPending.Outcome(paymentId, Some(LookupReply(WebhookRoute.Get(eventId, txs, queryFails))))
        == PaymentPending.StillPending
  {
    LookupRowIsStored(eventId, txs, queryFails);
  }

  /**
   * A delivered payment sends the pending page to the success page with status "delivered",
   * which the success page does not accept as approved: the buyer lands on the failure page.
   */
  lemma DeliveredEndsOnFailure(paymentId: string, pendingReply: Option<Value>, successReply: Option<Value>)
    requires PaymentPending.Outcome(paymentId, pendingReply)
      == PaymentPending.GoTo("/payment/success?payment_id=" + paymentId + "&status=delivered")
    ensures PaymentSuccess.Navigation(PaymentSuccess.Decide(Some("delivered"), successReply)) == Some("/payment/failure")
  {
  }

  /** Creating a transaction keeps every row pending, whichever way the request ends. */
  lemma PostKeepsPending(txs: seq<TransactionRow>, body: Value, id: string, reply: Value)
    requires AllTransactionsPending(txs)
    ensures AllTransactionsPending(txs + [WebhookRoute.NewTransaction(body, id)])
    ensures AllTransactionsPending(WebhookRoute.Patched(txs + [WebhookRoute.NewTransaction(body, id)], id,
                                                        Gateway.CheckoutUrl(reply), Prop(reply, "id")))
  {
    var grown := txs + [WebhookRoute.NewTransaction(body, id)];
    assert forall i :: 0 <= i < |grown| ==> grown[i].status == "pending";
    WebhookRoute.PatchKeepsStatus(grown, id, Gateway.CheckoutUrl(reply), Prop(reply, "id"));
  }

  /**
   * A payment request followed by the buyer's return: the transaction store stays all
   * pending, and the success page's decision is never a confirmation.
   */
  method PayThenReturn(db: Store, body: Value, newTxId: string, base: string, insertFails: bool,
                       reply: Option<Value>, updateFails: bool,
                       status: Option<string>, returnParams: map<string, string>, queryFails: bool)
    returns (d: PaymentSuccess.Decision)
    requires AllTransactionsPending(db.transactions)
    modifies db`transactions
    ensures AllTransactionsPending(db.transactions)
    ensures d != PaymentSuccess.Confirmed
  {
    var resp, sent := WebhookRoute.Post(db, body, newTxId, base, insertFails, reply, updateFails);
    if resp.status == 200 {
      PostKeepsPending(old(db.transactions), body, newTxId, reply.value);
    } else if db.transactions != old(db.transactions) {
      PostKeepsPending(old(db.transactions), body, newTxId, Null);
    }
    var lookup := WebhookRoute.Get(QueryParam(returnParams, "eventId"), db.transactions, queryFails);
    SuccessPageNeverConfirms(status, QueryParam(returnParams, "eventId"), db.transactions, queryFails);
    d := PaymentSuccess.Decide(status, Some(LookupReply(lookup)));
  }
}

=== FILE: gateway.dfy ===
/**
 * The MercadoPago checkout preference the payment routes send, and the pending-payment record
 * they answer with. The gateway itself is outside the model: its reply is an input.
 */
module Gateway {
  import opened Wrappers
  import opened Text
  import opened Js

  datatype PreferenceItem = PreferenceItem(id: string, title: string, quantity: int, currencyId: string, unitPrice: Value)

  datatype Payer = Payer(email: Value, name: Value)

  datatype BackUrls = BackUrls(success: string, failure: string, pending: string)

  datatype Preference = Preference(
    items: seq<PreferenceItem>,
    payer: Payer,
    externalReference: string,
    backUrls: BackUrls,
    notificationUrl: string,
    statementDescriptor: string)

  /** The record the routes answer with once the gateway has replied. */
  datatype PaymentData = PaymentData(
    id: Value,
    status: string,
    statusDetail: string,
    transactionAmount: Value,
    currencyId: string,
    paymentMethodId: string,
    installments: int,
    paymentUrl: Value)

  /** `{ email: payer.email, name: payer.name || undefined }`; None where reading `payer` throws. */
  function PayerOf(payer: Value): (r: Option<Payer>)
    ensures r.None? <==> payer.Null? || payer.Undefined?
    ensures r.Some? ==> r.value.email == Prop(payer, "email")
    ensures r.Some? ==> (r.value.name.Undefined? || Truthy(r.value.name))
  {
    if payer.Null? || payer.Undefined? then None
    else Some(Payer(Prop(payer, "email"), Or(Prop(payer, "name"), Undefined)))
  }

  /**
   * A one-item preference charging `amount` once, in pesos, referenced by `reference`, with
   * the return pages and the notification hook under `base`.
   */
  function PreferenceFor(reference: string, title: string, amount: Value, payer: Payer,
                         base: string, descriptor: string): Preference
  {
    Preference(
      [PreferenceItem(reference, title, 1, "ARS", amount)],
      payer,
      reference,
      BackUrls(base + "/payment/success", base + "/payment/failure", base + "/payment/pending"),
      base + "/api/payment/webhook",
      descriptor)
  }

  /** What a preference charges: one unit of `amount` in pesos, and the reference is the item id. */
  lemma PreferenceCharge(reference: string, title: string, amount: Value, payer: Payer, base: string, descriptor: string)
    ensures var p := PreferenceFor(reference, title, amount, payer, base, descriptor);
      |p.items| == 1 && p.items[0].quantity == 1 && p.items[0].currencyId == "ARS"
      && p.items[0].unitPrice == amount
      && p.items[0].id == p.externalReference == reference
      && p.backUrls == BackUrls(base + "/payment/success", base + "/payment/failure", base + "/payment/pending")
      && p.notificationUrl == base + "/api/payment/webhook"
      && p.payer == payer && p.statementDescriptor == descriptor
      && StartsWith(p.backUrls.success, base) && StartsWith(p.backUrls.failure, base)
      && StartsWith(p.backUrls.pending, base) && StartsWith(p.notificationUrl, base)
  {
    var p := PreferenceFor(reference, title, amount, payer, base, descriptor);
    assert p.backUrls.success[..|base|] == base;
    assert p.backUrls.failure[..|base|] == base;
    assert p.backUrls.pending[..|base|] == base;
    assert p.notificationUrl[..|base|] == base;
  }

  /** `reply.init_point || ''`: the checkout link, or the empty string when the reply has none. */
  function CheckoutUrl(reply: Value): (r: Value)
    ensures Truthy(Prop(reply, "init_point")) ==> r == Prop(reply, "init_point")
    ensures !Truthy(Prop(reply, "init_point")) ==> r == Str("")
  {
    Or(Prop(reply, "init_point"), Str(""))
  }

  /** The pending-payment record: status pending, pesos, no method chosen, one instalment. */
  function PendingPayment(id: Value, amount: Value, reply: Value): (d: PaymentData)
    ensures d.status == "pending" && d.statusDetail == "pending_payment" && d.currencyId == "ARS"
    ensures d.paymentMethodId == "" && d.installments == 1
    ensures d.id == id && d.transactionAmount == amount && d.paymentUrl == CheckoutUrl(reply)
  {
    PaymentData(id, "pending", "pending_payment", amount, "ARS", "", 1, CheckoutUrl(reply))
  }
}

=== FILE: js.dfy ===
/**
 * JSON values as the route handlers receive them from request bodies and the backing store,
 * with the JavaScript operators the handlers apply to them: truthiness, `||`, `v.key` and
 * `v?.key`.
 */
module Js {
  import opened Wrappers

  datatype Value =
    | Undefined
    | Null
    | Bool(b: bool)
    | Num(n: real)
    | Str(s: string)
    | Arr(elems: seq<Value>)
    | Obj(props: map<string, Value>)

  /** JavaScript truthiness, as `if (v)` and `!v` test it (NaN is not modelled). */
  predicate Truthy(v: Value) {
    match v
    case Undefined => false
    case Null => false
    case Bool(b) => b
    case Num(n) => n != 0.0
    case Str(s) => s != ""
    case Arr(_) => true
    case Obj(_) => true
  }

  /** `a || b`: the first operand when it is truthy, else the second. */
  function Or(a: Value, b: Value): Value {
    if Truthy(a) then a else b
  }

  /** `v?.key`: undefined when `v` is null or undefined or lacks the key. */
  function Prop(v: Value, key: string): Value {
    match v
    case Obj(m) => if key in m then m[key] else Undefined
    case _ => Undefined
  }

  /** `v.key`: None where JavaScript throws a TypeError (reading a property of null or undefined). */
  function Get(v: Value, key: string): Option<Value> {
    if v.Undefined? || v.Null? then None else Some(Prop(v, key))
  }

  /** The fields of an error object that the handlers and the auth classifier read. */
  datatype ErrorObject = ErrorObject(
    message: Value,
    errorDescription: Value,
    error: Value,
    status: Value,
    code: Value)
}

=== FILE: mails_route.dfy ===
/**
 * The mail route: it picks a subject and a template by the mail's type, builds the
 * template's properties from the request body (a QR image for a new order that carries a
 * code) and hands the message to the mail service.
 */
module MailsRoute {
  import opened Wrappers
  import opened Js

  const SignUpSubject := " \U{00C2}\U{00A1}Bienvenido a Payper App!"
  const Sender := "Merch <hola@payperapp.io>"

  /** `getSubject`: compared with `===`, so only the two exact texts have their own subject. */
  function Subject(mailType: Value): (s: string)
    ensures mailType == Str("sign_up") ==> s == SignUpSubject
    ensures mailType == Str("new_order") ==> s == "Pedido Generado"
    ensures mailType != Str("sign_up") && mailType != Str("new_order") ==> s == "Hola"
  {
    if mailType == Str("sign_up") then SignUpSubject
    else if mailType == Str("new_order") then "Pedido Generado"
    else "Hola"
  }

  /** The properties handed to a template. */
  datatype Props = Props(orderNumber: Value, balance: Value, qrCode: Value, totalAmount: Value,
                         items: Value, firstName: Value)

  datatype Template =
    | Signup(props: Props)
    | NewOrder(props: Props, qrImageData: Option<string>)
    | Reminder(props: Props)

  /**
   * `getEmailTemplate`. `qrImage` is what the QR library produces for the code, None when it
   * throws; a failure gives the empty image and the mail still goes out.
   */
  function EmailTemplate(mailType: Value, props: Props, qrImage: Option<string>): (t: Template)
    ensures t.props == props
    ensures t.NewOrder? <==> mailType == Str("new_order")
    ensures t.Reminder? <==> mailType == Str("reminder")
    ensures t.NewOrder? ==> (t.qrImageData.Some? <==> Truthy(props.qrCode))
    ensures t.NewOrder? && Truthy(props.qrCode) ==> t.qrImageData == Some(qrImage.GetOr(""))
  {
    if mailType == Str("sign_up") then Signup(props)
    else if mailType == Str("new_order") then
      if Truthy(props.qrCode) then NewOrder(props, Some(qrImage.GetOr(""))) else NewOrder(props, None)
    else if mailType == Str("reminder") then Reminder(props)
    else Signup(props)
  }

  /** The `type` field with its default: "sign_up" only when the field is absent. */
  function MailType(body: Value): (t: Value)
    ensures Prop(body, "type") == Undefined ==> t == Str("sign_up")
    ensures Prop(body, "type") != Undefined ==> t == Prop(body, "type")
  {
    if Prop(body, "type") == Undefined then Str("sign_up") else Prop(body, "type")
  }

  /** The properties read from the body; `orderUrl` is read but not among them. */
  function PropsOf(body: Value): Props {
    Props(Prop(body, "orderNumber"), Prop(body, "balance"), Prop(body, "qrCode"), Prop(body, "totalAmount"),
          Prop(body, "items"), Prop(body, "firstName"))
  }

  datatype Email = Email(from: string, to: seq<Value>, subject: string, template: Template)

  /** What the mail service does with a message. */
  datatype Delivery = Delivered(data: Value) | Rejected(error: Value) | Raised(error: Value)

  datatype Response = Response(status: int, body: Value)

  /** The route: the message it sends (None when the body cannot be read) and its reply. */
  datatype Outcome = Outcome(sent: Option<Email>, response: Response)

  function Post(body: Value, qrImage: Option<string>, delivery: Delivery): (o: Outcome)
    ensures (body == Null || body == Undefined) <==> o.sent.None?
    ensures o.sent.Some? ==> (o.sent.value.to == [Prop(body, "email")] && o.sent.value.from == Sender
      && o.sent.value.subject == Subject(MailType(body))
      && o.sent.value.template == EmailTemplate(MailType(body), PropsOf(body), qrImage))
    ensures o.response.status == 200 <==> o.sent.Some? && delivery.Delivered?
    ensures o.response.status == 200 ==> o.response.body == delivery.data
    ensures o.response.status != 200 ==> o.response.status == 500
  {
    if body == Null || body == Undefined then Outcome(None, Response(500, Undefined))
    else
      var mailType := MailType(body);
      var email := Email(Sender, [Prop(body, "email")], Subject(mailType),
                         EmailTemplate(mailType, PropsOf(body), qrImage));
      match delivery
      case Delivered(data) => Outcome(Some(email), Response(200, data))
      case Rejected(error) => Outcome(Some(email), Response(500, Obj(map["error" := error])))
      case Raised(error) => Outcome(Some(email), Response(500, Obj(map["error" := error])))
  }

  /** A body without a type gets the welcome subject and the sign-up template. */
  lemma UntypedMailIsWelcome(props: map<string, Value>, qrImage: Option<string>, delivery: Delivery)
    requires "type" !in props
    ensures var o := Post(Obj(props), qrImage, delivery);
      o.sent.Some? && o.sent.value.subject == SignUpSubject && o.sent.value.template.Signup?
  {
  }

  /** A reminder is built from its own template but goes out under the generic subject. */
  lemma ReminderSubject(props: map<string, Value>, qrImage: Option<string>, delivery: Delivery)
    requires props.Keys == {"type"} && props["type"] == Str("reminder")
    ensures var o := Post(Obj(props), qrImage, delivery);
      o.sent.Some? && o.sent.value.subject == "Hola" && o.sent.value.template.Reminder?
  {
  }

  /** Whatever `orderUrl` the body holds, the message sent is the same. */
  lemma OrderUrlIgnored(props: map<string, Value>, url: Value, qrImage: Option<string>, delivery: Delivery)
    ensures Post(Obj(props["orderUrl" := url]), qrImage, delivery).sent
        == Post(Obj(props - {"orderUrl"}), qrImage, delivery).sent
  {
    var a := Obj(props["orderUrl" := url]);
    var b := Obj(props - {"orderUrl"});
    forall k | k != "orderUrl" ensures Prop(a, k) == Prop(b, k) {
    }
    assert PropsOf(a) == PropsOf(b);
    assert MailType(a) == MailType(b);
  }
}

=== FILE: payment_failure.dfy ===
/**
 * The page shown when a payment fails: a message chosen by the gateway's status detail, the
 * status (or "Failed"), and the payment id and detail when the URL carries them.
 */
module PaymentFailure {
  import opened Wrappers

  /** The gateway's rejection codes the page explains, and their messages, in the same order. */
  const RejectionCodes: seq<string> := [
    "cc_rejected_insufficient_amount",
    "cc_rejected_bad_filled_card_number",
    "cc_rejected_bad_filled_date",
    "cc_rejected_bad_filled_security_code",
    "cc_rejected_call_for_authorize",
    "cc_rejected_card_disabled",
    "cc_rejected_duplicated_payment",
    "cc_rejected_high_risk"]

  const RejectionMessages: seq<string> := [
    "Insufficient funds in your account.",
    "Invalid card number.",
    "Invalid expiration date.",
    "Invalid security code.",
    "Please contact your bank to authorize the payment.",
    "Your card is disabled. Please contact your bank.",
    "Duplicate payment detected.",
    "Payment rejected due to security reasons."]

  const DefaultMessage := "There was an issue processing your payment. Please try again."

  /** `getFailureMessage`: the `switch` over the status detail. */
  function FailureMessage(statusDetail: Option<string>): string {
    match statusDetail
    case None => DefaultMessage
    case Some(d) =>
      if d == "cc_rejected_insufficient_amount" then "Insufficient funds in your account."
      else if d == "cc_rejected_bad_filled_card_number" then "Invalid card number."
      else if d == "cc_rejected_bad_filled_date" then "Invalid expiration date."
      else if d == "cc_rejected_bad_filled_security_code" then "Invalid security code."
      else if d == "cc_rejected_call_for_authorize" then "Please contact your bank to authorize the payment."
      else if d == "cc_rejected_card_disabled" then "Your card is disabled. Please contact your bank."
      else if d == "cc_rejected_duplicated_payment" then "Duplicate payment detected."
      else if d == "cc_rejected_high_risk" then "Payment rejected due to security reasons."
      else DefaultMessage
  }

  /** Each listed code gets its own message. */
  lemma KnownCodes()
    ensures forall k :: 0 <= k < |RejectionCodes| ==> FailureMessage(Some(RejectionCodes[k])) == RejectionMessages[k]
  {
  }

  /** Every other detail, a missing one included, gets the default. */
  lemma OtherCodes(statusDetail: Option<string>)
    requires statusDetail.None? || statusDetail.value !in RejectionCodes
    ensures FailureMessage(statusDetail) == DefaultMessage
  {
  }

  /** No two codes share a message and none shares the default: the message tells the codes apart. */
  lemma DistinctMessages()
    ensures DefaultMessage !in RejectionMessages
    ensures forall i, j :: 0 <= i < j < |RejectionMessages| ==> RejectionMessages[i] != RejectionMessages[j]
  {
    forall i, j | 0 <= i < j < |RejectionMessages| ensures RejectionMessages[i] != RejectionMessages[j] {
      assert |RejectionMessages[i]| != |RejectionMessages[j]|;
    }
  }

  /** The status shown: the URL's status, or "Failed" when it is missing or empty. */
  function DisplayedStatus(status: Option<string>): (s: string)
    ensures s != ""
    ensures status.Some? && status.value != "" ==> s == status.value
    ensures status.None? || status.value == "" ==> s == "Failed"
  {
    if status.Some? && status.value != "" then status.value else "Failed"
  }

  /** The label and value rows of the details card. */
  function DetailRows(paymentId: Option<string>, status: Option<string>, statusDetail: Option<string>)
    : (rows: seq<(string, string)>)
    ensures ("Status:", DisplayedStatus(status)) in rows
    ensures (exists v :: ("Payment ID:", v) in rows) <==> paymentId.Some? && paymentId.value != ""
    ensures (exists v :: ("Details:", v) in rows) <==> statusDetail.Some? && statusDetail.value != ""
    ensures |rows| <= 3
    ensures rows == (if paymentId.Some? && paymentId.value != "" then [("Payment ID:", paymentId.value)] else [])
                    + [("Status:", DisplayedStatus(status))]
                    + (if statusDetail.Some? && statusDetail.value != "" then [("Details:", statusDetail.value)] else [])
  {
    var idRow := if paymentId.Some? && paymentId.value != "" then [("Payment ID:", paymentId.value)] else [];
    var detailRow := if statusDetail.Some? && statusDetail.value != "" then [("Details:", statusDetail.value)] else [];
    var rows := idRow + [("Status:", DisplayedStatus(status))] + detailRow;
    assert rows[|idRow|] == ("Status:", DisplayedStatus(status));
    rows
  }
}

=== FILE: payment_pending.dfy ===
/**
 * The page shown while a payment is pending: every ten seconds it asks the backend for the
 * payment's status, unless a check is already running, and moves on once the status settles.
 */
module PaymentPending {
  import opened Wrappers
  import opened Js

  /** A non-empty query parameter. */
  predicate Given(p: Option<string>) {
    p.Some? && p.value != ""
  }

  /** How one status check ends. */
  datatype CheckResult = GoTo(path: string) | StillPending | CheckFailed

  /** The outcome of a check for `paymentId` given the backend's JSON reply (None when it threw). */
  function Outcome(paymentId: string, reply: Option<Value>): (r: CheckResult)
    ensures r.GoTo? ==> (reply.Some? && (
      (Prop(Prop(reply.value, "data"), "status") == Str("delivered")
        && r.path == "/payment/success?payment_id=" + paymentId + "&status=delivered")
      || (Prop(Prop(reply.value, "data"), "status") == Str("rejected")
        && r.path == "/payment/failure?payment_id=" + paymentId + "&status=rejected")))
    ensures r == CheckFailed <==> reply.None? || Get(reply.value, "data").None?
    ensures r == StillPending ==> (reply.Some? && Prop(Prop(reply.value, "data"), "status") != Str("delivered")
      && Prop(Prop(reply.value, "data"), "status") != Str("rejected"))
  {
    if reply.None? then CheckFailed
    else match Get(reply.value, "data")
      case None => CheckFailed
      case Some(data) =>
        if Prop(data, "status") == Str("delivered") then
          GoTo("/payment/success?payment_id=" + paymentId + "&status=delivered")
        else if Prop(data, "status") == Str("rejected") then
          GoTo("/payment/failure?payment_id=" + paymentId + "&status=rejected")
        else StillPending
  }

  /** A reply naming a status settles the page exactly when it is "delivered" or "rejected". */
  lemma SettledStatuses(paymentId: string, status: Value)
    ensures Outcome(paymentId, Some(Obj(map["data" := Obj(map["status" := status])]))).GoTo?
        <==> status == Str("delivered") || status == Str("rejected")
  {
  }

  /** The interval's guard: poll only with a payment id and no check in flight. */
  predicate ShouldPoll(paymentId: Option<string>, isChecking: bool) {
    Given(paymentId) && !isChecking
  }

  class PendingPage {
    var isChecking: bool

    constructor ()
      ensures !isChecking
    {
      isChecking := false;
    }

    /**
     * `checkPaymentStatus`: without a payment id it returns at once and sends no request;
     * otherwise it asks once, and the `finally` clears the in-flight flag.
     */
    method CheckPaymentStatus(paymentId: Option<string>, reply: Option<Value>)
      returns (requested: bool, nav: Option<string>)
      modifies this
      ensures requested <==> Given(paymentId)
      ensures !requested ==> nav.None? && isChecking == old(isChecking)
      ensures requested ==> (!isChecking
        && (nav.Some? <==> Outcome(paymentId.value, reply).GoTo?)
        && (nav.Some? ==> nav.value == Outcome(paymentId.value, reply).path))
    {
      requested, nav := false, None;
      if !Given(paymentId) {
        return;
      }
      requested := true;
      isChecking := true;
      var r := Outcome(paymentId.value, reply);
      if r.GoTo? {
        nav := Some(r.path);
      }
      isChecking := false;
    }

    /** One tick of the interval: a check runs only when the guard allows it. */
    method Tick(paymentId: Option<string>, reply: Option<Value>) returns (requested: bool, nav: Option<string>)
      modifies this
      ensures requested <==> ShouldPoll(paymentId, old(isChecking))
      ensures !requested ==> nav.None? && isChecking == old(isChecking)
      ensures requested ==> !isChecking && (nav.Some? <==> Outcome(paymentId.value, reply).GoTo?)
      ensures requested && nav.Some? ==> nav.value == Outcome(paymentId.value, reply).path
    {
      requested, nav := false, None;
      if ShouldPoll(paymentId, isChecking) {
        requested, nav := CheckPaymentStatus(paymentId, reply);
      }
    }
  }
}

=== FILE: payment_route.dfy ===
/**
 * `/api/payment`: POST looks a purchase up in the `purchases` table and asks the gateway for a
 * checkout preference for it; GET reads a purchase back. Neither writes anything.
 */
module PaymentRoute {
  import opened Wrappers
  import opened Js
  import opened Tables
  import opened Gateway

  datatype Response = Response(status: nat, message: string, data: Option<PaymentData>)

  /** What POST sends to the gateway (if anything) and what it answers. */
  datatype Outcome = Outcome(sent: Option<Preference>, response: Response)

  function Failed(status: nat, message: string): Outcome {
    Outcome(None, Response(status, message, None))
  }

  /**
   * POST. `lookupFails` is a query error; `reply` is the gateway's parsed answer, None when
   * the request or its parsing throws. The lookup happens before anything is read from
   * `payer`, and the answer's id is the purchase's id, not the gateway's.
   */
  function Post(body: Value, purchases: map<string, PurchaseRow>, lookupFails: bool,
                base: string, reply: Option<Value>): (o: Outcome)
    ensures body.Null? || body.Undefined? ==> o == Failed(500, "")
    ensures !body.Null? && !body.Undefined? ==>
      var found := SelectById(purchases, Prop(body, "purchaseId"), lookupFails);
      (o.response.status == 404 <==> found.Err?)
      && (found.Err? ==> o == Failed(404, "Purchase not found"))
    ensures o.sent.Some? <==> (!body.Null? && !body.Undefined?
      && SelectById(purchases, Prop(body, "purchaseId"), lookupFails).Ok? && PayerOf(Prop(body, "payer")).Some?)
    ensures o.sent.Some? ==>
      var purchase := SelectById(purchases, Prop(body, "purchaseId"), lookupFails).value;
      o.sent.value == PreferenceFor(purchase.id, "Event Tickets Purchase", Prop(body, "totalAmount"),
                                    PayerOf(Prop(body, "payer")).value, base, "Event Tickets")
      && o.sent.value.externalReference == purchase.id
      && o.sent.value.items == [PreferenceItem(purchase.id, "Event Tickets Purchase", 1, "ARS", Prop(body, "totalAmount"))]
    ensures o.response.status in {200, 404, 500}
    ensures o.response.status == 200 <==> o.sent.Some? && reply.Some? && !reply.value.Null? && !reply.value.Undefined?
    ensures o.response.status == 200 ==>
      var purchase := SelectById(purchases, Prop(body, "purchaseId"), lookupFails).value;
      o.response.data == Some(PendingPayment(Str(purchase.id), Prop(body, "totalAmount"), reply.value))
  {
    if body.Null? || body.Undefined? then Failed(500, "")
    else
      match SelectById(purchases, Prop(body, "purchaseId"), lookupFails)
      case Err(_) => Failed(404, "Purchase not found")
      case Ok(purchase) =>
        match PayerOf(Prop(body, "payer"))
        case None => Failed(500, "")
        case Some(payer) =>
          var pref := PreferenceFor(purchase.id, "Event Tickets Purchase", Prop(body, "totalAmount"),
                                    payer, base, "Event Tickets");
          if reply.None? || reply.value.Null? || reply.value.Undefined? then
            Outcome(Some(pref), Response(500, "", None))
          else
            Outcome(Some(pref), Response(200, "", Some(PendingPayment(Str(purchase.id), Prop(body, "totalAmount"), reply.value))))
  }

  /** A gateway answer without a checkout link still gives 200, with an empty payment URL. */
  lemma NoLinkStillSucceeds(body: Value, purchases: map<string, PurchaseRow>, base: string, reply: Value)
    requires !body.Null? && !body.Undefined?
    requires SelectById(purchases, Prop(body, "purchaseId"), false).Ok?
    requires PayerOf(Prop(body, "payer")).Some?
    requires reply.Obj? && "init_point" !in reply.props
    ensures Post(body, purchases, false, base, Some(reply)).response.status == 200
    ensures Post(body, purchases, false, base, Some(reply)).response.data.value.paymentUrl == Str("")
  {
  }

  datatype GetResponse = GetResponse(status: nat, message: string, purchase: Option<PurchaseRow>)

  /** GET: the `purchaseId` query parameter must be non-empty; a failed lookup is a 500. */
  function Get(purchaseId: Option<string>, purchases: map<string, PurchaseRow>, lookupFails: bool): (r: GetResponse)
    ensures r.status == 400 <==> purchaseId.None? || purchaseId.value == ""
    ensures r.status == 200 <==> purchaseId.Some? && purchaseId.value != "" && !lookupFails && purchaseId.value in purchases
    ensures r.status == 200 ==> r.purchase == Some(purchases[purchaseId.value])
    ensures r.status in {200, 400, 500}
  {
    if purchaseId.None? || purchaseId.value == "" then GetResponse(400, "Purchase ID is required", None)
    else
      match SelectById(purchases, Str(purchaseId.value), lookupFails)
      case Err(_) => GetResponse(500, "An unexpected error occurred", None)
      case Ok(row) => GetResponse(200, "", Some(row))
  }
}

=== FILE: payment_success.dfy ===
/**
 * The page the gateway sends a buyer back to after paying: it checks the status in its URL,
 * asks the backend to confirm the payment, and on confirmation empties the cart.
 */
module PaymentSuccess {
  import opened Wrappers
  import opened Js
  import opened CartContext

  /** How one run of `processPayment` ends. */
  datatype Decision =
    | NotApproved          // the URL's status is not "approved"; the backend is not asked
    | Confirmed            // the backend reports the payment approved
    | Unconfirmed          // the backend answered with any other status
    | Errored              // the request, its body or reading `data` threw

  /**
   * The decision for the URL's `status` and the backend's JSON reply (None when the request
   * or the body parse threw).
   */
  function Decide(status: Option<string>, reply: Option<Value>): (d: Decision)
    ensures d == NotApproved <==> status != Some("approved")
    ensures d == Errored <==> status == Some("approved") && (reply.None? || Get(reply.value, "data").None?)
    ensures d == Confirmed <==> (status == Some("approved") && reply.Some?
      && Get(reply.value, "data").Some? && Prop(Prop(reply.value, "data"), "status") == Str("approved"))
  {
    if status != Some("approved") then NotApproved
    else if reply.None? then Errored
    else match Get(reply.value, "data")
      case None => Errored
      case Some(data) => if Prop(data, "status") == Str("approved") then Confirmed else Unconfirmed
  }

  /** Where the page navigates after a decision. */
  function Navigation(d: Decision): (nav: Option<string>)
    ensures nav.Some? <==> d == NotApproved || d == Unconfirmed
    ensures nav.Some? ==> nav.value == "/payment/failure"
  {
    if d == NotApproved || d == Unconfirmed then Some("/payment/failure") else None
  }

  /** A confirmation needs a reply whose `data.status` is "approved"; no other status will do. */
  lemma OnlyApprovedConfirms(status: Option<string>, data: Value)
    requires Prop(data, "status") != Str("approved")
    ensures Decide(status, Some(Obj(map["data" := data]))) != Confirmed
  {
  }

  /** The page's own state. */
  class SuccessPage {
    var isProcessing: bool
    var success: bool

    constructor ()
      ensures isProcessing && !success
    {
      isProcessing, success := true, false;
    }

    /**
     * The page's effect. Without a user nothing happens and the page keeps showing the
     * spinner. Otherwise one run of `processPayment`: the `finally` ends processing on every
     * path, and only a confirmed payment marks success and empties the cart.
     */
    method OnUser(signedIn: bool, status: Option<string>, reply: Option<Value>, cart: Cart)
      returns (nav: Option<string>)
      modifies this, cart
      ensures !signedIn ==> (nav.None? && isProcessing == old(isProcessing) && success == old(success)
        && cart.items == old(cart.items) && cart.paymentMethod == old(cart.paymentMethod))
      ensures signedIn ==> !isProcessing && nav == Navigation(Decide(status, reply))
      ensures signedIn && Decide(status, reply) == Confirmed ==> (success && cart.items == [] && cart.paymentMethod == CartContext.Card
                                                                         && cart.Valid())
      ensures signedIn && Decide(status, reply) != Confirmed ==> (success == old(success)
        && cart.items == old(cart.items) && cart.paymentMethod == old(cart.paymentMethod))
    {
      nav := None;
      if !signedIn {
        return;
      }
      var d := Decide(status, reply);
      if d == Confirmed {
        success := true;
        cart.ClearCart();
      }
      nav := Navigation(d);
      isProcessing := false;
    }
  }
}

=== FILE: profile_route.dfy ===
/**
 * `/api/profile`: GET reads a user's row; PUT checks the optional name, phone and picture
 * fields, builds the partial update one field at a time, and applies it to that row.
 */
module ProfileRoute {
  import opened Wrappers
  import opened Text
  import opened Js
  import opened Tables

  datatype GetResponse = GetResponse(status: nat, message: string, user: Option<UserRow>)

  /** What `.select('*').eq('id', id).single()` hands back: a row, or an error and no row. */
  datatype QueryResult = QueryResult(data: Option<UserRow>, failed: bool)

  function SingleUser(users: map<string, UserRow>, id: string, queryFails: bool): (q: QueryResult)
    ensures q.data.Some? <==> !q.failed
  {
    match SelectById(users, Str(id), queryFails)
    case Ok(row) => QueryResult(Some(row), false)
    case Err(_) => QueryResult(None, true)
  }

  /** GET's decisions: no id, a query error, no row, or the row. */
  function Get(userId: Option<string>, q: QueryResult): (r: GetResponse)
    ensures r.status == 400 <==> userId.None? || userId.value == ""
    ensures r.status == 500 <==> userId.Some? && userId.value != "" && q.failed
    ensures r.status == 404 <==> userId.Some? && userId.value != "" && !q.failed && q.data.None?
    ensures r.status == 200 <==> userId.Some? && userId.value != "" && !q.failed && q.data.Some?
    ensures r.status == 200 ==> r.user == q.data && r.user.Some?
    ensures r.status in {200, 400, 404, 500}
  {
    if userId.None? || userId.value == "" then GetResponse(400, "User ID is required", None)
    else if q.failed then GetResponse(500, "Failed to fetch user profile", None)
    else if q.data.None? then GetResponse(404, "User not found", None)
    else GetResponse(200, "", q.data)
  }

  /**
   * Because `.single()` reports a missing row as an error, GET answers 500 for an unknown
   * user and its 404 branch is never taken.
   */
  lemma UnknownUserIs500(users: map<string, UserRow>, id: string, queryFails: bool)
    requires id != ""
    ensures Get(Some(id), SingleUser(users, id, queryFails)).status != 404
    ensures id !in users ==> Get(Some(id), SingleUser(users, id, queryFails)).status == 500
    ensures id in users && !queryFails ==> Get(Some(id), SingleUser(users, id, queryFails)).user == Some(users[id])
  {
  }

  // ---- PUT ----

  /** The partial update: a field is None when the body leaves it out. */
  datatype ProfilePatch = ProfilePatch(name: Option<string>, phone: Option<Value>, avatarUrl: Option<Value>, updatedAt: nat)

  /** A provided name must be a text that is not blank. */
  predicate NameOk(v: Value) {
    v.Undefined? || (v.Str? && Trim(v.s) != "")
  }

  /** A provided phone or picture URL may be any falsy value or a text. */
  predicate OptionalTextOk(v: Value) {
    !Truthy(v) || v.Str?
  }

  /** `v ? v.trim() : null`, for a value that passed `OptionalTextOk`. */
  function NullOrTrimmed(v: Value): Value {
    if Truthy(v) && v.Str? then Str(Trim(v.s)) else Null
  }

  /** The first failing field's message, in the order name, phone, picture. */
  function FirstFieldError(body: Value): Option<string> {
    if !NameOk(Prop(body, "name")) then Some("Name must be a non-empty string")
    else if !OptionalTextOk(Prop(body, "phone")) then Some("Phone must be a string")
    else if !OptionalTextOk(Prop(body, "avatar_url")) then Some("Avatar URL must be a string")
    else None
  }

  /** Builds `updateData` field by field, stopping at the first field that fails its check. */
  method BuildUpdate(body: Value, now: nat) returns (r: Result<ProfilePatch, string>)
    ensures r.Err? <==> FirstFieldError(body).Some?
    ensures r.Err? ==> r.error == FirstFieldError(body).value
    ensures r.Ok? ==> r.value.updatedAt == now
    ensures r.Ok? ==> (r.value.name.None? <==> Prop(body, "name").Undefined?)
    ensures r.Ok? && r.value.name.Some? ==>
      r.value.name.value != "" && r.value.name.value == Trim(Prop(body, "name").s)
    ensures r.Ok? ==> (r.value.phone.None? <==> Prop(body, "phone").Undefined?)
    ensures r.Ok? && r.value.phone.Some? ==> r.value.phone.value == NullOrTrimmed(Prop(body, "phone"))
    ensures r.Ok? ==> (r.value.avatarUrl.None? <==> Prop(body, "avatar_url").Undefined?)
    ensures r.Ok? && r.value.avatarUrl.Some? ==> r.value.avatarUrl.value == NullOrTrimmed(Prop(body, "avatar_url"))
  {
    var patch := ProfilePatch(None, None, None, now);
    var name := Prop(body, "name");
    if !name.Undefined? {
      if !name.Str? || Trim(name.s) == "" {
        return Err("Name must be a non-empty string");
      }
      patch := patch.(name := Some(Trim(name.s)));
    }
    var phone := Prop(body, "phone");
    if !phone.Undefined? {
      if Truthy(phone) && !phone.Str? {
        return Err("Phone must be a string");
      }
      patch := patch.(phone := Some(if Truthy(phone) then Str(Trim(phone.s)) else Null));
    }
    var avatarUrl := Prop(body, "avatar_url");
    if !avatarUrl.Undefined? {
      if Truthy(avatarUrl) && !avatarUrl.Str? {
        return Err("Avatar URL must be a string");
      }
      patch := patch.(avatarUrl := Some(if Truthy(avatarUrl) then Str(Trim(avatarUrl.s)) else Null));
    }
    r := Ok(patch);
  }

  /** The row after the update: the fields the patch carries, the rest as they were. */
  function Applied(row: UserRow, p: ProfilePatch): UserRow {
    row.(name := if p.name.Some? then Str(p.name.value) else row.name,
         phone := p.phone.GetOr(row.phone),
         avatarUrl := p.avatarUrl.GetOr(row.avatarUrl),
         updatedAt := p.updatedAt)
  }

  /** Applying a patch built from an empty body only moves `updated_at`. */
  lemma EmptyPatchOnlyTouchesTimestamp(row: UserRow, now: nat)
    ensures Applied(row, ProfilePatch(None, None, None, now)) == row.(updatedAt := now)
  {
  }

  /** A stored name is never blank and carries no white space at either end. */
  lemma StoredNameIsTrimmed(row: UserRow, p: ProfilePatch, raw: string)
    requires p.name == Some(Trim(raw)) && Trim(raw) != ""
    ensures var n := Applied(row, p).name.s; n != "" && Trim(n) == n && !IsJsSpace(n[0])
  {
    TrimIdempotent(raw);
  }

  datatype PutResponse = PutResponse(status: nat, message: string, user: Option<UserRow>)

  /**
   * PUT. Every check happens before the single update; an unknown user id or a failed
   * update is a 500 (the update ends in `.single()`).
   */
  method Put(db: Store, body: Value, now: nat, updateFails: bool) returns (resp: PutResponse)
    modifies db`users
    ensures body.Null? || body.Undefined? || !Truthy(Prop(body, "userId")) || FirstFieldError(body).Some?
            ==> db.users == old(db.users) && resp.status in {400, 500} && resp.user.None?
    ensures resp.status == 200 <==>
      !body.Null? && !body.Undefined? && Truthy(Prop(body, "userId")) && FirstFieldError(body).None?
      && !updateFails && Prop(body, "userId").Str? && Prop(body, "userId").s in old(db.users)
    ensures resp.status == 200 ==>
      var id := Prop(body, "userId").s;
      id in db.users && resp.user == Some(db.users[id])
      && db.users == old(db.users)[id := db.users[id]]
      && db.users[id].updatedAt == now
      && (Prop(body, "name").Str? ==> db.users[id].name == Str(Trim(Prop(body, "name").s)))
      && (Prop(body, "name").Undefined? ==> db.users[id].name == old(db.users)[id].name)
      && (Prop(body, "phone").Undefined? ==> db.users[id].phone == old(db.users)[id].phone)
      && (!Prop(body, "phone").Undefined? ==> db.users[id].phone == NullOrTrimmed(Prop(body, "phone")))
      && (Prop(body, "avatar_url").Undefined? ==> db.users[id].avatarUrl == old(db.users)[id].avatarUrl)
      && (!Prop(body, "avatar_url").Undefined? ==> db.users[id].avatarUrl == NullOrTrimmed(Prop(body, "avatar_url")))
    ensures resp.status != 200 ==> db.users == old(db.users)
  {
    if body.Null? || body.Undefined? {
      return PutResponse(500, "", None);
    }
    var userId := Prop(body, "userId");
    if !Truthy(userId) {
      return PutResponse(400, "User ID is required", None);
    }
    var built := BuildUpdate(body, now);
    if built.Err? {
      return PutResponse(400, built.error, None);
    }
    match SelectById(db.users, userId, updateFails)
    case Err(_) =>
      return PutResponse(500, "Failed to update user profile", None);
    case Ok(row) =>
      var updated := Applied(row, built.value);
      db.users := db.users[userId.s := updated];
      return PutResponse(200, "Profile updated successfully", Some(updated));
  }
}

=== FILE: purchase_route.dfy ===
/**
 * `POST /api/purchase`: checks the request, then writes one order and one order item per
 * cart entry. Both rows start in status "waiting_payment"; nothing later in the model moves
 * them on.
 */
module PurchaseRoute {
  import opened Wrappers
  import opened Js
  import opened Tables
  import Api

  datatype Response = Response(status: nat, message: string, order: Option<OrderRow>)

  /** The fields of a request that passed every check. */
  datatype CardRequest = CardRequest(
    userId: Value,
    eventId: Value,
    cartItems: seq<Value>,
    totalAmount: Value,
    transferredToEmail: Value)

  const RequiredFields: seq<string> :=
    ["userId", "eventId", "cartItems", "paymentMethod", "totalAmount", "transferred_to_email"]

  /** Every required field is truthy; a total of 0 or an empty e-mail fails this. */
  predicate AllPresent(body: Value) {
    forall k :: 0 <= k < |RequiredFields| ==> Truthy(Prop(body, RequiredFields[k]))
  }

  predicate NonEmptyArray(v: Value) {
    v.Arr? && |v.elems| > 0
  }

  function InternalError(): Response {
    Response(500, "Internal server error", None)
  }

  /**
   * The checks, in the handler's order: a body that cannot be destructured, a missing
   * field, a cart that is not a non-empty array, a payment method other than "card".
   */
  function Validate(body: Value): (r: Result<CardRequest, Response>)
    ensures r.Err? ==> r.error.order.None?
    ensures r.Err? && r.error.status == 500 <==> body.Null? || body.Undefined?
    ensures r.Err? && r.error.message == "Missing required fields"
      <==> !body.Null? && !body.Undefined? && !AllPresent(body)
    ensures r.Err? && r.error.message == "Cart items must be a non-empty array"
      <==> !body.Null? && !body.Undefined? && AllPresent(body) && !NonEmptyArray(Prop(body, "cartItems"))
    ensures r.Err? && !body.Null? && !body.Undefined? ==> r.error.status == 400
    ensures r.Err? && r.error.message == "Invalid payment method"
      <==> (!body.Null? && !body.Undefined? && AllPresent(body) && NonEmptyArray(Prop(body, "cartItems"))
            && Prop(body, "paymentMethod") != Str("card"))
    ensures r.Ok? <==> (!body.Null? && !body.Undefined? && AllPresent(body)
                        && NonEmptyArray(Prop(body, "cartItems")) && Prop(body, "paymentMethod") == Str("card"))
    ensures r.Ok? ==> (r.value.cartItems == Prop(body, "cartItems").elems
                       && r.value.totalAmount == Prop(body, "totalAmount") && Truthy(r.value.totalAmount))
  {
    if body.Null? || body.Undefined? then Err(InternalError())
    else if !AllPresent(body) then Err(Response(400, "Missing required fields", None))
    else
      var cart := Prop(body, "cartItems");
      if !NonEmptyArray(cart) then Err(Response(400, "Cart items must be a non-empty array", None))
      else if Prop(body, "paymentMethod") == Str("card") then
        assert Truthy(Prop(body, RequiredFields[4]));
        Ok(CardRequest(Prop(body, "userId"), Prop(body, "eventId"), cart.elems,
                       Prop(body, "totalAmount"), Prop(body, "transferred_to_email")))
      else Err(Response(400, "Invalid payment method", None))
  }

  /** The order row for a card request. */
  function NewOrder(req: CardRequest, id: string, now: nat, random: string): (o: OrderRow)
    ensures o.status == "waiting_payment" && o.paymentMethod == "card"
    ensures o.id == id && o.userId == req.userId && o.eventId == req.eventId && o.totalPrice == req.totalAmount
    ensures o.qrCode == Api.GenerateQRCode(now, random)
  {
    OrderRow(id, req.userId, req.eventId, req.totalAmount, Api.GenerateQRCode(now, random), "card", "waiting_payment", now)
  }

  /** The order item row for one cart entry; None where reading the entry throws. */
  function ItemRow(item: Value, req: CardRequest, orderId: string): Option<OrderItemRow> {
    if item.Null? || item.Undefined? then None
    else Some(OrderItemRow(orderId, Prop(item, "ticketTypeId"), Prop(item, "eventId"), Prop(item, "price"),
                           Prop(item, "quantity"), req.userId, req.transferredToEmail, "waiting_payment"))
  }

  /** The order item rows for the whole cart, in cart order; None if any entry cannot be read. */
  function ItemRows(items: seq<Value>, req: CardRequest, orderId: string): (r: Option<seq<OrderItemRow>>)
    ensures r.Some? <==> forall i :: 0 <= i < |items| ==> !items[i].Null? && !items[i].Undefined?
    ensures r.Some? ==> |r.value| == |items|
    ensures r.Some? ==> forall i :: 0 <= i < |items| ==>
      var row := r.value[i];
      row.orderId == orderId && row.status == "waiting_payment"
      && row.ticketTypeId == Prop(items[i], "ticketTypeId") && row.eventId == Prop(items[i], "eventId")
      && row.pricePaid == Prop(items[i], "price") && row.amount == Prop(items[i], "quantity")
      && row.userId == req.userId && row.transferredToEmail == req.transferredToEmail
  {
    if items == [] then Some([])
    else
      var rest := ItemRows(items[1..], req, orderId);
      var row := ItemRow(items[0], req, orderId);
      if row.Some? && rest.Some? then Some([row.value] + rest.value) else None
  }

  /**
   * The handler. The order insert comes first; if building or inserting the item rows then
   * fails, the order row stays and the answer is 500.
   */
  method Post(db: Store, body: Value, newOrderId: string, now: nat, random: string,
              orderInsertFails: bool, itemsInsertFails: bool)
    returns (resp: Response)
    modifies db`orders, db`orderItems
    ensures Validate(body).Err? ==>
      (resp == Validate(body).error && db.orders == old(db.orders) && db.orderItems == old(db.orderItems))
    ensures Validate(body).Ok? ==>
      var req := Validate(body).value;
      var order := NewOrder(req, newOrderId, now, random);
      var rows := ItemRows(req.cartItems, req, newOrderId);
      if orderInsertFails || newOrderId in OrderIds(old(db.orders)) then
        resp == InternalError() && db.orders == old(db.orders) && db.orderItems == old(db.orderItems)
      else if rows.None? || itemsInsertFails then
        resp == InternalError() && db.orders == old(db.orders) + [order] && db.orderItems == old(db.orderItems)
      else
        resp == Response(200, "", Some(order))
        && db.orders == old(db.orders) + [order] && db.orderItems == old(db.orderItems) + rows.value
  {
    var checked := Validate(body);
    if checked.Err? {
      return checked.error;
    }
    var req := checked.value;
    var order := NewOrder(req, newOrderId, now, random);
    if orderInsertFails || newOrderId in OrderIds(db.orders) {
      return InternalError();
    }
    db.orders := db.orders + [order];
    var rows := ItemRows(req.cartItems, req, newOrderId);
    if rows.None? || itemsInsertFails {
      return InternalError();
    }
    db.orderItems := db.orderItems + rows.value;
    resp := Response(200, "", Some(order));
  }

  /** Exactly one item row per cart entry, all pointing at the new order. */
  lemma {:induction false} OneRowPerEntry(items: seq<Value>, req: CardRequest, orderId: string)
    requires forall i :: 0 <= i < |items| ==> !items[i].Null? && !items[i].Undefined?
    ensures ItemRows(items, req, orderId).Some?
    ensures |ItemRows(items, req, orderId).value| == |items|
    ensures forall i :: 0 <= i < |items| ==> ItemRows(items, req, orderId).value[i] == ItemRow(items[i], req, orderId).value
  {
    if items != [] {
      OneRowPerEntry(items[1..], req, orderId);
    }
  }
}

=== FILE: store.dfy ===
/**
 * The backing store the route handlers read and write: the `orders`, `order_items`,
 * `purchases`, `transactions` and `users` tables and the `user-avatars` storage bucket.
 * Each row keeps the columns the handlers write or read; columns that only the database
 * fills in (such as a transaction's creation time) are left out. Whether a call to the store
 * fails is decided outside the application, so the handlers take it as a parameter.
 */
module Tables {
  import opened Wrappers
  import opened Js

  datatype OrderRow = OrderRow(
    id: string,
    userId: Value,
    eventId: Value,
    totalPrice: Value,
    qrCode: string,
    paymentMethod: string,
    status: string,
    createdAt: nat)

  datatype OrderItemRow = OrderItemRow(
    orderId: string,
    ticketTypeId: Value,
    eventId: Value,
    pricePaid: Value,
    amount: Value,
    userId: Value,
    transferredToEmail: Value,
    status: string)

  /** A row of the older `purchases` table; its columns are passed through untouched. */
  datatype PurchaseRow = PurchaseRow(id: string, columns: map<string, Value>)

  datatype TransactionRow = TransactionRow(
    id: string,
    userId: Value,
    amount: Value,
    status: string,
    orderId: Value,
    paymentUrl: Value,
    preferenceId: Value)

  datatype UserRow = UserRow(
    email: Value,
    name: Value,
    role: Value,
    phone: Value,
    avatarUrl: Value,
    createdAt: nat,
    updatedAt: nat)

  function OrderIds(orders: seq<OrderRow>): set<string> {
    set i | 0 <= i < |orders| :: orders[i].id
  }

  function TransactionIds(txs: seq<TransactionRow>): set<string> {
    set i | 0 <= i < |txs| :: txs[i].id
  }

  /**
   * `.select().eq("id", key).single()` on a table keyed by id: the row when the query runs
   * and exactly one row matches, an error otherwise (a missing row is an error for `.single()`).
   */
  function SelectById<T>(table: map<string, T>, key: Value, queryFails: bool): (r: Result<T, string>)
    ensures r.Ok? <==> !queryFails && key.Str? && key.s in table
    ensures r.Ok? ==> r.value == table[key.s]
  {
    if queryFails then Err("query failed")
    else if key.Str? && key.s in table then Ok(table[key.s])
    else Err("no single row")
  }

  /** Every transaction row is still in the status it was inserted with. */
  predicate AllTransactionsPending(txs: seq<TransactionRow>) {
    forall i :: 0 <= i < |txs| ==> txs[i].status == "pending"
  }

  class Store {
    var orders: seq<OrderRow>
    var orderItems: seq<OrderItemRow>
    var purchases: map<string, PurchaseRow>
    var transactions: seq<TransactionRow>
    var users: map<string, UserRow>
    /** Object paths in the `user-avatars` bucket. */
    var avatarFiles: set<string>

    constructor (purchases: map<string, PurchaseRow>, users: map<string, UserRow>)
      ensures this.purchases == purchases && this.users == users
      ensures orders == [] && orderItems == [] && transactions == [] && avatarFiles == {}
    {
      this.purchases := purchases;
      this.users := users;
      orders, orderItems, transactions, avatarFiles := [], [], [], {};
    }
  }
}

=== FILE: text.dfy ===
/**
 * The JavaScript string operations the storefront relies on (`indexOf`, `includes`,
 * `startsWith`, `split`, `join`, `trim`, `substring`, case conversion, number-to-string),
 * stated over `string` = `seq<char>`.
 */
module Text {
  import opened Wrappers

  /** `pat` occurs in `s` starting at index `i`. */
  predicate OccursAt(s: string, pat: string, i: nat) {
    i + |pat| <= |s| && s[i..i + |pat|] == pat
  }

  /** JavaScript `s.startsWith(p)`. */
  predicate StartsWith(s: string, p: string) {
    OccursAt(s, p, 0)
  }

  /** The first index at or after `from` where `pat` occurs; None stands for JavaScript's -1. */
  function IndexOfFrom(s: string, pat: string, from: nat): (r: Option<nat>)
    ensures r.Some? ==> from <= r.value && OccursAt(s, pat, r.value)
    ensures r.Some? ==> forall j :: from <= j < r.value ==> !OccursAt(s, pat, j)
    ensures r.None? ==> forall j :: from <= j ==> !OccursAt(s, pat, j)
    decreases |s| - from
  {
    if from + |pat| > |s| then None
    else if s[from..from + |pat|] == pat then Some(from)
    else IndexOfFrom(s, pat, from + 1)
  }

  /** JavaScript `s.indexOf(pat)`. */
  function IndexOf(s: string, pat: string): Option<nat> {
    IndexOfFrom(s, pat, 0)
  }

  /** JavaScript `s.includes(pat)`. */
  function Contains(s: string, pat: string): (b: bool)
    ensures b <==> exists j: nat :: OccursAt(s, pat, j)
  {
    var r := IndexOf(s, pat);
    assert r.Some? ==> OccursAt(s, pat, r.value);
    r.Some?
  }

  /** A one-character pattern occurs exactly when the character is an element. */
  lemma ContainsChar(s: string, c: char)
    ensures Contains(s, [c]) <==> c in s
  {
    if c in s {
      var k :| 0 <= k < |s| && s[k] == c;
      assert OccursAt(s, [c], k);
    }
    if Contains(s, [c]) {
      var j: nat :| OccursAt(s, [c], j);
      assert s[j] == s[j..j + 1][0];
    }
  }

  /** The occurrence `Contains` finds of a longer pattern also contains every piece of it. */
  lemma ContainsInfix(s: string, pat: string, a: string, b: string)
    requires Contains(s, a + pat + b)
    ensures Contains(s, pat)
  {
    var j: nat :| OccursAt(s, a + pat + b, j);
    var w := a + pat + b;
    assert s[j..j + |w|] == w;
    forall i | 0 <= i < |pat| ensures s[j + |a| + i] == pat[i] {
      assert s[j + |a| + i] == s[j..j + |w|][|a| + i];
      assert w[|a| + i] == pat[i];
    }
    assert s[j + |a|..j + |a| + |pat|] == pat;
    assert OccursAt(s, pat, j + |a|);
  }

  /**
   * JavaScript `s.split(sep)` for a non-empty separator: the pieces between successive
   * non-overlapping occurrences of `sep`, found left to right.
   */
  function Split(s: string, sep: string): (parts: seq<string>)
    requires |sep| > 0
    ensures |parts| >= 1
    decreases |s|
  {
    match IndexOf(s, sep)
    case None => [s]
    case Some(i) => [s[..i]] + Split(s[i + |sep|..], sep)
  }

  /** A split yields more than one piece exactly when the separator occurs. */
  lemma SplitSingle(s: string, sep: string)
    requires |sep| > 0
    ensures |Split(s, sep)| == 1 <==> !Contains(s, sep)
  {
  }

  /** JavaScript `parts.join(sep)`. */
  function Join(parts: seq<string>, sep: string): string
    decreases |parts|
  {
    if |parts| == 0 then ""
    else if |parts| == 1 then parts[0]
    else parts[0] + sep + Join(parts[1..], sep)
  }

  /** The first piece of a split is the text before the first occurrence of the separator. */
  lemma SplitHead(s: string, sep: string)
    requires |sep| > 0
    ensures IndexOf(s, sep).None? ==> Split(s, sep) == [s]
    ensures IndexOf(s, sep).Some? ==>
      var i := IndexOf(s, sep).value;
      Split(s, sep) == [s[..i]] + Split(s[i + |sep|..], sep)
  {
  }

  /** Joining the pieces of a split with the same separator gives back the original text. */
  lemma {:induction false} SplitThenJoin(s: string, sep: string)
    requires |sep| > 0
    ensures Join(Split(s, sep), sep) == s
    decreases |s|
  {
    match IndexOf(s, sep)
    case None =>
    case Some(i) =>
      var rest := s[i + |sep|..];
      var tail := Split(rest, sep);
      SplitThenJoin(rest, sep);
      assert s == s[..i] + sep + rest;
      assert ([s[..i]] + tail)[1..] == tail;
  }

  /** The first piece of a split holds no separator. */
  lemma SplitFirstNoSep(s: string, sep: string)
    requires |sep| > 0
    ensures !Contains(Split(s, sep)[0], sep)
  {
    match IndexOf(s, sep)
    case None =>
    case Some(i) =>
      var first := s[..i];
      forall j: nat ensures !OccursAt(first, sep, j) {
        if j + |sep| <= i {
          assert first[j..j + |sep|] == s[j..j + |sep|];
          assert !OccursAt(s, sep, j);
        }
      }
  }

  /** The last piece of a split on one character holds no such character. */
  lemma {:induction false} SplitLastNoSep(s: string, c: char)
    ensures var parts := Split(s, [c]); c !in parts[|parts| - 1]
    decreases |s|
  {
    match IndexOf(s, [c])
    case None =>
      ContainsChar(s, c);
    case Some(i) =>
      SplitLastNoSep(s[i + 1..], c);
  }

  /** Whatever precedes the last separator, the last piece is the text after it. */
  lemma {:induction false} SplitLast(a: string, c: char, b: string)
    requires c !in b
    ensures var parts := Split(a + [c] + b, [c]); |parts| >= 2 && parts[|parts| - 1] == b
    decreases |a|
  {
    var s := a + [c] + b;
    assert OccursAt(s, [c], |a|) by { assert s[|a|..|a| + 1] == [c]; }
    var i := IndexOf(s, [c]).value;
    assert i <= |a|;
    var rest := s[i + 1..];
    var tail := Split(rest, [c]);
    assert Split(s, [c]) == [s[..i]] + tail;
    if i == |a| {
      assert rest == b;
      ContainsChar(b, c);
      assert tail == [b];
    } else {
      assert rest == a[i + 1..] + [c] + b;
      SplitLast(a[i + 1..], c, b);
      assert tail[|tail| - 1] == b;
    }
  }

  /** In `p + [c] + rest` with `c` not in `p`, the first `c` is the one right after `p`. */
  lemma FirstOccurrenceAfter(p: string, c: char, rest: string)
    requires c !in p
    ensures IndexOf(p + [c] + rest, [c]) == Some(|p|)
  {
    var s := p + [c] + rest;
    assert s[|p|..|p| + 1] == [c];
    assert OccursAt(s, [c], |p|);
    forall j | 0 <= j < |p| ensures !OccursAt(s, [c], j) {
      assert s[j..j + 1] == [p[j]];
      assert p[j] != c;
    }
  }

  /**
   * Splitting a join on a one-character separator that occurs in none of the pieces gives
   * back the pieces.
   */
  lemma {:induction false} JoinThenSplit(parts: seq<string>, c: char)
    requires |parts| >= 1
    requires forall k :: 0 <= k < |parts| ==> c !in parts[k]
    ensures Split(Join(parts, [c]), [c]) == parts
    decreases |parts|
  {
    if |parts| == 1 {
      ContainsChar(parts[0], c);
    } else {
      var p := parts[0];
      var rest := Join(parts[1..], [c]);
      var s := p + [c] + rest;
      assert Join(parts, [c]) == s;
      FirstOccurrenceAfter(p, c, rest);
      assert s[..|p|] == p;
      assert s[|p| + 1..] == rest;
      JoinThenSplit(parts[1..], c);
      assert parts == [p] + parts[1..];
    }
  }

  /** The white space and line terminators JavaScript's `trim` removes. */
  predicate IsJsSpace(c: char) {
    c == ' ' || c == '\t' || c == '\n' || c == '\r' || c == '\U{000B}' || c == '\U{000C}'
    || c == '\U{00A0}' || c == '\U{1680}' || ('\U{2000}' <= c <= '\U{200A}')
    || c == '\U{2028}' || c == '\U{2029}' || c == '\U{202F}' || c == '\U{205F}'
    || c == '\U{3000}' || c == '\U{FEFF}'
  }

  predicate AllSpace(s: string) {
    forall k :: 0 <= k < |s| ==> IsJsSpace(s[k])
  }

  /** The number of white-space characters `s` starts with. */
  function LeadingSpace(s: string): (n: nat)
    ensures n <= |s| && AllSpace(s[..n])
    ensures n < |s| ==> !IsJsSpace(s[n])
  {
    if s != [] && IsJsSpace(s[0]) then 1 + LeadingSpace(s[1..]) else 0
  }

  /** The number of white-space characters `s` ends with. */
  function TrailingSpace(s: string): (n: nat)
    ensures n <= |s| && AllSpace(s[|s| - n..])
    ensures n < |s| ==> !IsJsSpace(s[|s| - n - 1])
  {
    if s != [] && IsJsSpace(s[|s| - 1]) then 1 + TrailingSpace(s[..|s| - 1]) else 0
  }

  /** JavaScript `s.trim()`. */
  function Trim(s: string): (r: string)
    ensures r == "" || (!IsJsSpace(r[0]) && !IsJsSpace(r[|r| - 1]))
    ensures |r| <= |s|
  {
    var a := s[LeadingSpace(s)..];
    a[..|a| - TrailingSpace(a)]
  }

  /** What `trim` removes is white space on both ends, and nothing else changes. */
  lemma TrimFrame(s: string)
    ensures var r := Trim(s); var i := LeadingSpace(s);
      i + |r| <= |s| && s[i..i + |r|] == r && AllSpace(s[..i]) && AllSpace(s[i + |r|..])
  {
    var i := LeadingSpace(s);
    var a := s[i..];
    var m := |a| - TrailingSpace(a);
    assert Trim(s) == a[..m];
    assert a[..m] == s[i..i + m];
    assert a[m..] == s[i + m..];
    assert AllSpace(a[m..]);
  }

  /** A trimmed text is empty exactly when the original is all white space. */
  lemma TrimEmpty(s: string)
    ensures Trim(s) == "" <==> AllSpace(s)
  {
    var i := LeadingSpace(s);
    if i == |s| {
      assert s[..i] == s;
    } else {
      var a := s[i..];
      assert a[0] == s[i];
    }
  }

  /** Trimming twice is trimming once. */
  lemma TrimIdempotent(s: string)
    ensures Trim(Trim(s)) == Trim(s)
  {
    var r := Trim(s);
    if r != "" {
      assert LeadingSpace(r) == 0;
      assert TrailingSpace(r) == 0;
    }
  }

  /** ASCII upper case, as JavaScript's `toUpperCase` does for a..z. */
  function UpperChar(c: char): char {
    if 'a' <= c <= 'z' then (c as int - 32) as char else c
  }

  /** ASCII lower case, as JavaScript's `toLowerCase` does for A..Z. */
  function LowerChar(c: char): char {
    if 'A' <= c <= 'Z' then (c as int + 32) as char else c
  }

  function ToUpper(s: string): (r: string)
    ensures |r| == |s| && forall k :: 0 <= k < |s| ==> r[k] == UpperChar(s[k])
  {
    seq(|s|, k requires 0 <= k < |s| => UpperChar(s[k]))
  }

  function ToLower(s: string): (r: string)
    ensures |r| == |s| && forall k :: 0 <= k < |s| ==> r[k] == LowerChar(s[k])
  {
    seq(|s|, k requires 0 <= k < |s| => LowerChar(s[k]))
  }

  /** JavaScript's index clamping for `substring`. */
  function Clamp(n: int, len: nat): (r: nat)
    ensures r <= len
  {
    if n < 0 then 0 else if n > len then len else n
  }

  /** JavaScript `s.substring(start, end)`: both ends clamped, then swapped if reversed. */
  function Substring(s: string, start: int, end: int): (r: string)
    ensures 0 <= start <= end ==> |r| <= end - start
    ensures 0 <= start <= end <= |s| ==> r == s[start..end]
  {
    var a, b := Clamp(start, |s|), Clamp(end, |s|);
    if a <= b then s[a..b] else s[b..a]
  }

  function DigitChar(d: nat): (c: char)
    requires d < 10
    ensures '0' <= c <= '9'
  {
    "0123456789"[d]
  }

  /** The decimal text of a non-negative integer, as `String(n)` gives it for a timestamp. */
  function Decimal(n: nat): (r: string)
    ensures |r| >= 1
    ensures forall k :: 0 <= k < |r| ==> '0' <= r[k] <= '9'
  {
    if n < 10 then [DigitChar(n)] else Decimal(n / 10) + [DigitChar(n % 10)]
  }

  function DigitValue(c: char): nat {
    if '0' <= c <= '9' then c as int - '0' as int else 0
  }

  /** Reads back a decimal text. */
  function ParseDecimal(s: string): nat
    decreases |s|
  {
    if s == [] then 0 else 10 * ParseDecimal(s[..|s| - 1]) + DigitValue(s[|s| - 1])
  }

  /** A timestamp written with `Decimal` reads back as the same number. */
  lemma {:induction false} DecimalRoundTrip(n: nat)
    ensures ParseDecimal(Decimal(n)) == n
  {
    if n >= 10 {
      var s := Decimal(n);
      DecimalRoundTrip(n / 10);
      assert s[..|s| - 1] == Decimal(n / 10);
    }
  }
}

=== FILE: ticket_quantities.dfy ===
/**
 * The ticket selector on an event page: how many tickets of each ticket type the buyer
 * has picked, kept as a record from ticket type id to a non-negative count, with the total
 * price and the list of picked ticket types the page derives from it.
 */
module TicketQuantities {

  datatype TicketType = TicketType(id: string, name: string, price: real)

  /** A ticket type together with the count picked for it. */
  datatype Selection = Selection(ticket: TicketType, quantity: int)

  function Ids(ts: seq<TicketType>): set<string> {
    set i | 0 <= i < |ts| :: ts[i].id
  }

  /** `quantities[id] || 0`: a missing entry reads as zero. */
  function Lookup(m: map<string, int>, id: string): int {
    if id in m then m[id] else 0
  }

  function Max0(n: int): (r: nat)
    ensures r >= n && (r == 0 || r == n)
  {
    if n < 0 then 0 else n
  }

  predicate NonNegative(m: map<string, int>) {
    forall k :: k in m ==> m[k] >= 0
  }

  /** A record with a zero count for every ticket type id, built one ticket type at a time. */
  method InitialQuantities(ts: seq<TicketType>) returns (m: map<string, int>)
    ensures m.Keys == Ids(ts)
    ensures forall k :: k in m ==> m[k] == 0
  {
    m := map[];
    for i := 0 to |ts|
      invariant m.Keys == Ids(ts[..i])
      invariant forall k :: k in m ==> m[k] == 0
    {
      assert Ids(ts[..i + 1]) == Ids(ts[..i]) + {ts[i].id} by {
        assert forall j :: 0 <= j < i ==> ts[..i + 1][j] == ts[..i][j];
      }
      m := m[ts[i].id := 0];
    }
    assert ts[..|ts|] == ts;
  }

  /** The record after `updateQuantity(id, change)`: the count moves by `change`, never below zero. */
  function Changed(m: map<string, int>, id: string, change: int): map<string, int> {
    m[id := Max0(Lookup(m, id) + change)]
  }

  /** The record after `setQuantity(id, q)`: the count becomes `q`, or zero when `q` is negative. */
  function SetTo(m: map<string, int>, id: string, q: int): map<string, int> {
    m[id := Max0(q)]
  }

  /** The sum of all counts in the record, in no particular order. */
  ghost function MapSum(m: map<string, int>): int
    decreases |m.Keys|
  {
    if m == map[] then 0
    else
      var k :| k in m;
      m[k] + MapSum(m - {k})
  }

  /** Any entry can be taken out of the sum first. */
  lemma {:induction false} MapSumRemove(m: map<string, int>, k: string)
    requires k in m
    ensures MapSum(m) == m[k] + MapSum(m - {k})
    decreases |m.Keys|
  {
    var j :| j in m && MapSum(m) == m[j] + MapSum(m - {j});
    if j != k {
      MapSumRemove(m - {j}, k);
      MapSumRemove(m - {k}, j);
      assert m - {j} - {k} == m - {k} - {j};
    }
  }

  /** A record of non-negative counts sums to a non-negative total. */
  lemma {:induction false} MapSumNonNegative(m: map<string, int>)
    requires NonNegative(m)
    ensures MapSum(m) >= 0
    decreases |m.Keys|
  {
    if m != map[] {
      var k :| k in m;
      MapSumRemove(m, k);
      MapSumNonNegative(m - {k});
    }
  }

  /** Writing one entry changes the sum by the difference between the new and the old count. */
  lemma MapSumUpdate(m: map<string, int>, id: string, v: int)
    ensures MapSum(m[id := v]) == MapSum(m) - Lookup(m, id) + v
  {
    var m' := m[id := v];
    MapSumRemove(m', id);
    assert m' - {id} == m - {id};
    if id in m {
      MapSumRemove(m, id);
    } else {
      assert m - {id} == m;
    }
  }

  /** `updateQuantity` moves the total quantity by exactly the change of that one count. */
  lemma ChangedTotal(m: map<string, int>, id: string, change: int)
    requires NonNegative(m)
    ensures NonNegative(Changed(m, id, change))
    ensures MapSum(Changed(m, id, change)) == MapSum(m) - Lookup(m, id) + Max0(Lookup(m, id) + change)
    ensures change >= 0 ==> MapSum(Changed(m, id, change)) == MapSum(m) + change
  {
    MapSumUpdate(m, id, Max0(Lookup(m, id) + change));
  }

  /** `setQuantity` makes the count `q` (or zero) and moves the total accordingly. */
  lemma SetToTotal(m: map<string, int>, id: string, q: int)
    requires NonNegative(m)
    ensures NonNegative(SetTo(m, id, q))
    ensures Lookup(SetTo(m, id, q), id) == Max0(q)
    ensures MapSum(SetTo(m, id, q)) == MapSum(m) - Lookup(m, id) + Max0(q)
  {
    MapSumUpdate(m, id, Max0(q));
  }

  /** `calculateTotal(ts)`: price times count, summed over the given ticket types in order. */
  function CalculateTotal(m: map<string, int>, ts: seq<TicketType>): real {
    if ts == [] then 0.0
    else CalculateTotal(m, ts[..|ts| - 1]) + ts[|ts| - 1].price * Lookup(m, ts[|ts| - 1].id) as real
  }

  /** `getSelectedTickets(ts)`: the ticket types with a positive count, in order, with their counts. */
  function SelectedTickets(m: map<string, int>, ts: seq<TicketType>): seq<Selection> {
    if ts == [] then []
    else
      var t := ts[|ts| - 1];
      SelectedTickets(m, ts[..|ts| - 1]) + (if Lookup(m, t.id) > 0 then [Selection(t, Lookup(m, t.id))] else [])
  }

  /** What the selected list holds: exactly the given ticket types with a positive count. */
  lemma {:induction false} SelectedTicketsSpec(m: map<string, int>, ts: seq<TicketType>)
    ensures |SelectedTickets(m, ts)| <= |ts|
    ensures forall s :: s in SelectedTickets(m, ts) <==>
      s.ticket in ts && s.quantity == Lookup(m, s.ticket.id) && s.quantity > 0
  {
    if ts != [] {
      var init := ts[..|ts| - 1];
      SelectedTicketsSpec(m, init);
      assert ts == init + [ts[|ts| - 1]];
    }
  }

  /**
   * Selecting keeps the input order: the selection from two lists joined is the selection
   * from the first followed by the selection from the second.
   */
  lemma {:induction false} SelectedTicketsAppend(m: map<string, int>, a: seq<TicketType>, b: seq<TicketType>)
    ensures SelectedTickets(m, a + b) == SelectedTickets(m, a) + SelectedTickets(m, b)
    decreases |b|
  {
    if b == [] {
      assert a + b == a;
    } else {
      var b' := b[..|b| - 1];
      assert (a + b)[..|a + b| - 1] == a + b';
      assert (a + b)[|a + b| - 1] == b[|b| - 1];
      SelectedTicketsAppend(m, a, b');
    }
  }

  function SelectionTotal(ss: seq<Selection>): real {
    if ss == [] then 0.0
    else SelectionTotal(ss[..|ss| - 1]) + ss[|ss| - 1].ticket.price * ss[|ss| - 1].quantity as real
  }

  lemma {:induction false} SelectionTotalAppend(a: seq<Selection>, b: seq<Selection>)
    ensures SelectionTotal(a + b) == SelectionTotal(a) + SelectionTotal(b)
    decreases |b|
  {
    if b == [] {
      assert a + b == a;
    } else {
      assert (a + b)[..|a + b| - 1] == a + b[..|b| - 1];
      SelectionTotalAppend(a, b[..|b| - 1]);
    }
  }

  /**
   * With no negative counts, pricing the selected list gives the same total as
   * `calculateTotal`: the ticket types left out all have a zero count.
   */
  lemma {:induction false} SelectedTotalIsCalculatedTotal(m: map<string, int>, ts: seq<TicketType>)
    requires NonNegative(m)
    ensures SelectionTotal(SelectedTickets(m, ts)) == CalculateTotal(m, ts)
  {
    if ts != [] {
      var init, t := ts[..|ts| - 1], ts[|ts| - 1];
      SelectedTotalIsCalculatedTotal(m, init);
      if Lookup(m, t.id) > 0 {
        var s := Selection(t, Lookup(m, t.id));
        SelectionTotalAppend(SelectedTickets(m, init), [s]);
        assert [s][..0] == [];
      } else {
        assert Lookup(m, t.id) == 0;
        assert SelectedTickets(m, ts) == SelectedTickets(m, init) + [];
        assert SelectedTickets(m, init) + [] == SelectedTickets(m, init);
      }
    }
  }

  /** The selector's state: the count picked per ticket type id. */
  class Selector {
    var quantities: map<string, int>

    ghost predicate Valid()
      reads this
    {
      NonNegative(quantities)
    }

    constructor ()
      ensures Valid() && quantities == map[]
    {
      quantities := map[];
    }

    /** The effect run when the ticket types change: every count is reset to zero. */
    method Reset(ticketTypes: seq<TicketType>)
      modifies this
      ensures Valid()
      ensures quantities.Keys == Ids(ticketTypes)
      ensures forall k :: k in quantities ==> quantities[k] == 0
    {
      if |ticketTypes| == 0 {
        quantities := map[];
        return;
      }
      quantities := InitialQuantities(ticketTypes);
    }

    method UpdateQuantity(ticketId: string, change: int)
      requires Valid()
      modifies this
      ensures Valid()
      ensures quantities == Changed(old(quantities), ticketId, change)
    {
      quantities := quantities[ticketId := Max0(Lookup(quantities, ticketId) + change)];
    }

    method SetQuantity(ticketId: string, quantity: int)
      requires Valid()
      modifies this
      ensures Valid()
      ensures quantities == SetTo(old(quantities), ticketId, quantity)
    {
      quantities := quantities[ticketId := Max0(quantity)];
    }

    /** `getTotalQuantity`: the counts summed one entry at a time. */
    method GetTotalQuantity() returns (total: int)
      requires Valid()
      ensures total == MapSum(quantities)
      ensures total >= 0
    {
      total := 0;
      var rest := quantities;
      while rest != map[]
        invariant total + MapSum(rest) == MapSum(quantities)
        invariant NonNegative(rest) && total >= 0
        decreases |rest.Keys|
      {
        var k :| k in rest;
        MapSumRemove(rest, k);
        total := total + rest[k];
        rest := rest - {k};
      }
      MapSumNonNegative(quantities);
    }
  }
}

=== FILE: webhook_route.dfy ===
/**
 * `/api/payment/webhook`. Despite its name, POST does not reconcile anything: it inserts a
 * pending transaction, asks the gateway for a preference for it, and records the checkout
 * link and preference id on that same row. GET reads a transaction back by its `order_id`.
 */
module WebhookRoute {
  import opened Wrappers
  import opened Js
  import opened Tables
  import opened Gateway

  datatype Response = Response(status: nat, message: string, data: Option<PaymentData>)

  /** The row POST inserts: the request's user and amount, status pending, `eventId || null` as order. */
  function NewTransaction(body: Value, id: string): (t: TransactionRow)
    ensures t.status == "pending" && t.id == id
    ensures t.userId == Prop(body, "userId") && t.amount == Prop(body, "totalAmount")
    ensures Truthy(Prop(body, "eventId")) ==> t.orderId == Prop(body, "eventId")
    ensures !Truthy(Prop(body, "eventId")) ==> t.orderId == Null
  {
    TransactionRow(id, Prop(body, "userId"), Prop(body, "totalAmount"), "pending",
                   Or(Prop(body, "eventId"), Null), Null, Null)
  }

  /** `.update({payment_url, preference_id}).eq("id", id)`: every row with that id gets both columns. */
  function Patched(txs: seq<TransactionRow>, id: string, url: Value, preferenceId: Value): (r: seq<TransactionRow>)
    ensures |r| == |txs|
    ensures forall i :: 0 <= i < |txs| ==>
      if txs[i].id == id then r[i] == txs[i].(paymentUrl := url, preferenceId := preferenceId) else r[i] == txs[i]
  {
    seq(|txs|, i requires 0 <= i < |txs| =>
      if txs[i].id == id then txs[i].(paymentUrl := url, preferenceId := preferenceId) else txs[i])
  }

  /** Patching the link and preference id never changes a transaction's status. */
  lemma PatchKeepsStatus(txs: seq<TransactionRow>, id: string, url: Value, preferenceId: Value)
    ensures forall i :: 0 <= i < |txs| ==> Patched(txs, id, url, preferenceId)[i].status == txs[i].status
    ensures AllTransactionsPending(txs) ==> AllTransactionsPending(Patched(txs, id, url, preferenceId))
    ensures TransactionIds(Patched(txs, id, url, preferenceId)) == TransactionIds(txs)
  {
    var r := Patched(txs, id, url, preferenceId);
    assert forall i :: 0 <= i < |txs| ==> r[i].id == txs[i].id;
  }

  /**
   * POST. `insertFails` and `updateFails` are query errors; `reply` is the gateway's parsed
   * answer, None when the request or its parsing throws. Only `transactions` may change.
   */
  method Post(db: Store, body: Value, newTxId: string, base: string, insertFails: bool,
              reply: Option<Value>, updateFails: bool)
    returns (resp: Response, sent: Option<Preference>)
    modifies db`transactions
    ensures body.Null? || body.Undefined? || insertFails || newTxId in TransactionIds(old(db.transactions)) ==>
      resp.status == 500 && sent.None? && db.transactions == old(db.transactions)
    ensures resp.status == 200 ==>
      var tx := NewTransaction(body, newTxId);
      reply.Some? && sent.Some?
      && sent.value.externalReference == newTxId && |sent.value.items| == 1 && sent.value.items[0].id == newTxId
      && db.transactions == Patched(old(db.transactions) + [tx], newTxId,
                                    CheckoutUrl(reply.value), Prop(reply.value, "id"))
      && resp.data == Some(PendingPayment(Prop(reply.value, "id"), Prop(body, "totalAmount"), reply.value))
    ensures resp.status == 200 || resp.status == 500
    ensures sent.Some? <==> (!(body.Null? || body.Undefined? || insertFails
                               || newTxId in TransactionIds(old(db.transactions)))
                             && PayerOf(Prop(body, "payer")).Some?)
    ensures sent.Some? ==> sent.value == PreferenceFor(newTxId, "Charge your balance", Prop(body, "totalAmount"),
                                                       PayerOf(Prop(body, "payer")).value, base, "Papel Restaurant")
    ensures resp.status == 200 <==> sent.Some? && reply.Some? && !reply.value.Null? && !reply.value.Undefined?
                                    && !updateFails
    ensures resp.status == 500 && !(body.Null? || body.Undefined? || insertFails
                                    || newTxId in TransactionIds(old(db.transactions))) ==>
      db.transactions == old(db.transactions) + [NewTransaction(body, newTxId)]
  {
    sent := None;
    if body.Null? || body.Undefined? {
      return Response(500, "", None), sent;
    }
    if insertFails || newTxId in TransactionIds(db.transactions) {
      return Response(500, "An unexpected error occurred", None), sent;
    }
    var tx := NewTransaction(body, newTxId);
    db.transactions := db.transactions + [tx];
    var payer := PayerOf(Prop(body, "payer"));
    if payer.None? {
      return Response(500, "", None), sent;
    }
    var pref := PreferenceFor(newTxId, "Charge your balance", Prop(body, "totalAmount"), payer.value,
                              base, "Papel Restaurant");
    sent := Some(pref);
    if reply.None? || reply.value.Null? || reply.value.Undefined? {
      return Response(500, "", None), sent;
    }
    var mp := reply.value;
    var resData := PendingPayment(Prop(mp, "id"), Prop(body, "totalAmount"), mp);
    if updateFails {
      return Response(500, "An unexpected error occurred", None), sent;
    }
    db.transactions := Patched(db.transactions, newTxId, CheckoutUrl(mp), Prop(mp, "id"));
    resp := Response(200, "", Some(resData));
  }

  /**
   * After a successful POST the new transaction is the last row, still pending, carrying the
   * checkout link and the gateway's preference id; every earlier row is as it was.
   */
  lemma PostedTransaction(txs: seq<TransactionRow>, body: Value, id: string, reply: Value)
    requires id !in TransactionIds(txs)
    ensures var r := Patched(txs + [NewTransaction(body, id)], id, CheckoutUrl(reply), Prop(reply, "id"));
      |r| == |txs| + 1 && r[..|txs|] == txs
      && r[|txs|].status == "pending" && r[|txs|].id == id
      && r[|txs|].paymentUrl == CheckoutUrl(reply) && r[|txs|].preferenceId == Prop(reply, "id")
  {
    var r := Patched(txs + [NewTransaction(body, id)], id, CheckoutUrl(reply), Prop(reply, "id"));
    forall i | 0 <= i < |txs| ensures r[i] == txs[i] {
      assert txs[i].id in TransactionIds(txs);
    }
  }

  /** The rows whose `order_id` is the given text. */
  function Matching(txs: seq<TransactionRow>, orderId: string): seq<TransactionRow> {
    if txs == [] then []
    else Matching(txs[..|txs| - 1], orderId) + (if txs[|txs| - 1].orderId == Str(orderId) then [txs[|txs| - 1]] else [])
  }

  datatype GetResponse = GetResponse(status: nat, message: string, transaction: Option<TransactionRow>)

  /**
   * GET: `.eq("order_id", eventId).single()` with the `eventId` query parameter. With the
   * parameter absent no row matches; `.single()` fails unless exactly one row matches.
   */
  function Get(eventId: Option<string>, txs: seq<TransactionRow>, queryFails: bool): (r: GetResponse)
    ensures r.status == 200 <==> !queryFails && eventId.Some? && |Matching(txs, eventId.value)| == 1
    ensures r.status == 200 ==>
      (r.transaction == Some(Matching(txs, eventId.value)[0]) && r.transaction.value.orderId == Str(eventId.value))
    ensures r.status != 200 ==> r.status == 500 && r.transaction.None?
  {
    if queryFails || eventId.None? then GetResponse(500, "An unexpected error occurred", None)
    else
      var rows := Matching(txs, eventId.value);
      MatchingSpec(txs, eventId.value);
      if |rows| == 1 then GetResponse(200, "", Some(rows[0]))
      else GetResponse(500, "An unexpected error occurred", None)
  }

  /** The matching rows are exactly the rows with that `order_id`. */
  lemma {:induction false} MatchingSpec(txs: seq<TransactionRow>, orderId: string)
    ensures forall t :: t in Matching(txs, orderId) <==> t in txs && t.orderId == Str(orderId)
  {
    if txs != [] {
      MatchingSpec(txs[..|txs| - 1], orderId);
      assert txs == txs[..|txs| - 1] + [txs[|txs| - 1]];
    }
  }
}

=== FILE: wrappers.dfy ===
/** Option and Result, as the rest of the model uses them for absent values and error paths. */
module Wrappers {

  datatype Option<+T> = None | Some(value: T) {
    function GetOr(default: T): T {
      match this
      case Some(v) => v
      case None => default
    }
  }

  datatype Result<+T, +E> = Ok(value: T) | Err(error: E)
}
